=== FILE: README.md ===
# Swift-to-TypeScript translator core and its runtime helpers, in Dafny

This project models the core of a translator from Swift source to TypeScript, together with the
small runtime library the generated code calls. The translator walks a concrete syntax tree node
by node and emits TypeScript text.

The translator's handlers are modelled as pure functions over a syntax-node datatype. Each
returns the emitted text and, where it calls `asType` itself, the import list those calls leave
behind. Imports registered inside a sub-node's translation are not tracked. A fatal error is a
`Result` error. The modelled handlers are:

- `asType`, the type-name mapping;
- `handleRHS`, identifier resolution;
- `processLiteral`, including dictionary and string literals;
- `processRangeExpression`;
- `handleCallSuffix`, with named-argument objects;
- `processSwitchStatement`;
- `processGuardStatement`;
- `processLambdaLiteral`, with `$n` parameter synthesis, `handleParam` and `handleFunctionType`;
- `processEnums` and `handleEnum`, the enum raw-value numbering;
- `processPropertyDeclaration` with `processTypeAnnotation`.

The translations of sub-nodes come from the rest of the translator. They are parameters: the
`Helpers` record of uninterpreted functions (`sub`, `findSib`, `lambdaReturn`, `parseStr`, ...).
The class and scope queries of the translation context are the `Context` record of query
functions.

The runtime helpers are modelled too:

- `Stride`, its `range()` generator, `toStride` and `stride(...)`, including their regular
  expressions, as an explicit matcher;
- `repeatElement`;
- the `args` named/positional adapter and its `asKeyValue`;
- the null-tolerant `map` and the `Optional` box;
- list selection: `id`, `isSelected` and `toggle` over a set-valued or single-valued bindable.

A generator is modelled as the sequence of values it yields, plus its return value. JavaScript
numbers are modelled as integers or `NaN`.

Points where the code behaves in a way a reader might not expect; the model follows the code:

- A call with both named and unnamed arguments is rendered positionally, and the names are
  dropped.
- The condition form of `guard` is not negated (see Findings).
- Synthesized `$n` lambda parameters are typed `unknown`, so a synthesized single parameter is
  still parenthesised.
- The `$\d+?` pattern is lazy: it takes one digit per reference.
- `handleRHS` has no "local variable wins" step. A name is a member access, a class
  instantiation, or left as written.
- `asType` returns the namespaced class name when a nested class matches.

## Model

| member | source | states |
|---|---|---|
| TypeMapper.AsType | transpile/src/transpile.ts:21-49 | Empty names stay empty. Built-in names map through the table. A nested class resolves to its namespaced name. Every other name is kept. An import is appended exactly for the names that need one, and the import list only grows. |
| TypeMapper.ImportsAppendOnly | transpile/src/transpile.ts:21-49 | Mapping a run of type names appends exactly the imports those names need, one per use, in order. |
| TypeMapper.AsTypeTextIgnoresScope | transpile/src/transpile.ts:21-49 | The text `asType` gives depends only on the known classes, not on the names in scope or the import list. |
| TypeMapper.BuiltInTargetsAreFixed | transpile/src/transpile.ts:23-25 | With the default table, the target of a built-in type maps to itself. Neither mapping imports anything. |
| TypeMapper.HandleRHS | transpile/src/transpile.ts:165-182 | A class member becomes `this.x`. A known class, namespaced name first, becomes `new C`. |
| TypeMapper.RHSFormReveals | transpile/src/transpile.ts:165-182 | The emitted prefix tells, in both directions, how the name was resolved: `this.` exactly for members, `new ` exactly for known classes, and the bare name otherwise. |
| Literals.NumericLiteral | transpile/src/transpile.ts:487-499 | A number before a member access gains a trailing `.` exactly when its text has none, so the output always contains a dot there. |
| Literals.NumericLiteralIdempotent | transpile/src/transpile.ts:495-497 | Rewriting a rewritten literal changes nothing. |
| Literals.SelfLiteral | transpile/src/transpile.ts:500-515 | `self` becomes `this as any` exactly when an arithmetic or compound-assignment operator follows; otherwise it is `this`. |
| Literals.DictionaryLiteral | transpile/src/transpile.ts:448-459 | An empty literal gives the empty text, and one opening with `[` starts with `{` and a line break. |
| Literals.DictionaryIsReduce | transpile/src/transpile.ts:448-459 | Concatenating the per-child pieces equals the source's left fold from the empty string. |
| Literals.StringLiteral | transpile/src/transpile.ts:524-534 | The raw text is the second child's text, or the whole text. Without interpolations it is emitted as a JSON string. Otherwise each interpolated value is translated afresh and the parts composed into a template. |
| Literals.PlainStringRoundTrip | transpile/src/transpile.ts:524-530 | A string literal without interpolations is emitted as a JSON string that reads back as the original text. |
| Literals.ProcessLiteral | transpile/src/transpile.ts:485-537 | The node is handled exactly when it is a literal kind. `nil` becomes `undefined`. Numeric kinds go through the suffix rule. Only array literals can register an import. |
| Strings.UnescapeEscape | transpile/src/transpile.ts:529 | `JSON.stringify` of a string is inverted by reading the literal back. |
| Ranges.ProcessRange | transpile/src/transpile.ts:183-203 | Only a `range_expression` is accepted. `inclusive` holds exactly when a `...` token is present. `from` and `to` are the first two non-operator operands. |
| Ranges.HalfOpenAndClosed | transpile/src/transpile.ts:189-196 | In `a..<b` and `a...b` the operator token is not an operand; the operands are the two translated bounds. |
| CallSuffix.ArgumentStep | transpile/src/transpile.ts:247-265 | A `:` turns the value read so far into the argument's name. Any other child sets the value and keeps the name. |
| CallSuffix.ValueArguments | transpile/src/transpile.ts:221-276 | There is one argument per `value_argument`. A range in argument position is an error. |
| CallSuffix.SuffixArgs | transpile/src/transpile.ts:210-283 | There is one argument per closure and per value argument. |
| CallSuffix.RenderArgs | transpile/src/transpile.ts:284-290 | No arguments give `()`. If any argument is unnamed, the values are joined positionally. If all are named, an object literal of `name:value` entries is rendered. |
| CallSuffix.PositionalIgnoresNames | transpile/src/transpile.ts:284-288 | Once one argument is unnamed, the output depends only on the values. |
| CallSuffix.PositionalReadsBack | transpile/src/transpile.ts:284-288 | If no value contains a comma, splitting the positional list gives back the values in order. |
| CallSuffix.HandleCallSuffix | transpile/src/transpile.ts:204-291 | Any other node kind is rejected. A suffix is accepted exactly when its children collect into arguments, one per argument child. With no arguments it renders `()`. With an unnamed one it renders the values comma-separated in parentheses. With all arguments named it renders one object literal of `name:value` entries. |
| CallSuffix.NamedArgument | transpile/src/transpile.ts:244-268 | `x: e` yields the argument named `x` whose value is `e`'s translation. |
| CallSuffix.MixedArgumentsArePositional | transpile/src/transpile.ts:204-291 | `f(x: a, b)` is emitted as `(a,b)`. |
| CallSuffix.NamedArgumentsBecomeObject | transpile/src/transpile.ts:204-291 | `f(x: a, y: b)` is emitted as `({x:a,y:b})`. |
| Switch.ChildPieces | transpile/src/transpile.ts:397-426 | A child of an entry is accepted exactly when its kind is known. The pattern colon is swallowed and yields nothing, so labels stack. A comma yields exactly one case separator. A body is followed by `break`. A `.m` pattern is qualified by the current class. |
| Switch.EntryPieces | transpile/src/transpile.ts:396-427 | An entry is accepted exactly when every child is. Every body ends in `break`. There is one `break` per statement block and one case separator per comma. |
| Switch.SwitchChild | transpile/src/transpile.ts:387-440 | `self` becomes `this`, `switch` opens a parenthesis, `{` closes it and `}` is kept. An identifier is resolved by `handleRHS`. An entry is the rendering of its pieces. Any other kind is rejected. |
| Switch.SwitchChildren | transpile/src/transpile.ts:385-442 | All children translate or none does, and each translation is the child's own. |
| Switch.ProcessSwitch | transpile/src/transpile.ts:382-444 | Only a switch statement whose children all translate is accepted. The output is the concatenation, in order, of the children's translations, each entry being its pieces with a `break` after every body. |
| Switch.SwitchAccepted | transpile/src/transpile.ts:385-442 | A switch is accepted exactly when every child has a known kind and every entry child is accepted. |
| Switch.PatternsQualified | transpile/src/transpile.ts:412-418 | Every `.m` pattern of an accepted entry appears as the label `C.m`, and a current class exists. |
| Guard.Classify | transpile/src/transpile.ts:460-478 | A guard is read as the binding form or the condition form. A guard lacking a child the code reads is an error. |
| Guard.CheckFixed | transpile/src/transpile.ts:470-475 | The test the lowering needs enters the block exactly when the Swift guard exits. |
| Guard.ProcessGuard | transpile/src/transpile.ts:460-478 | A guard is accepted exactly when it has the children the code reads. The binding form emits `if (x == null){` around the statements found after the subject `x`, then `const name = x`. The condition form emits `if(c){` with the condition's own translation `c`, around the statements found after child 2. |
| Guard.ProcessGuardFixed | transpile/src/transpile.ts:460-478 | The corrected lowering accepts the same guards. It keeps the binding form and emits `if(!(c)){` for the condition form. |
| Guard.GuardLetFaithful | transpile/src/transpile.ts:464-469 | The binding form enters its block exactly when the Swift guard exits, and it ends by declaring the bound name. |
| Guard.GuardCondInverted | transpile/src/transpile.ts:470-475 | As written, the condition form enters its block exactly when the Swift guard would NOT exit. |
| Guard.GuardCondCounterexample | transpile/src/transpile.ts:472 | With a true condition, the emitted block runs although the Swift guard falls through. |
| Guard.GuardFixedFaithful | transpile/src/transpile.ts:460-478 | The corrected lowering agrees with the Swift guard in every environment, in both forms. |
| Lambda.DollarMatches | transpile/src/transpile.ts:865 | Every match of the `$n` pattern is a `$` followed by one digit. |
| Lambda.DollarMatchesAreAllRefs | transpile/src/transpile.ts:865 | The scanning matcher finds every `$`-digit occurrence, in order, with duplicates. |
| Lambda.TypeNode | transpile/src/transpile.ts:725-726 | A `user_type` gets the text `asType` gives its name and appends the import that name needs. Any other node leaves the import list as it was. The text does not depend on the import list. |
| Lambda.ParamStep | transpile/src/transpile.ts:783-809 | A child is accepted exactly when its kind is known. The first identifier is the name and the second the internal name. `optional_type` marks the parameter optional. A `user_type` types the parameter with the `asType` text of its name. Imports only grow, and the import a child's type name needs is in the list afterwards. |
| Lambda.HandleParam | transpile/src/transpile.ts:781-811 | A parameter is accepted exactly when every child kind is known. It is optional exactly when it has an `optional_type` child, and untyped when no child sets a type. The earlier imports are kept, and every import its type names need is in the list afterwards. |
| Lambda.NamedParam | transpile/src/transpile.ts:781-811 | `x` gives an untyped parameter `x`. `x: T` gives `x` typed with `asType`'s text for `T`, and `T`'s import is appended when it needs one. |
| Lambda.TupleItems | transpile/src/transpile.ts:757-771 | A tuple is accepted exactly when every child is a parenthesis or an item. The return type is untouched and imports only grow. |
| Lambda.TupleItemsParams | transpile/src/transpile.ts:763-766 | Each item appends one `_:T` parameter, in order, where `T` is the type text of the item's first child (`unknown` when empty). |
| Lambda.FnTypeParts | transpile/src/transpile.ts:748-775 | The children are accepted exactly when every kind is known. Imports only grow. |
| Lambda.FnTypePartsParams | transpile/src/transpile.ts:757-771 | The parameters are the items of every tuple, in order. |
| Lambda.FnTypePartsReturn | transpile/src/transpile.ts:746-752 | The return type is the text of the last `user_type`, or the starting one when there is none. |
| Lambda.HandleFunctionType | transpile/src/transpile.ts:741-780 | A function type is accepted exactly when every child kind is known. It renders `()=>R` without items and `(_:T1,...)=>R` with them. The `Ti` are the items' types in order. `R` is the `asType` text of the last return type, or `unknown`. Imports only grow. |
| Lambda.DefaultReturnType | transpile/src/transpile.ts:741-780 | A function type with no return type returns `unknown`. |
| Lambda.OneParamFunctionType | transpile/src/transpile.ts:741-780 | `(A) -> R` renders `(_:A')=>R'`, where `A'` and `R'` are `asType`'s texts. The imports the two names need are appended, `A`'s first. |
| Lambda.LambdaParams | transpile/src/transpile.ts:835-846 | There is one parameter per `lambda_parameter`. The statements are untouched and imports only grow. |
| Lambda.LambdaType | transpile/src/transpile.ts:825-851 | The declared parameters are appended. A declared return type registers its import but adds no text. Imports only grow. |
| Lambda.LambdaChildren | transpile/src/transpile.ts:817-861 | The closure gets exactly the parameters its function-type children declare. Imports only grow. |
| Lambda.Synthesized | transpile/src/transpile.ts:863-868 | There is one `unknown`-typed parameter per `$n` match, in order. |
| Lambda.ProcessLambda | transpile/src/transpile.ts:812-875 | Only a lambda literal whose children are all handled is accepted, and imports only grow. With no declared parameter it renders `(ps)=>body`, where `ps` has one `unknown`-typed parameter per `$n` occurrence of the body, in order. Declared parameters are kept, and the bare `p=>` form is used exactly for a single untyped one. |
| Lambda.SynthesizedParams | transpile/src/transpile.ts:863-873 | Without declared parameters, the list equals the one built from every `$n` occurrence of the body, typed `unknown`, and never takes the bare `p=>` form. |
| Lambda.DeclaredParamsWin | transpile/src/transpile.ts:864 | Declared parameters are kept whatever the body mentions. |
| Lambda.TwoRefs | transpile/src/transpile.ts:865-867 | `$0 + $1` synthesizes `$0` then `$1`. |
| Enums.BareCase | transpile/src/transpile.ts:1541-1549 | Before any integer raw value, a bare case gets its own name (untyped enum) or nothing (typed enum). After one, it gets the counter plus one, and the counter advances. |
| Enums.EntryStep | transpile/src/transpile.ts:1529-1556 | A comma pushes the current case. An integer literal sets the raw value and the counter. An identifier names the case. |
| Enums.EntrySteps | transpile/src/transpile.ts:1529-1556 | There is one case per comma, and earlier cases are kept. |
| Enums.ProcessEntry | transpile/src/transpile.ts:1521-1558 | An entry declares one case more than it has commas, after the earlier ones. |
| Enums.BodyCases | transpile/src/transpile.ts:1516-1572 | A body is accepted exactly when every child kind is known. The case count is the sum over its entries. |
| Enums.ProcessEnums | transpile/src/transpile.ts:1511-1575 | The enclosing class must exist and every child must be known. The number of cases is the number declared. |
| Enums.BareRunNumbering | transpile/src/transpile.ts:1541-1549 | In `case a, b, c` with counter `k`, the cases get `k+1, k+2, ...` in order and the counter ends `|names|` higher. Without a counter each case gets its initial form. |
| Enums.RawValueSetsCounter | transpile/src/transpile.ts:1550-1552 | `case x = t` makes `t` the raw value and sets the counter to it. |
| Enums.NumberingContinues | transpile/src/transpile.ts:1541-1552 | After `case a = 5`, the next bare case is numbered 6. |
| Enums.QualifiedNames | transpile/src/transpile.ts:1499-1507 | `allCases` lists `C.name` for each case, in order. |
| Enums.RawValueType | transpile/src/transpile.ts:1493 | The raw value has the inherited type, or `string` when none is given. |
| Enums.EnumChildren | transpile/src/transpile.ts:1466-1485 | The children are accepted exactly when each kind is known and a body comes after the enum's name. The scope afterwards has every name declared. Imports only grow. |
| Enums.EnterAllClass | transpile/src/transpile.ts:1471-1475 | After the children, the current class is the last one named, or the one current before. |
| Enums.EnumChildrenCases | transpile/src/transpile.ts:1479-1481 | The cases are as many as the last body declares. Without a body there are none. |
| Enums.EnumChildrenTypeParam | transpile/src/transpile.ts:1476-1478 | The raw-value type is the `asType` text of the last inheritance clause, read in the scope of the names declared before it. |
| Enums.HandleEnum | transpile/src/transpile.ts:1462-1510 | An enum is accepted exactly when every child is handled and some class is current at the end. It is the class of its last name, or the class already current. It has as many cases as its last body declares. Its raw value has the last inheritance clause's type, or `string`. `allCases` lists every case as `Name.case`, in order. When the array type needs an import, that import comes last, after the earlier imports. |
| Enums.DefaultRawValueType | transpile/src/transpile.ts:1466-1496 | Without an inheritance clause the raw value is typed `string`. |
| Enums.ThreeStringCases | transpile/src/transpile.ts:1521-1558 | `case a, b, c` in an untyped enum gives `E("a")`, `E("b")`, `E("c")`. |
| Property.Keyword | transpile/src/transpile.ts:136-141 | `let` becomes `const`, `var` becomes `let`, and no other kind yields a keyword. |
| Property.KeywordKeepsMutability | transpile/src/transpile.ts:136-141 | The keyword mapping is injective, and the reassignable target `let` comes exactly from Swift `var`. |
| Property.AnnotationStep | transpile/src/transpile.ts:1045-1066 | Only known type kinds are accepted. A plain or opaque type is typed with `asType`'s text of its name, an optional with that of its wrapped name, and marked optional. An array becomes `Array<T>` with `T` the `asType` text of its element name, and its `SwiftArrayT` import. The colon keeps the type. Imports only grow. |
| Property.ProcessTypeAnnotation | transpile/src/transpile.ts:1040-1071 | An annotation is accepted exactly when every child kind is known and the last type-setting child gives a non-empty type; that type is the result. It is optional exactly when an optional child is present, and imports only grow. |
| Property.StepsType | transpile/src/transpile.ts:1045-1066 | Over a run of children the type is the one the last type-setting child gives, or the starting one when none sets it. |
| Property.AnnotatedType | transpile/src/transpile.ts:153 | An optional type is written with `\| undefined`. |
| Property.Bind | transpile/src/transpile.ts:142-146 | Binding a name puts it in scope and keeps the names already in scope. |
| Property.DeclStep | transpile/src/transpile.ts:131-159 | Each child adds a piece. A keyword adds its mapped keyword. Only a type annotation can add imports. |
| Property.DeclSteps | transpile/src/transpile.ts:131-159 | The pieces and imports so far are kept. Without a type annotation no import is added. |
| Property.AnnotationIgnoresScope | transpile/src/transpile.ts:1040-1071 | An annotation reads the same type, optionality and errors whatever the names in scope and the import list it starts from. |
| Property.AllPiecesIgnoreScope | transpile/src/transpile.ts:127-163 | The pieces of a declaration do not depend on the names in scope. |
| Property.DeclStepsPieces | transpile/src/transpile.ts:127-163 | Threading the scope and the imports through the children yields exactly the pieces each child contributes on its own. |
| Property.ProcessPropertyDeclaration | transpile/src/transpile.ts:127-163 | A declaration is accepted exactly when it is a property declaration whose children each yield their pieces. The output is all the children's pieces, in order, joined with spaces. Imports only grow, and only a type annotation adds any. |
| Property.LeadingKeyword | transpile/src/transpile.ts:127-163 | A declaration starting with `let` is emitted starting with `const `, and one starting with `var` starting with `let `. |
| Property.PatternScopesAnnotation | transpile/src/transpile.ts:142-156 | The declared name is in scope for its annotation, so it is never imported. |
| JsNumber.ToNumber | transpile/src/transpile.ts:1551 | `Number` of a digit string is its decimal value, and blank text is 0. |
| JsNumber.NumberRoundTrip | transpile/src/transpile.ts:1551 | Printing an integer and reading it back gives the integer. |
| JsNumber.Increment | transpile/src/transpile.ts:1547 | `++n` adds one to an integer and keeps `NaN`. |
| JsNumber.HexLiteral | transpile/src/transpile.ts:1551 | `Number("0x1F")` is 31. |
| JsNumber.SeparatorIsNaN | transpile/src/transpile.ts:1551 | `Number("1_000")` is `NaN`. |
| Strides.NewStride | util/src/stride.ts:4-22 | A missing `to` makes the range `0..from`. A missing step is 1. |
| Strides.Run | util/src/stride.ts:31-38 | The loop descends when `from > to` and ascends otherwise. It ends on the first value not yielded. |
| Strides.AscendingMembers | util/src/stride.ts:35-38 | The ascending loop yields exactly the values `from + k*step` below `to`. |
| Strides.DescendingMembers | util/src/stride.ts:31-34 | The descending loop yields exactly the values `from - k*step` at or above `to`. |
| Strides.Range | util/src/stride.ts:24-41 | An exclusive stride is the plain loop. |
| Strides.ExclusiveAscending | util/src/stride.ts:35-38 | An exclusive ascending stride is `from, from+step, ...` below `to`. `from == to` yields nothing. |
| Strides.InclusiveMovesTo | util/src/stride.ts:28-30 | `inclusive` is the exclusive range with `to` moved one step away from `from`. |
| Strides.ExclusiveDescendingIncludesTo | util/src/stride.ts:31-34 | A descending stride includes `to` exactly when it is reachable in whole steps, even without `inclusive`. |
| Strides.InclusiveEqualBoundsOvershoots | util/src/stride.ts:28-34 | As written, the closed stride `3...3` yields `[3, 2]`. |
| Strides.InclusiveUnevenOvershoots | util/src/stride.ts:28-38 | As written, `1` through `6` by `2` yields `[1, 3, 5, 7]`. |
| Strides.RangeFixed | util/src/stride.ts:24-41 | Corrected, an inclusive range yields exactly the reachable values up to and including `to`, in either direction. |
| Strides.InclusiveFixedExamples | util/src/stride.ts:24-41 | Corrected, `3...3` is `[3]` and `1` through `6` by `2` is `[1, 3, 5]`. |
| Strides.RangeLiteralMatches | util/src/stride.ts:44 | The pattern matches a range literal at its start and reads back both numbers and the operator. |
| Strides.ToStride | util/src/stride.ts:43-46 | A literal gives a unit-step stride whose bounds are the numbers the two digit captures read, and whose `inclusive` is set exactly when `<` follows the dots. |
| Strides.HalfOpenMarkedInclusive | util/src/stride.ts:44-45 | As written, `a..<b` becomes an inclusive stride and `a...b` an exclusive one. |
| Strides.ToStrideFixed | util/src/stride.ts:43-46 | Corrected, `inclusive` is set exactly for the closed `...` form. |
| Strides.ToStrideFixedReadsBack | util/src/stride.ts:43-46 | Corrected, `a..<b` and `a...b` read back their bounds with the right closedness. |
| Strides.StrideStr | util/src/stride.ts:48-87 | A string argument without a range literal yields nothing and returns `NaN`. With one, it walks from the literal's start towards its end in whole steps, yields every value before it passes the end, and returns the first value it does not yield. |
| Strides.StrideNum | util/src/stride.ts:48-87 | `stride(from, to, step)` walks from `from` towards `to` in whole steps, yields every value before it passes `to`, and returns the first value it does not yield. So `stride(n)` yields `0, 1, ..., n-1` and returns `n`. |
| Strides.WalksUnique | util/src/stride.ts:31-38 | The description of a walk determines it: any two value sequences and return values that fit the same bounds and step are equal. |
| Strides.StrideHalfOpen | util/src/stride.ts:54-60 | `stride("a..<b")` yields exactly `a .. b-1` and returns `b`. |
| Strides.ClosedLiteralYieldsNothing | util/src/stride.ts:55-60 | As written, `stride("1...5")` yields nothing. |
| Strides.StrideFixedClosed | util/src/stride.ts:54-60 | Corrected, `stride("a...b")` yields exactly `a .. b`. |
| Strides.StrideFixedHalfOpen | util/src/stride.ts:54-60 | Corrected, `stride("a..<b")` still yields exactly `a .. b-1`. |
| Strides.RepeatElement | util/src/stride.ts:94-99 | The element is yielded `max(count, 0)` times, and the result records the count and the element. |
| JsValues.ToKey | util/src/args.ts:69 | A string key names itself, and only a symbol gives a symbol key. |
| JsValues.NumberKeysDistinct | util/src/args.ts:69 | Different integers name different properties. |
| Args.AssignedKeys | util/src/args.ts:66-73 | The object's keys are exactly the keys written so far. |
| Args.AssignedLast | util/src/args.ts:66-73 | A key's value is the one after its last occurrence. |
| Args.AsKeyValue | util/src/args.ts:64-75 | The result is `undefined` exactly when some even position is not a string, number or symbol. Otherwise the keys are exactly those written, the last occurrence wins, and an odd trailing key maps to `undefined`. |
| Args.Args | util/src/args.ts:77-88 | One argument is passed through. Otherwise there is an error exactly when the pairs are not valid keys, with the source's message. Zero arguments give `{}`. The object's keys are exactly those written, each key's value is the one after its last occurrence, and an odd trailing key maps to `undefined`. |
| UtilTypes.MapItems | util/src/types.ts:144-149 | The array case yields at most one truthy value per element. |
| UtilTypes.Map | util/src/types.ts:141-154 | A missing single value gives `[]` and a present one `[transform(v)]`. An array gives only truthy results. |
| UtilTypes.MapIsMapThenFilter | util/src/types.ts:144-149 | The one-pass model equals the source's `map` followed by `filter(Boolean)`. |
| UtilTypes.MapMembers | util/src/types.ts:144-149 | A value is in the result exactly when it is the truthy image of a present element. |
| UtilTypes.MapKeepsTruthy | util/src/types.ts:144-149 | When all elements are present with truthy images, the result is the element-wise image. |
| UtilTypes.OptionalValues | util/src/types.ts:120-126 | `some(v).value` is `v` and `none.value` is `null`. As values of the model, the two boxes never coincide and `some` is injective. |
| Selection.Id | ui/src/List/Selection.ts:7-9 | An object item is identified by its `id`, a string item by its own text. |
| Selection.IsSelected | ui/src/List/Selection.ts:20-26 | With a set selection an item is selected exactly when its id is in the set, with a single one exactly when its id is the answer. |
| Selection.SelectionById | ui/src/List/Selection.ts:20-26 | Whether an item is selected depends only on its id. |
| Selection.Toggle | ui/src/List/Selection.ts:27-40 | The bindable is written once. In set mode the item's selection flips and no other id changes. In single mode the answer is cleared when the item is identical to it, and otherwise the item becomes selected. |
| Selection.ToggleTwiceRestores | ui/src/List/Selection.ts:30-37 | In set mode, toggling twice restores the set. |
| Selection.TextItemToggles | ui/src/List/Selection.ts:39 | In single mode a string item's selection flips. |
| Selection.RecordNeverDeselected | ui/src/List/Selection.ts:39 | As written, a selected object item in single mode stays selected when toggled. |
| Selection.ToggleFixed | ui/src/List/Selection.ts:27-40 | Corrected, toggling flips the item's selection in both modes and touches no other id. |
| Selection.ToggleFixedAgrees | ui/src/List/Selection.ts:27-40 | The correction agrees with the code everywhere except for object items in single mode. |

## Left out

- Parsing (tree-sitter), the `ts-morph` output project, file I/O and `console.log`: sub-node translation, `findSib`, `lambdaReturn`, `parseStr`, `toStringLit` and `toParamStr` are uninterpreted parameters.
- The class-registration side effects of `ctx.add`/`addImport` beyond the import list: a sub-translation does not see context changes a sibling made.
- Imports registered inside a sub-node's translation (the `sub` parameter) are not tracked: the modelled import lists hold only the imports of the handlers' own `asType` calls. This includes a `function_type` nested inside a tuple item or a closure's statements.
- Errors raised while translating a sub-node: `sub` is a total function, so a nested translation never fails. In the code, `processNode` throws on an `ERROR` node (transpile.ts:730-731) and reports other unknown kinds through `ctx.unknownType` (transpile.ts:733). Each "accepted exactly when" statement covers only the handler's own checks.
- `ctx.unknownType`: `ContextImpl` is not part of this model. A handler's own unknown child kind is modelled as a fatal `UnknownNode` error. If `unknownType` only reports, the code goes on after it, for example `processNode` returns the node's text (transpile.ts:733-734), and the model does not describe that continuation.
- TypeMapper.AsType: the table lookup `name in builtInTypeMap` (transpile.ts:23-24) also finds the members JavaScript objects inherit, such as `toString`; the model's table is a plain map, so such a name is kept and imported instead.
- `handleCallExpression`, `processNode`'s dispatch and the class/function handlers: they only reach the modelled handlers through the `sub` parameter.
- `class_declaration` and `property_declaration` children of an enum body are accepted without adding cases; their translation is not modelled.
- The declared return type of a lambda is translated but its text is unused by the source; the model registers its import through `asType` and drops the text likewise.
- Floating-point numbers, exponents and fractional literals: `Number` is modelled on integer text (decimal, `0x`/`0o`/`0b`) and `NaN`.
- Strides.Range: the inclusive case is stated through `InclusiveMovesTo` rather than as a closed form, because as written it is not the intended one (see Findings).
- Strides.ToStride: a non-matching string is `None` instead of a stride with `NaN` bounds; that stride's range is empty, as `StrideStr` states for `stride`.
- Strides.StrideStr: requires a positive step; a zero or negative step makes the source loop forever, which a total function cannot express.
- Strides.RepeatElement: a non-integer `count` is not modelled; the yielded values are a sequence, not a lazy generator.
- Args.AsKeyValue: the `__proto__` key and other prototype-mutating keys are treated as ordinary keys; numbers are integers.
- Selection.Toggle: the `CountSet` multiset and the reactive `Bindable` proxy are modelled as a set of ids and a write counter.
- UtilTypes.OptionalValues: the clauses "`some(v)` and `none` never coincide" and "`some` is injective" hold for the model's value equality of boxes. JavaScript compares boxes by identity, and there `some(null).value === none.value`.
- Enums.HandleEnum: the contents of the cases are stated per entry (`ProcessEntry` and the numbering lemmas), not again for the whole enum; the whole-enum contract states their number.
- The type-level machinery of the utility library (`AllArgs`, `Fn`, mapped types) has no runtime behaviour.

## Findings

| source | as written | input that shows it | evidently intended | confidence | as-written member | corrected member |
|---|---|---|---|---|---|---|
| transpile/src/transpile.ts:472 | the condition form emits `if(cond){ else-body }` | `guard ready else { return }` with `ready` true runs `return` | `if(!(cond))`, entering the else-body only when the condition fails | not executed | Guard.GuardCondCounterexample | Guard.GuardFixedFaithful |
| util/src/stride.ts:28-34 | with `from == to`, `inclusive` moves `to` down by a step and the descending loop runs | `new Stride(3, 3, 1, true).range()` yields 3, 2 | the closed range `3...3` yields only 3 | not executed | Strides.InclusiveEqualBoundsOvershoots | Strides.RangeFixed |
| util/src/stride.ts:28-38 | `inclusive` adds a whole step to `to`, passing it when the span is not a multiple of the step | `new Stride(1, 6, 2, true).range()` yields 1, 3, 5, 7 | stop at the last value not above `to` (1, 3, 5) | not executed | Strides.InclusiveUnevenOvershoots | Strides.RangeFixed |
| util/src/stride.ts:44-45 | `inclusive` is set when `<` is present | `toStride("1..<5")` is inclusive and `toStride("1...5")` exclusive | `..<` is half-open, `...` closed | not executed | Strides.HalfOpenMarkedInclusive | Strides.ToStrideFixedReadsBack |
| util/src/stride.ts:55 | the pattern allows exactly two dots | `stride("1...5")` matches `1..` with an empty end and yields nothing | accept `...` as the closed form, yielding 1 to 5 | not executed | Strides.ClosedLiteralYieldsNothing | Strides.StrideFixedClosed |
| ui/src/List/Selection.ts:39 | `v === answer` compares the item, not its id, with the stored id | in single mode with answer `"a"`, toggling the object `{id: "a"}` keeps it selected | compare `vid === answer`, deselecting it | not executed | Selection.RecordNeverDeselected | Selection.ToggleFixed |

=== FILE: args.dfy ===
/** The named-or-positional argument adapter: a call with one argument passes it through, any
    other call is read as an alternating key/value list and passed on as one object. */
module Args {
  import opened Wrappers
  import opened JsValues

  /** `all[i]`, which is `undefined` past the end. */
  function ValueAt(all: seq<Value>, i: nat): Value
  {
    if i < |all| then all[i] else Undefined
  }

  /** Every even position holds a string, number or symbol. */
  predicate ValidKeys(all: seq<Value>)
  {
    forall i :: 0 <= i < |all| && i % 2 == 0 ==> IsKey(all[i])
  }

  /** No even position after `i` and before `n` names the same key as position `i`. */
  predicate LastBefore(all: seq<Value>, i: nat, n: nat)
    requires i < |all| && IsKey(all[i])
  {
    forall j :: i < j < n && j < |all| && j % 2 == 0 && IsKey(all[j]) ==> ToKey(all[j]) != ToKey(all[i])
  }

  /** The key `k` is written at some even position before `n`. */
  predicate KeyBefore(all: seq<Value>, k: Key, n: nat)
  {
    exists i :: 0 <= i < n && i < |all| && i % 2 == 0 && IsKey(all[i]) && ToKey(all[i]) == k
  }

  /** Every even position before `n` holds a key. */
  predicate KeysBefore(all: seq<Value>, n: nat)
  {
    forall j :: 0 <= j < n && j < |all| && j % 2 == 0 ==> IsKey(all[j])
  }

  /** The object after the pairs starting before `n` have been assigned, left to right. */
  function Assigned(all: seq<Value>, n: nat): map<Key, Value>
    requires n % 2 == 0 && KeysBefore(all, n)
  {
    if n == 0 then map[]
    else if n - 2 < |all| then Assigned(all, n - 2)[ToKey(all[n - 2]) := ValueAt(all, n - 1)]
    else Assigned(all, n - 2)
  }

  /** The object's keys are the keys written so far. */
  lemma {:induction false} AssignedKeys(all: seq<Value>, n: nat, k: Key)
    requires n % 2 == 0 && KeysBefore(all, n)
    ensures k in Assigned(all, n) <==> KeyBefore(all, k, n)
  {
    if n > 0 {
      AssignedKeys(all, n - 2, k);
      if KeyBefore(all, k, n) && !KeyBefore(all, k, n - 2) {
        var i :| 0 <= i < n && i < |all| && i % 2 == 0 && IsKey(all[i]) && ToKey(all[i]) == k;
        assert i == n - 2;
      }
      if n - 2 < |all| && ToKey(all[n - 2]) == k {
        assert KeyBefore(all, k, n);
      }
    }
  }

  /** A key's value is the one after its last occurrence. */
  lemma {:induction false} AssignedLast(all: seq<Value>, n: nat, j: nat)
    requires n % 2 == 0 && KeysBefore(all, n)
    requires j < n && j < |all| && j % 2 == 0 && LastBefore(all, j, n)
    ensures ToKey(all[j]) in Assigned(all, n) && Assigned(all, n)[ToKey(all[j])] == ValueAt(all, j + 1)
  {
    if j < n - 2 {
      assert LastBefore(all, j, n - 2);
      AssignedLast(all, n - 2, j);
      if n - 2 < |all| {
        assert ToKey(all[n - 2]) != ToKey(all[j]);
      }
    }
  }

  /** The object the pairs of `all` describe: its keys are exactly the keys written, each key
      holds the value after its last occurrence, and an odd trailing key holds `undefined`. */
  ghost predicate PairsObject(all: seq<Value>, m: map<Key, Value>)
    requires ValidKeys(all)
  {
    && (forall k :: k in m <==> KeyBefore(all, k, |all|))
    && (forall i :: 0 <= i < |all| && i % 2 == 0 && LastBefore(all, i, |all|) ==>
          ToKey(all[i]) in m && m[ToKey(all[i])] == ValueAt(all, i + 1))
    && (|all| % 2 == 1 ==> ToKey(all[|all| - 1]) in m && m[ToKey(all[|all| - 1])] == Undefined)
  }

  /** `asKeyValue`: the object built from the pairs, or `None` (`undefined`) as soon as a key
      position holds anything but a string, number or symbol. A later duplicate key overwrites
      an earlier one, and an odd trailing key maps to `undefined`. */
  method AsKeyValue(all: seq<Value>) returns (r: Option<map<Key, Value>>)
    ensures r.None? <==> !ValidKeys(all)
    ensures r.Some? ==> PairsObject(all, r.value)
  {
    var ret: map<Key, Value> := map[];
    var i := 0;
    while i < |all|
      invariant i % 2 == 0 && 0 <= i <= |all| + 1
      invariant KeysBefore(all, i)
      invariant ret == Assigned(all, i)
    {
      if !IsKey(all[i]) {
        return None;
      }
      ret := ret[ToKey(all[i]) := ValueAt(all, i + 1)];
      i := i + 2;
    }
    forall k ensures k in ret <==> KeyBefore(all, k, |all|) {
      AssignedKeys(all, i, k);
    }
    forall j | 0 <= j < |all| && j % 2 == 0 && LastBefore(all, j, |all|)
      ensures ToKey(all[j]) in ret && ret[ToKey(all[j])] == ValueAt(all, j + 1)
    {
      AssignedLast(all, i, j);
    }
    if |all| % 2 == 1 {
      assert LastBefore(all, |all| - 1, |all|);
    }
    return Some(ret);
  }

  /** What the wrapped function is called with: the single argument itself, or the object
      built from the pairs. */
  datatype Call = Single(arg: Value) | Object(fields: map<Key, Value>)

  /** `args(fn)(...all)`: which argument `fn` receives, or the error thrown. */
  method Args(all: seq<Value>) returns (r: Result<Call, string>)
    ensures |all| == 1 ==> r == Ok(Single(all[0]))
    ensures |all| != 1 ==> (r.Err? <==> !ValidKeys(all))
    ensures r.Err? ==> r.error == "not a valid call signature"
    ensures |all| == 0 ==> r == Ok(Object(map[]))
    ensures |all| != 1 && r.Ok? ==> r.value.Object? && PairsObject(all, r.value.fields)
  {
    if |all| == 1 {
      return Ok(Single(all[0]));
    }
    var obj := AsKeyValue(all);
    if obj.None? {
      return Err("not a valid call signature");
    }
    if |all| == 0 {
      assert obj.value == map[] by {
        forall k ensures k !in obj.value {
          assert !KeyBefore(all, k, 0);
        }
      }
    }
    return Ok(Object(obj.value));
  }
}

=== FILE: callsuffix.dfy ===
/** Call-argument rendering (`handleCallSuffix`): positional arguments stay positional, a fully
    named argument list becomes one object literal. */
module CallSuffix {
  import opened Wrappers
  import opened Strings
  import opened Syntax

  /** One collected argument; either part may be `undefined`. */
  datatype Arg = Arg(name: Option<string>, value: Option<string>)

  const NoArg: Arg := Arg(None, None)

  /** One child of a `value_argument`: an identifier is taken as written, a `:` turns the value
      seen so far into the name, anything else is translated and becomes the value. */
  function ArgumentStep(c: Node, a: Arg, h: Helpers): (r: Arg)
    ensures c.kind == ":" ==> r == Arg(a.value, None)
    ensures c.kind != ":" ==> r.name == a.name && r.value.Some?
  {
    if c.kind == "simple_identifier" then a.(value := Some(c.text))
    else if c.kind == ":" then Arg(a.value, None)
    else a.(value := Some(h.sub(c)))
  }

  /** The argument a `value_argument` node yields. */
  function ValueArgument(cs: seq<Node>, a: Arg, h: Helpers): (r: Arg)
    ensures (forall i :: 0 <= i < |cs| ==> cs[i].kind != ":") ==> r.name == a.name
    ensures |cs| > 0 && cs[|cs| - 1].kind != ":" ==> r.value.Some?
    decreases |cs|
  {
    if |cs| == 0 then a else ValueArgument(cs[1..], ArgumentStep(cs[0], a, h), h)
  }

  /** Tokens the argument list skips. */
  predicate IsPunctuation(k: string)
  {
    k == "." || k == "[" || k == "]" || k == "(" || k == ")" || k == ","
  }

  /** How many arguments the children of a `call_suffix` contribute: one per closure and one per
      `value_argument`. */
  function ArgCount(cs: seq<Node>): nat
  {
    if |cs| == 0 then 0
    else
      (if cs[0].kind == "lambda_literal" then 1
       else if cs[0].kind == "value_arguments" then ValueArgCount(cs[0].children)
       else 0)
      + ArgCount(cs[1..])
  }

  function ValueArgCount(vs: seq<Node>): nat
  {
    if |vs| == 0 then 0
    else (if vs[0].kind == "value_argument" then 1 else 0) + ValueArgCount(vs[1..])
  }

  /** The children of `value_arguments`: one argument per `value_argument`; a range in argument
      position is rejected; an unknown kind is fatal. */
  function ValueArguments(vs: seq<Node>, h: Helpers): (r: Outcome<seq<Arg>>)
    ensures r.Ok? ==> |r.value| == ValueArgCount(vs)
    ensures (exists i :: 0 <= i < |vs| && vs[i].kind == "range_expression") ==> r.Err?
    decreases |vs|
  {
    if |vs| == 0 then Ok([])
    else
      var v := vs[0];
      if v.kind == "range_expression" then Err(Structural("range expression in call arguments"))
      else if IsPunctuation(v.kind) then ValueArguments(vs[1..], h)
      else if v.kind == "value_argument" then
        var rest :- ValueArguments(vs[1..], h);
        Ok([ValueArgument(v.children, NoArg, h)] + rest)
      else Err(UnknownNode(v.kind, "call_expression->call_suffix->value_arguments"))
  }

  /** The children of `call_suffix`: `pending` carries a trailing-closure label until the closure
      it names arrives. */
  function SuffixArgs(cs: seq<Node>, pending: Arg, h: Helpers): (r: Outcome<seq<Arg>>)
    ensures r.Ok? ==> |r.value| == ArgCount(cs)
    decreases |cs|
  {
    if |cs| == 0 then Ok([])
    else
      var c := cs[0];
      if c.kind == "lambda_literal" then
        var rest :- SuffixArgs(cs[1..], NoArg, h);
        Ok([pending.(value := Some(h.sub(c)))] + rest)
      else if c.kind == ":" then SuffixArgs(cs[1..], pending, h)
      else if c.kind == "value_arguments" then
        var these :- ValueArguments(c.children, h);
        var rest :- SuffixArgs(cs[1..], pending, h);
        Ok(these + rest)
      else if c.kind == "simple_identifier" then SuffixArgs(cs[1..], pending.(name := Some(h.sub(c))), h)
      else Err(UnknownNode(c.kind, "call_expression->call_suffix"))
  }

  /** The argument values as `Array.prototype.join` writes them (`undefined` as nothing). */
  function Values(args: seq<Arg>): (vs: seq<string>)
    ensures |vs| == |args|
    ensures forall i :: 0 <= i < |args| ==> vs[i] == args[i].value.GetOr("")
  {
    seq(|args|, i requires 0 <= i < |args| => args[i].value.GetOr(""))
  }

  /** `name:value` entries as a template literal writes them (`undefined` spelled out). */
  function Entries(args: seq<Arg>): (es: seq<string>)
    ensures |es| == |args|
  {
    seq(|args|, i requires 0 <= i < |args| => args[i].name.GetOr("undefined") + ":" + args[i].value.GetOr("undefined"))
  }

  predicate SomeUnnamed(args: seq<Arg>)
  {
    exists i :: 0 <= i < |args| && args[i].name.None?
  }

  /** The rendered argument list. */
  function RenderArgs(args: seq<Arg>): (r: string)
    ensures |args| == 0 ==> r == "()"
    ensures SomeUnnamed(args) ==> r == "(" + Join(",", Values(args)) + ")"
    ensures |args| > 0 && !SomeUnnamed(args) ==> r == "({" + Join(",", Entries(args)) + "})"
  {
    if |args| == 0 then "()"
    else if SomeUnnamed(args) then "(" + Join(",", Values(args)) + ")"
    else "({" + Join(",", Entries(args)) + "})"
  }

  /** As soon as one argument is unnamed every name is dropped: the rendering depends only on
      the values. */
  lemma PositionalIgnoresNames(args: seq<Arg>, other: seq<Arg>)
    requires |args| == |other| && SomeUnnamed(args) && SomeUnnamed(other)
    requires forall i :: 0 <= i < |args| ==> args[i].value == other[i].value
    ensures RenderArgs(args) == RenderArgs(other)
  {
    assert Values(args) == Values(other);
  }

  /** A positional rendering can be read back: between the parentheses, the comma-separated
      pieces are the argument values in order (when no value contains a comma). */
  lemma PositionalReadsBack(args: seq<Arg>)
    requires SomeUnnamed(args)
    requires forall i :: 0 <= i < |args| ==> ',' !in args[i].value.GetOr("")
    ensures var r := RenderArgs(args); Split(r[1..|r| - 1], ',') == Values(args)
  {
    var r := RenderArgs(args);
    assert r[1..|r| - 1] == Join([','], Values(args));
    SplitJoin(',', Values(args));
  }

  /** `handleCallSuffix`: the suffix succeeds exactly when its children collect into arguments,
      one per argument child, and those render positionally as soon as one is unnamed and as a
      single object literal when every one is named. */
  function HandleCallSuffix(n: Node, h: Helpers): (r: Outcome<string>)
    ensures n.kind != "call_suffix" ==> r.Err?
    ensures n.kind == "call_suffix" && |n.children| == 0 ==> r == Ok("()")
    ensures r.Ok? <==> n.kind == "call_suffix" && SuffixArgs(n.children, NoArg, h).Ok?
    ensures r.Ok? ==>
              var args := SuffixArgs(n.children, NoArg, h).value;
              && |args| == ArgCount(n.children)
              && (|args| == 0 ==> r.value == "()")
              && (SomeUnnamed(args) ==> r.value == "(" + Join(",", Values(args)) + ")")
              && (|args| > 0 && !SomeUnnamed(args) ==> r.value == "({" + Join(",", Entries(args)) + "})")
  {
    var _ :- Expect(n, "call_suffix");
    var args :- SuffixArgs(n.children, NoArg, h);
    Ok(RenderArgs(args))
  }

  /** `x: e` yields the argument named `x` with value `e`'s translation. */
  lemma NamedArgument(x: string, e: Node, h: Helpers)
    requires e.kind != ":" && e.kind != "simple_identifier"
    ensures ValueArgument([Node("simple_identifier", x, []), Node(":", ":", []), e], NoArg, h) == Arg(Some(x), Some(h.sub(e)))
  {
    var id := Node("simple_identifier", x, []);
    var colon := Node(":", ":", []);
    var cs := [id, colon, e];
    assert cs[1..] == [colon, e];
    assert cs[1..][1..] == [e];
    assert [e][1..] == [];
    var a1 := ArgumentStep(id, NoArg, h);
    assert a1 == Arg(None, Some(x));
    var a2 := ArgumentStep(colon, a1, h);
    assert a2 == Arg(Some(x), None);
    assert ValueArgument([e], a2, h) == ArgumentStep(e, a2, h);
  }

  lemma ValueArgumentsCons(v: Node, rest: seq<Node>, h: Helpers)
    requires v.kind == "value_argument"
    ensures ValueArguments([v] + rest, h).Ok? == ValueArguments(rest, h).Ok?
    ensures ValueArguments(rest, h).Ok? ==>
              ValueArguments([v] + rest, h).value == [ValueArgument(v.children, NoArg, h)] + ValueArguments(rest, h).value
  {
    assert ([v] + rest)[0] == v && ([v] + rest)[1..] == rest;
    assert !IsPunctuation("value_argument") && "value_argument" != "range_expression";
  }

  lemma PunctuationCons(p: Node, rest: seq<Node>, h: Helpers)
    requires IsPunctuation(p.kind)
    ensures ValueArguments([p] + rest, h) == ValueArguments(rest, h)
  {
    assert ([p] + rest)[0] == p && ([p] + rest)[1..] == rest;
  }

  lemma SingleValueArguments(args: Node, h: Helpers)
    requires args.kind == "value_arguments" && ValueArguments(args.children, h).Ok?
    ensures SuffixArgs([args], NoArg, h) == ValueArguments(args.children, h)
  {
    assert [args][0] == args && [args][1..] == [];
    assert "value_arguments" != "lambda_literal" && "value_arguments" != ":";
    assert SuffixArgs([], NoArg, h) == Ok([]);
    var these := ValueArguments(args.children, h).value;
    assert these + [] == these;
  }

  /** `f(x: a, b)`: a named argument next to an unnamed one falls back to positional rendering,
      dropping the name. */
  lemma MixedArgumentsArePositional(h: Helpers, x: string, a: Node, b: Node)
    requires a.kind != ":" && a.kind != "simple_identifier" && b.kind != ":" && b.kind != "simple_identifier"
    ensures var named := Node("value_argument", "", [Node("simple_identifier", x, []), Node(":", ":", []), a]);
            var unnamed := Node("value_argument", "", [b]);
            var args := Node("value_arguments", "", [Node("(", "(", []), named, Node(",", ",", []), unnamed, Node(")", ")", [])]);
            HandleCallSuffix(Node("call_suffix", "", [args]), h) == Ok("(" + h.sub(a) + "," + h.sub(b) + ")")
  {
    var named := Node("value_argument", "", [Node("simple_identifier", x, []), Node(":", ":", []), a]);
    var unnamed := Node("value_argument", "", [b]);
    var vs := [Node("(", "(", []), named, Node(",", ",", []), unnamed, Node(")", ")", [])];
    var argA := Arg(Some(x), Some(h.sub(a)));
    var argB := Arg(None, Some(h.sub(b)));
    NamedThenUnnamed(h, x, a, b);
    SingleValueArguments(Node("value_arguments", "", vs), h);
    assert [argA, argB][1].name.None?;
    assert SomeUnnamed([argA, argB]);
    var pieces := [h.sub(a), h.sub(b)];
    assert Values([argA, argB]) == pieces;
    assert pieces[1..] == [h.sub(b)];
    assert Join(",", pieces) == h.sub(a) + "," + h.sub(b);
    assert RenderArgs([argA, argB]) == "(" + h.sub(a) + "," + h.sub(b) + ")";
    assert Expect(Node("call_suffix", "", [Node("value_arguments", "", vs)]), "call_suffix") == Ok(());
  }

  /** The parenthesised list `(x: a, b)` holds a named argument and then an unnamed one. */
  lemma NamedThenUnnamed(h: Helpers, x: string, a: Node, b: Node)
    requires a.kind != ":" && a.kind != "simple_identifier" && b.kind != ":" && b.kind != "simple_identifier"
    ensures var named := Node("value_argument", "", [Node("simple_identifier", x, []), Node(":", ":", []), a]);
            var unnamed := Node("value_argument", "", [b]);
            ValueArguments([Node("(", "(", []), named, Node(",", ",", []), unnamed, Node(")", ")", [])], h)
              == Ok([Arg(Some(x), Some(h.sub(a))), Arg(None, Some(h.sub(b)))])
  {
    var named := Node("value_argument", "", [Node("simple_identifier", x, []), Node(":", ":", []), a]);
    var unnamed := Node("value_argument", "", [b]);
    var open := Node("(", "(", []);
    var comma := Node(",", ",", []);
    var close := Node(")", ")", []);
    var argA := Arg(Some(x), Some(h.sub(a)));
    var argB := Arg(None, Some(h.sub(b)));
    NamedArgument(x, a, h);
    assert [b][1..] == [];
    assert ValueArgument(unnamed.children, NoArg, h) == argB;
    assert ValueArguments([], h) == Ok([]);
    PunctuationCons(close, [], h);
    assert [close] + [] == [close];
    ValueArgumentsCons(unnamed, [close], h);
    assert [argB] + [] == [argB];
    assert ValueArguments([unnamed] + [close], h) == Ok([argB]);
    PunctuationCons(comma, [unnamed, close], h);
    assert [unnamed] + [close] == [unnamed, close];
    ValueArgumentsCons(named, [comma, unnamed, close], h);
    assert [comma] + [unnamed, close] == [comma, unnamed, close];
    assert ValueArguments([named] + [comma, unnamed, close], h) == Ok([argA] + [argB]);
    PunctuationCons(open, [named, comma, unnamed, close], h);
    assert [named] + [comma, unnamed, close] == [named, comma, unnamed, close];
    var vs := [open, named, comma, unnamed, close];
    assert vs == [open] + [named, comma, unnamed, close];
    assert [argA] + [argB] == [argA, argB];
    assert ValueArguments(vs, h) == Ok([argA, argB]);
  }

  /** `f(x: a, y: b)`: a fully named argument list becomes one object literal, in order. */
  lemma NamedArgumentsBecomeObject(h: Helpers, x: string, y: string, a: Node, b: Node)
    requires a.kind != ":" && a.kind != "simple_identifier" && b.kind != ":" && b.kind != "simple_identifier"
    ensures var na := Node("value_argument", "", [Node("simple_identifier", x, []), Node(":", ":", []), a]);
            var nb := Node("value_argument", "", [Node("simple_identifier", y, []), Node(":", ":", []), b]);
            var args := Node("value_arguments", "", [na, Node(",", ",", []), nb]);
            HandleCallSuffix(Node("call_suffix", "", [args]), h) == Ok("({" + x + ":" + h.sub(a) + "," + y + ":" + h.sub(b) + "})")
  {
    var na := Node("value_argument", "", [Node("simple_identifier", x, []), Node(":", ":", []), a]);
    var nb := Node("value_argument", "", [Node("simple_identifier", y, []), Node(":", ":", []), b]);
    var vs := [na, Node(",", ",", []), nb];
    var argA := Arg(Some(x), Some(h.sub(a)));
    var argB := Arg(Some(y), Some(h.sub(b)));
    TwoNamedArguments(h, x, y, a, b);
    SingleValueArguments(Node("value_arguments", "", vs), h);
    assert !SomeUnnamed([argA, argB]);
    var pieces := [x + ":" + h.sub(a), y + ":" + h.sub(b)];
    assert Entries([argA, argB]) == pieces;
    assert pieces[1..] == [y + ":" + h.sub(b)];
    assert Join(",", pieces) == x + ":" + h.sub(a) + "," + y + ":" + h.sub(b);
    assert RenderArgs([argA, argB]) == "({" + x + ":" + h.sub(a) + "," + y + ":" + h.sub(b) + "})";
    assert Expect(Node("call_suffix", "", [Node("value_arguments", "", vs)]), "call_suffix") == Ok(());
  }

  /** The argument list `x: a, y: b` holds the two named arguments. */
  lemma TwoNamedArguments(h: Helpers, x: string, y: string, a: Node, b: Node)
    requires a.kind != ":" && a.kind != "simple_identifier" && b.kind != ":" && b.kind != "simple_identifier"
    ensures var na := Node("value_argument", "", [Node("simple_identifier", x, []), Node(":", ":", []), a]);
            var nb := Node("value_argument", "", [Node("simple_identifier", y, []), Node(":", ":", []), b]);
            ValueArguments([na, Node(",", ",", []), nb], h) == Ok([Arg(Some(x), Some(h.sub(a))), Arg(Some(y), Some(h.sub(b)))])
  {
    var na := Node("value_argument", "", [Node("simple_identifier", x, []), Node(":", ":", []), a]);
    var nb := Node("value_argument", "", [Node("simple_identifier", y, []), Node(":", ":", []), b]);
    var comma := Node(",", ",", []);
    var argA := Arg(Some(x), Some(h.sub(a)));
    var argB := Arg(Some(y), Some(h.sub(b)));
    NamedArgument(x, a, h);
    NamedArgument(y, b, h);
    assert ValueArguments([], h) == Ok([]);
    ValueArgumentsCons(nb, [], h);
    assert [nb] + [] == [nb];
    assert [argB] + [] == [argB];
    assert ValueArguments([nb], h) == Ok([argB]);
    PunctuationCons(comma, [nb], h);
    assert [comma] + [nb] == [comma, nb];
    ValueArgumentsCons(na, [comma, nb], h);
    assert [na, comma, nb] == [na] + [comma, nb];
    assert [argA] + [argB] == [argA, argB];
  }
}

=== FILE: enums.dfy ===
/** Enumerations (`handleEnum`, `processEnums`): every case becomes a static member initialized
    with a constructor call carrying its raw value, and the class lists its cases in `allCases`. */
module Enums {
  import opened Wrappers
  import opened Strings
  import opened Syntax
  import opened JsNumber
  import TypeMapper

  /** One static member: the case name and its initializer (absent until a child sets it). */
  datatype EnumCase = EnumCase(name: string, initializer: Option<string>)

  const Blank: EnumCase := EnumCase("", None)

  /** `new C(arg)`. */
  function Ctor(cls: string, arg: string): string
  {
    "new " + cls + "(" + arg + ")"
  }

  /** A bare case before any integer raw value: an untyped enum uses the case name as a string
      raw value, a typed one passes nothing. */
  function Initial(cls: string, typed: bool, name: string): string
  {
    if typed then Ctor(cls, "") else Ctor(cls, "\"" + name + "\"")
  }

  /** The initializer of a bare case and the counter afterwards: the counter, once set by an
      integer raw value, is pre-incremented for every bare case. */
  function BareCase(cls: string, typed: bool, start: Option<Number>, name: string): (r: (string, Option<Number>))
    ensures start.None? ==> r == (Initial(cls, typed, name), None)
    ensures start.Some? ==> r.1 == Some(Increment(start.value)) && r.0 == Ctor(cls, NumberToString(Increment(start.value)))
  {
    if start.None? then (Initial(cls, typed, name), None)
    else
      var n := Increment(start.value);
      (Ctor(cls, NumberToString(n)), Some(n))
  }

  /** The state `processEnums` keeps while reading the children of one `enum_entry`: the member
      being built, the counter (shared by all entries) and the members pushed so far. */
  datatype EntryState = EntryState(current: EnumCase, start: Option<Number>, cases: seq<EnumCase>)

  /** One child of an `enum_entry`. A `,` pushes the member and continues with a copy of it. */
  function EntryStep(cls: string, typed: bool, st: EntryState, ec: Node, h: Helpers): (r: EntryState)
    ensures ec.kind == "," ==> r.cases == st.cases + [st.current]
    ensures ec.kind != "," ==> r.cases == st.cases
    ensures ec.kind == "integer_literal" ==> r.start == Some(ToNumber(ec.text))
    ensures ec.kind != "integer_literal" && ec.kind != "simple_identifier" ==> r.start == st.start
    ensures ec.kind == "simple_identifier" ==> r.current.name == ec.text
    ensures ec.kind == "integer_literal"
            ==> r.current == st.current.(initializer := Some(Ctor(cls, NumberToString(ToNumber(ec.text)))))
  {
    match ec.kind
    case "," => st.(cases := st.cases + [st.current])
    case "=" => st
    case "case" => st
    case "simple_identifier" =>
      var (init, next) := BareCase(cls, typed, st.start, ec.text);
      st.(current := EnumCase(ec.text, Some(init)), start := next)
    case "integer_literal" =>
      var n := ToNumber(ec.text);
      st.(current := st.current.(initializer := Some(Ctor(cls, NumberToString(n)))), start := Some(n))
    case _ => st.(current := st.current.(initializer := Some(Ctor(cls, h.sub(ec)))))
  }

  /** The children of an `enum_entry`, left to right. */
  function EntrySteps(cls: string, typed: bool, st: EntryState, cs: seq<Node>, h: Helpers): (r: EntryState)
    ensures |r.cases| == |st.cases| + CountKind(cs, ",")
    ensures r.cases[..|st.cases|] == st.cases
    decreases |cs|
  {
    if |cs| == 0 then st else EntrySteps(cls, typed, EntryStep(cls, typed, st, cs[0], h), cs[1..], h)
  }

  lemma {:induction false} EntryStepsAppend(cls: string, typed: bool, st: EntryState, a: seq<Node>, b: seq<Node>, h: Helpers)
    ensures EntrySteps(cls, typed, st, a + b, h) == EntrySteps(cls, typed, EntrySteps(cls, typed, st, a, h), b, h)
    decreases |a|
  {
    if |a| == 0 {
      assert a + b == b;
    } else {
      assert (a + b)[0] == a[0] && (a + b)[1..] == a[1..] + b;
      EntryStepsAppend(cls, typed, EntryStep(cls, typed, st, a[0], h), a[1..], b, h);
    }
  }

  /** One `enum_entry`: its members, in order, and the counter afterwards. */
  function ProcessEntry(cls: string, typed: bool, start: Option<Number>, cases: seq<EnumCase>, e: Node, h: Helpers): (r: EntryState)
    ensures |r.cases| == |cases| + CountKind(e.children, ",") + 1
    ensures r.cases[..|cases|] == cases
  {
    var r := EntrySteps(cls, typed, EntryState(Blank, start, cases), e.children, h);
    assert (r.cases + [r.current])[..|cases|] == r.cases[..|cases|];
    r.(cases := r.cases + [r.current])
  }

  /** The members an `enum_class_body` declares, per entry: one per comma-separated case. */
  function CaseCount(cs: seq<Node>): nat
  {
    if |cs| == 0 then 0
    else (if cs[0].kind == "enum_entry" then CountKind(cs[0].children, ",") + 1 else 0) + CaseCount(cs[1..])
  }

  predicate IsBodyKind(k: string)
  {
    k == "{" || k == "}" || k == "enum_entry" || k == "class_declaration" || k == "property_declaration"
  }

  /** The children of an `enum_class_body`. Nested classes and properties do not add cases. */
  function BodyCases(cls: string, typed: bool, st: EntryState, cs: seq<Node>, h: Helpers): (r: Outcome<EntryState>)
    ensures r.Ok? <==> forall i :: 0 <= i < |cs| ==> IsBodyKind(cs[i].kind)
    ensures r.Ok? ==> |r.value.cases| == |st.cases| + CaseCount(cs)
    ensures r.Ok? ==> r.value.cases[..|st.cases|] == st.cases
    decreases |cs|
  {
    if |cs| == 0 then Ok(st)
    else
      var c := cs[0];
      assert forall i :: 1 <= i < |cs| ==> cs[i] == cs[1..][i - 1];
      if c.kind == "enum_entry" then
        var next := ProcessEntry(cls, typed, st.start, st.cases, c, h);
        var r :- BodyCases(cls, typed, next, cs[1..], h);
        assert r.cases[..|st.cases|] == r.cases[..|next.cases|][..|st.cases|];
        Ok(r)
      else if IsBodyKind(c.kind) then BodyCases(cls, typed, st, cs[1..], h)
      else Err(UnknownNode(c.kind, "enum"))
  }

  /** `processEnums`: the counter starts unset; the enclosing class must exist. */
  function ProcessEnums(ctx: Context, typeParam: Option<string>, n: Node, h: Helpers): (r: Outcome<seq<EnumCase>>)
    ensures r.Ok? <==> ctx.currentClass.Some? && forall i :: 0 <= i < |n.children| ==> IsBodyKind(n.children[i].kind)
    ensures r.Ok? ==> |r.value| == CaseCount(n.children)
  {
    if ctx.currentClass.None? then Err(Unresolved("processEnums requires a class"))
    else
      var st :- BodyCases(ctx.currentClass.value, typeParam.Some?, EntryState(Blank, None, []), n.children, h);
      Ok(st.cases)
  }

  /** `enum_entry` children for `case a, b, c`: identifiers separated by commas. */
  function BareRun(names: seq<string>): seq<Node>
    requires |names| > 0
  {
    if |names| == 1 then [Node("simple_identifier", names[0], [])]
    else [Node("simple_identifier", names[0], []), Node(",", ",", [])] + BareRun(names[1..])
  }

  /** The initializer the `i`-th bare case of a run gets, given the counter before the run. */
  function RunInit(cls: string, typed: bool, start: Option<Number>, i: nat, name: string): string
  {
    match start
    case None => Initial(cls, typed, name)
    case Some(Int(k)) => Ctor(cls, IntToString(k + i + 1))
    case Some(NaN) => Ctor(cls, "NaN")
  }

  /** The counter after `m` bare cases. */
  function Advance(start: Option<Number>, m: nat): Option<Number>
  {
    match start
    case None => None
    case Some(Int(k)) => Some(Int(k + m))
    case Some(NaN) => Some(NaN)
  }

  /** One bare case followed by a comma: the case is pushed with its initializer. */
  lemma {:induction false} BareCaseThenComma(cls: string, typed: bool, st: EntryState, name: string, h: Helpers)
    ensures var r := EntrySteps(cls, typed, st, [Node("simple_identifier", name, []), Node(",", ",", [])], h);
            && r.cases == st.cases + [EnumCase(name, Some(RunInit(cls, typed, st.start, 0, name)))]
            && r.start == Advance(st.start, 1)
  {
    var id := Node("simple_identifier", name, []);
    var comma := Node(",", ",", []);
    var s1 := EntryStep(cls, typed, st, id, h);
    var s2 := EntryStep(cls, typed, s1, comma, h);
    assert [id, comma][0] == id && [id, comma][1..] == [comma];
    assert [comma][0] == comma && [comma][1..] == [];
    assert EntrySteps(cls, typed, s2, [], h) == s2;
    assert EntrySteps(cls, typed, s1, [comma], h) == s2;
  }

  /** The last bare case of a run: it stays the current member. */
  lemma {:induction false} LastBareCase(cls: string, typed: bool, st: EntryState, name: string, h: Helpers)
    ensures var r := EntrySteps(cls, typed, st, [Node("simple_identifier", name, [])], h);
            && r.cases == st.cases
            && r.current == EnumCase(name, Some(RunInit(cls, typed, st.start, 0, name)))
            && r.start == Advance(st.start, 1)
  {
    var id := Node("simple_identifier", name, []);
    assert [id][0] == id && [id][1..] == [];
    assert EntrySteps(cls, typed, EntryStep(cls, typed, st, id, h), [], h) == EntryStep(cls, typed, st, id, h);
  }

  /** Numbering from the counter after one case is numbering from one position later. */
  lemma RunInitShift(cls: string, typed: bool, start: Option<Number>, i: nat, name: string)
    ensures RunInit(cls, typed, Advance(start, 1), i, name) == RunInit(cls, typed, start, i + 1, name)
    ensures Advance(Advance(start, 1), i) == Advance(start, i + 1)
  {
  }

  /** A run of bare cases: without a counter each case gets its initial form; with counter `k`
      the cases get `k+1`, `k+2`, ... in order, and the counter ends `|names|` higher. */
  lemma {:induction false} BareRunNumbering(cls: string, typed: bool, st: EntryState, names: seq<string>, h: Helpers)
    requires |names| > 0
    ensures var r := EntrySteps(cls, typed, st, BareRun(names), h);
            var all := r.cases + [r.current];
            && |all| == |st.cases| + |names|
            && all[..|st.cases|] == st.cases
            && (forall i :: 0 <= i < |names| ==> all[|st.cases| + i] == EnumCase(names[i], Some(RunInit(cls, typed, st.start, i, names[i]))))
            && r.start == Advance(st.start, |names|)
    decreases |names|
  {
    if |names| == 1 {
      LastBareCase(cls, typed, st, names[0], h);
    } else {
      var pair := [Node("simple_identifier", names[0], []), Node(",", ",", [])];
      BareCaseThenComma(cls, typed, st, names[0], h);
      var s2 := EntrySteps(cls, typed, st, pair, h);
      EntryStepsAppend(cls, typed, st, pair, BareRun(names[1..]), h);
      BareRunNumbering(cls, typed, s2, names[1..], h);
      var r := EntrySteps(cls, typed, st, BareRun(names), h);
      var all := r.cases + [r.current];
      assert all[..|s2.cases|] == s2.cases;
      assert all[..|st.cases|] == all[..|s2.cases|][..|st.cases|];
      NumberingShift(cls, typed, st, s2, names, all);
      RunInitShift(cls, typed, st.start, |names| - 1, names[0]);
    }
  }

  /** The numbering of the rest of a run, read from the whole run's counter. */
  lemma NumberingShift(cls: string, typed: bool, st: EntryState, s2: EntryState, names: seq<string>, all: seq<EnumCase>)
    requires |names| > 1
    requires |s2.cases| == |st.cases| + 1
    requires s2.cases[|st.cases|] == EnumCase(names[0], Some(RunInit(cls, typed, st.start, 0, names[0])))
    requires s2.start == Advance(st.start, 1)
    requires |all| == |s2.cases| + |names| - 1 && all[..|s2.cases|] == s2.cases
    requires forall i :: 0 <= i < |names[1..]| ==>
               all[|s2.cases| + i] == EnumCase(names[1..][i], Some(RunInit(cls, typed, s2.start, i, names[1..][i])))
    ensures forall i :: 0 <= i < |names| ==> all[|st.cases| + i] == EnumCase(names[i], Some(RunInit(cls, typed, st.start, i, names[i])))
  {
    forall i | 0 <= i < |names|
      ensures all[|st.cases| + i] == EnumCase(names[i], Some(RunInit(cls, typed, st.start, i, names[i])))
    {
      if i == 0 {
        assert all[|st.cases|] == s2.cases[|st.cases|];
      } else {
        RunInitShift(cls, typed, st.start, i - 1, names[i]);
        assert all[|s2.cases| + (i - 1)] == EnumCase(names[1..][i - 1], Some(RunInit(cls, typed, s2.start, i - 1, names[1..][i - 1])));
      }
    }
  }

  /** `case x = t`: the integer raw value `t` becomes the argument and sets the counter. */
  lemma RawValueSetsCounter(cls: string, typed: bool, st: EntryState, x: string, t: string, h: Helpers)
    ensures var cs := [Node("case", "case", []), Node("simple_identifier", x, []), Node("=", "=", []), Node("integer_literal", t, [])];
            var r := EntrySteps(cls, typed, st, cs, h);
            r.current == EnumCase(x, Some(Ctor(cls, NumberToString(ToNumber(t))))) && r.start == Some(ToNumber(t))
            && r.cases == st.cases
  {
    var c0 := Node("case", "case", []);
    var c1 := Node("simple_identifier", x, []);
    var c2 := Node("=", "=", []);
    var c3 := Node("integer_literal", t, []);
    var cs := [c0, c1, c2, c3];
    assert cs[1..] == [c1, c2, c3] && cs[1..][1..] == [c2, c3] && cs[1..][1..][1..] == [c3] && [c3][1..] == [];
    var s0 := EntryStep(cls, typed, st, c0, h);
    assert s0 == st;
    var s1 := EntryStep(cls, typed, s0, c1, h);
    assert s1.current.name == x;
    var s2 := EntryStep(cls, typed, s1, c2, h);
    assert s2 == s1;
    var s3 := EntryStep(cls, typed, s2, c3, h);
    assert EntrySteps(cls, typed, s3, [], h) == s3;
    assert EntrySteps(cls, typed, s2, [c3], h) == s3;
    assert EntrySteps(cls, typed, s1, [c2, c3], h) == s3;
    assert EntrySteps(cls, typed, s0, [c1, c2, c3], h) == s3;
  }

  /** `case a = 5, b`: with an integer literal printed the usual way, the next bare case is
      numbered one higher. */
  lemma NumberingContinues(cls: string, typed: bool, k: int, b: string, h: Helpers)
    ensures var n := ToNumber(IntToString(k));
            BareCase(cls, typed, Some(n), b) == (Ctor(cls, IntToString(k + 1)), Some(Int(k + 1)))
  {
    NumberRoundTrip(k);
  }

  /** The shape of the emitted class. */
  datatype EnumClass = EnumClass(name: string, cases: seq<EnumCase>, rawValueType: string, allCases: string, imports: seq<Import>)

  /** The state `handleEnum` keeps across its children. */
  datatype EnumState = EnumState(ctx: Context, typeParam: Option<string>, cases: seq<EnumCase>, imports: seq<Import>)

  /** The kinds `handleEnum` accepts among its children. */
  predicate EnumChildKnown(k: string)
  {
    k == ":" || k == "enum" || k == "type_identifier" || k == "inheritance_specifier" || k == "enum_class_body"
  }

  /** Whether a class is current by the time child `i` is read: one was current on entry, or a
      name was declared before it. */
  predicate NamedBefore(ctx: Context, cs: seq<Node>, i: nat)
    requires i <= |cs|
  {
    ctx.currentClass.Some? || exists j :: 0 <= j < i && cs[j].kind == "type_identifier"
  }

  /** Child `i` is handled: its kind is known, and a body comes after the enum's name and holds
      only known kinds. */
  predicate EnumChildOk(ctx: Context, cs: seq<Node>, i: nat)
    requires i < |cs|
  {
    && EnumChildKnown(cs[i].kind)
    && (cs[i].kind == "enum_class_body" ==>
          NamedBefore(ctx, cs, i) && forall j :: 0 <= j < |cs[i].children| ==> IsBodyKind(cs[i].children[j].kind))
  }

  /** The scope after one child: a name declares and enters its class. */
  function EnterChild(ctx: Context, c: Node): Context
  {
    if c.kind == "type_identifier" then ctx.EnterClass(c.text) else ctx
  }

  /** The scope after all of `cs`: every name declared, the last one entered. */
  function EnterAll(ctx: Context, cs: seq<Node>): Context
    decreases |cs|
  {
    if |cs| == 0 then ctx else EnterAll(EnterChild(ctx, cs[0]), cs[1..])
  }

  /** Reference definition of the raw-value type: the text of the last inheritance clause, read
      in the scope of the names declared before it. */
  function InheritedType(cfg: Config, ctx: Context, cs: seq<Node>): Option<string>
    decreases |cs|
  {
    if |cs| == 0 then None
    else
      var later := InheritedType(cfg, EnterChild(ctx, cs[0]), cs[1..]);
      if later.Some? then later
      else if cs[0].kind == "inheritance_specifier" then Some(TypeMapper.AsType(cfg, ctx, [], cs[0].text, UtilModule).text)
      else None
  }

  lemma InheritedTypeAbsent(cfg: Config, ctx: Context, cs: seq<Node>)
    requires forall i :: 0 <= i < |cs| ==> cs[i].kind != "inheritance_specifier"
    ensures InheritedType(cfg, ctx, cs).None?
    decreases |cs|
  {
    if |cs| > 0 {
      InheritedTypeAbsent(cfg, EnterChild(ctx, cs[0]), cs[1..]);
    }
  }

  /** The children of an enum declaration, left to right. */
  function EnumChildren(cfg: Config, st: EnumState, cs: seq<Node>, h: Helpers): (r: Outcome<EnumState>)
    ensures r.Ok? <==> forall i :: 0 <= i < |cs| ==> EnumChildOk(st.ctx, cs, i)
    ensures r.Ok? ==> |st.imports| <= |r.value.imports| && r.value.imports[..|st.imports|] == st.imports
    ensures r.Ok? ==> r.value.ctx == EnterAll(st.ctx, cs)
    decreases |cs|
  {
    if |cs| == 0 then Ok(st)
    else
      var c := cs[0];
      assert forall i :: 1 <= i < |cs| ==> cs[i] == cs[1..][i - 1];
      if c.kind == ":" || c.kind == "enum" then
        EnumChildrenShift(st.ctx, st.ctx, cs);
        EnumChildren(cfg, st, cs[1..], h)
      else if c.kind == "type_identifier" then
        EnumChildrenShift(st.ctx, st.ctx.EnterClass(c.text), cs);
        EnumChildren(cfg, st.(ctx := st.ctx.EnterClass(c.text)), cs[1..], h)
      else if c.kind == "inheritance_specifier" then
        var e := TypeMapper.AsType(cfg, st.ctx, st.imports, c.text, UtilModule);
        EnumChildrenShift(st.ctx, st.ctx, cs);
        var r := EnumChildren(cfg, st.(typeParam := Some(e.text), imports := e.imports), cs[1..], h);
        assert r.Ok? ==> r.value.imports[..|st.imports|] == r.value.imports[..|e.imports|][..|st.imports|];
        r
      else if c.kind == "enum_class_body" then
        var cases := ProcessEnums(st.ctx, st.typeParam, c, h);
        if cases.Err? then
          assert !EnumChildOk(st.ctx, cs, 0);
          Err(cases.error)
        else
          EnumChildrenShift(st.ctx, st.ctx, cs);
          EnumChildren(cfg, st.(cases := cases.value), cs[1..], h)
      else
        assert !EnumChildOk(st.ctx, cs, 0);
        Err(UnknownNode(c.kind, "enum"))
  }

  /** The class current after the children: the last one named, else the one current before. */
  lemma {:induction false} EnterAllClass(ctx: Context, cs: seq<Node>)
    ensures LastOfKind(cs, "type_identifier").Some? ==>
              EnterAll(ctx, cs).currentClass == Some(LastOfKind(cs, "type_identifier").value.text)
    ensures LastOfKind(cs, "type_identifier").None? ==> EnterAll(ctx, cs).currentClass == ctx.currentClass
    decreases |cs|
  {
    if |cs| > 0 {
      EnterAllClass(EnterChild(ctx, cs[0]), cs[1..]);
    }
  }

  /** Some class is current after the children exactly when one was before or one is named. */
  lemma NamedAtEnd(ctx: Context, cs: seq<Node>)
    ensures NamedBefore(ctx, cs, |cs|) <==> EnterAll(ctx, cs).currentClass.Some?
  {
    EnterAllClass(ctx, cs);
    if LastOfKind(cs, "type_identifier").Some? {
      var i :| 0 <= i < |cs| && cs[i].kind == "type_identifier";
    }
  }

  /** The cases are those of the last body. */
  lemma {:induction false} EnumChildrenCases(cfg: Config, st: EnumState, cs: seq<Node>, h: Helpers)
    requires EnumChildren(cfg, st, cs, h).Ok?
    ensures LastOfKind(cs, "enum_class_body").Some? ==>
              |EnumChildren(cfg, st, cs, h).value.cases| == CaseCount(LastOfKind(cs, "enum_class_body").value.children)
    ensures LastOfKind(cs, "enum_class_body").None? ==> EnumChildren(cfg, st, cs, h).value.cases == st.cases
    decreases |cs|
  {
    if |cs| > 0 {
      var c := cs[0];
      if c.kind == ":" || c.kind == "enum" {
        EnumChildrenCases(cfg, st, cs[1..], h);
      } else if c.kind == "type_identifier" {
        EnumChildrenCases(cfg, st.(ctx := st.ctx.EnterClass(c.text)), cs[1..], h);
      } else if c.kind == "inheritance_specifier" {
        var e := TypeMapper.AsType(cfg, st.ctx, st.imports, c.text, UtilModule);
        EnumChildrenCases(cfg, st.(typeParam := Some(e.text), imports := e.imports), cs[1..], h);
      } else {
        var cases := ProcessEnums(st.ctx, st.typeParam, c, h).value;
        EnumChildrenCases(cfg, st.(cases := cases), cs[1..], h);
      }
    }
  }

  /** The raw-value type parameter is the reference one. */
  lemma {:induction false} EnumChildrenTypeParam(cfg: Config, st: EnumState, cs: seq<Node>, h: Helpers)
    requires EnumChildren(cfg, st, cs, h).Ok?
    ensures InheritedType(cfg, st.ctx, cs).Some? ==> EnumChildren(cfg, st, cs, h).value.typeParam == InheritedType(cfg, st.ctx, cs)
    ensures InheritedType(cfg, st.ctx, cs).None? ==> EnumChildren(cfg, st, cs, h).value.typeParam == st.typeParam
    decreases |cs|
  {
    if |cs| > 0 {
      var c := cs[0];
      if c.kind == ":" || c.kind == "enum" {
        EnumChildrenTypeParam(cfg, st, cs[1..], h);
      } else if c.kind == "type_identifier" {
        EnumChildrenTypeParam(cfg, st.(ctx := st.ctx.EnterClass(c.text)), cs[1..], h);
      } else if c.kind == "inheritance_specifier" {
        var e := TypeMapper.AsType(cfg, st.ctx, st.imports, c.text, UtilModule);
        EnumChildrenTypeParam(cfg, st.(typeParam := Some(e.text), imports := e.imports), cs[1..], h);
        TypeMapper.AsTypeTextIgnoresScope(cfg, st.ctx, st.ctx, st.imports, [], c.text);
      } else {
        var cases := ProcessEnums(st.ctx, st.typeParam, c, h).value;
        EnumChildrenTypeParam(cfg, st.(cases := cases), cs[1..], h);
      }
    }
  }

  /** After the first child, the later children are handled in the scope it leaves. */
  lemma EnumChildrenShift(ctx: Context, next: Context, cs: seq<Node>)
    requires |cs| > 0
    requires next == EnterChild(ctx, cs[0])
    ensures (forall i :: 0 <= i < |cs| ==> EnumChildOk(ctx, cs, i))
            <==> EnumChildOk(ctx, cs, 0) && forall i :: 0 <= i < |cs[1..]| ==> EnumChildOk(next, cs[1..], i)
  {
    forall i | 1 <= i < |cs|
      ensures NamedBefore(ctx, cs, i) <==> NamedBefore(next, cs[1..], i - 1)
    {
      if NamedBefore(ctx, cs, i) && next.currentClass.None? {
        var j :| 0 <= j < i && cs[j].kind == "type_identifier";
        assert j != 0;
        assert cs[1..][j - 1].kind == "type_identifier";
      }
      if NamedBefore(next, cs[1..], i - 1) && ctx.currentClass.None? && cs[0].kind != "type_identifier" {
        var j :| 0 <= j < i - 1 && cs[1..][j].kind == "type_identifier";
        assert cs[j + 1].kind == "type_identifier";
      }
    }
    assert forall i :: 1 <= i < |cs| ==> cs[i] == cs[1..][i - 1];
    assert forall i :: 1 <= i < |cs| ==> (EnumChildOk(ctx, cs, i) <==> EnumChildOk(next, cs[1..], i - 1));
    if forall i :: 0 <= i < |cs| ==> EnumChildOk(ctx, cs, i) {
      forall k | 0 <= k < |cs[1..]| ensures EnumChildOk(next, cs[1..], k) {
        assert EnumChildOk(ctx, cs, k + 1);
      }
    }
    if forall i :: 0 <= i < |cs[1..]| ==> EnumChildOk(next, cs[1..], i) {
      forall i | 1 <= i < |cs| ensures EnumChildOk(ctx, cs, i) {
        assert EnumChildOk(next, cs[1..], i - 1);
      }
    }
  }

  /** `C.a, C.b, ...` for `allCases`. */
  function QualifiedNames(cls: string, cases: seq<EnumCase>): (qs: seq<string>)
    ensures |qs| == |cases|
    ensures forall i :: 0 <= i < |cases| ==> qs[i] == cls + "." + cases[i].name
  {
    seq(|cases|, i requires 0 <= i < |cases| => cls + "." + cases[i].name)
  }

  /** The constructor's raw-value type: the inherited type, or `string` when there is none. */
  function RawValueType(typeParam: Option<string>): (t: string)
    ensures t != ""
    ensures typeParam.Some? && typeParam.value != "" ==> t == typeParam.value
  {
    if typeParam.Some? && typeParam.value != "" then typeParam.value else "string"
  }

  /** `handleEnum`. The enum is accepted exactly when every child is handled and some class is
      current at the end. It is the class of its last name (or the class already current without
      one); it declares the cases of its last body; its raw value has the type of its last
      inheritance clause, `string` without one (or when that type is empty); `allCases` lists
      every case as `Name.case`, in order; and the array type's import comes last when it is
      needed. */
  function HandleEnum(cfg: Config, ctx: Context, imports: seq<Import>, n: Node, h: Helpers): (r: Outcome<EnumClass>)
    ensures r.Ok? <==> (forall i :: 0 <= i < |n.children| ==> EnumChildOk(ctx, n.children, i))
                       && NamedBefore(ctx, n.children, |n.children|)
    ensures r.Ok? && LastOfKind(n.children, "type_identifier").Some? ==>
              r.value.name == LastOfKind(n.children, "type_identifier").value.text
    ensures r.Ok? && LastOfKind(n.children, "type_identifier").None? ==> ctx.currentClass == Some(r.value.name)
    ensures r.Ok? && LastOfKind(n.children, "enum_class_body").Some? ==>
              |r.value.cases| == CaseCount(LastOfKind(n.children, "enum_class_body").value.children)
    ensures r.Ok? && LastOfKind(n.children, "enum_class_body").None? ==> r.value.cases == []
    ensures r.Ok? && InheritedType(cfg, ctx, n.children).None? ==> r.value.rawValueType == "string"
    ensures r.Ok? && InheritedType(cfg, ctx, n.children).Some? && InheritedType(cfg, ctx, n.children).value != "" ==>
              r.value.rawValueType == InheritedType(cfg, ctx, n.children).value
    ensures r.Ok? ==> r.value.allCases == "[" + Join(", ", QualifiedNames(r.value.name, r.value.cases)) + "] as const"
    ensures r.Ok? ==> |imports| <= |r.value.imports| && r.value.imports[..|imports|] == imports
    ensures r.Ok? && TypeMapper.NeedsImport(cfg, EnterAll(ctx, n.children), "SwiftArrayT") ==>
              |r.value.imports| > 0 && r.value.imports[|r.value.imports| - 1] == Import("SwiftArrayT", TypeMapper.ModuleFor(cfg, UtilModule))
  {
    var st0 := EnumState(ctx, None, [], imports);
    var st :- EnumChildren(cfg, st0, n.children, h);
    NamedAtEnd(ctx, n.children);
    if st.ctx.currentClass.None? then Err(Unresolved("enum without a class"))
    else
      ClassNameAndCases(cfg, st0, n.children, h);
      ClassRawValueType(cfg, st0, n.children, h);
      ClassImports(cfg, st0, n.children, h);
      Ok(ClassOf(cfg, st))
  }

  /** The class's name and cases, read off the children. */
  lemma ClassNameAndCases(cfg: Config, st0: EnumState, cs: seq<Node>, h: Helpers)
    requires st0.cases == []
    requires EnumChildren(cfg, st0, cs, h).Ok? && EnumChildren(cfg, st0, cs, h).value.ctx.currentClass.Some?
    ensures var r := ClassOf(cfg, EnumChildren(cfg, st0, cs, h).value);
            && (LastOfKind(cs, "type_identifier").Some? ==> r.name == LastOfKind(cs, "type_identifier").value.text)
            && (LastOfKind(cs, "type_identifier").None? ==> st0.ctx.currentClass == Some(r.name))
            && (LastOfKind(cs, "enum_class_body").Some? ==>
                  |r.cases| == CaseCount(LastOfKind(cs, "enum_class_body").value.children))
            && (LastOfKind(cs, "enum_class_body").None? ==> r.cases == [])
            && r.allCases == "[" + Join(", ", QualifiedNames(r.name, r.cases)) + "] as const"
  {
    EnterAllClass(st0.ctx, cs);
    EnumChildrenCases(cfg, st0, cs, h);
  }

  /** The class's raw-value type, read off the children. */
  lemma ClassRawValueType(cfg: Config, st0: EnumState, cs: seq<Node>, h: Helpers)
    requires st0.typeParam.None?
    requires EnumChildren(cfg, st0, cs, h).Ok? && EnumChildren(cfg, st0, cs, h).value.ctx.currentClass.Some?
    ensures var r := ClassOf(cfg, EnumChildren(cfg, st0, cs, h).value);
            && (InheritedType(cfg, st0.ctx, cs).None? ==> r.rawValueType == "string")
            && (InheritedType(cfg, st0.ctx, cs).Some? && InheritedType(cfg, st0.ctx, cs).value != "" ==>
                  r.rawValueType == InheritedType(cfg, st0.ctx, cs).value)
  {
    EnumChildrenTypeParam(cfg, st0, cs, h);
  }

  /** The class's imports: those before the enum first, the array type's last when it is needed. */
  lemma ClassImports(cfg: Config, st0: EnumState, cs: seq<Node>, h: Helpers)
    requires EnumChildren(cfg, st0, cs, h).Ok? && EnumChildren(cfg, st0, cs, h).value.ctx.currentClass.Some?
    ensures var r := ClassOf(cfg, EnumChildren(cfg, st0, cs, h).value);
            && |st0.imports| <= |r.imports| && r.imports[..|st0.imports|] == st0.imports
            && (TypeMapper.NeedsImport(cfg, EnterAll(st0.ctx, cs), "SwiftArrayT") ==>
                  |r.imports| > 0 && r.imports[|r.imports| - 1] == Import("SwiftArrayT", TypeMapper.ModuleFor(cfg, UtilModule)))
  {
    var st := EnumChildren(cfg, st0, cs, h).value;
    var r := ClassOf(cfg, st);
    ImportsExtend(st0.imports, st.imports, r.imports);
    assert st.ctx == EnterAll(st0.ctx, cs);
  }


  /** The class the gathered state describes; `allCases` needs the array type's import. */
  function ClassOf(cfg: Config, st: EnumState): (r: EnumClass)
    requires st.ctx.currentClass.Some?
    ensures r.name == st.ctx.currentClass.value && r.cases == st.cases
    ensures r.rawValueType == RawValueType(st.typeParam)
    ensures |st.imports| <= |r.imports| && r.imports[..|st.imports|] == st.imports
    ensures TypeMapper.NeedsImport(cfg, st.ctx, "SwiftArrayT") ==>
              r.imports == st.imports + [Import("SwiftArrayT", TypeMapper.ModuleFor(cfg, UtilModule))]
  {
    var cls := st.ctx.currentClass.value;
    var arr := TypeMapper.AsType(cfg, st.ctx, st.imports, "SwiftArrayT", UtilModule);
    EnumClass(cls, st.cases, RawValueType(st.typeParam), "[" + Join(", ", QualifiedNames(cls, st.cases)) + "] as const", arr.imports)
  }

  /** Without an inheritance clause the raw value is typed `string`. */
  lemma DefaultRawValueType(cfg: Config, ctx: Context, imports: seq<Import>, n: Node, h: Helpers)
    requires forall i :: 0 <= i < |n.children| ==> n.children[i].kind != "inheritance_specifier"
    ensures var r := HandleEnum(cfg, ctx, imports, n, h);
            r.Ok? ==> r.value.rawValueType == "string"
  {
    InheritedTypeAbsent(cfg, ctx, n.children);
  }

  /** `enum E { case a, b, c }`: three members `E("a")`, `E("b")`, `E("c")`, listed as
      `[E.a, E.b, E.c] as const`. */
  lemma ThreeStringCases(h: Helpers, a: string, b: string, c: string)
    ensures var e := Node("enum_entry", "", [Node("case", "case", [])] + BareRun([a, b, c]));
            var r := ProcessEntry("E", false, None, [], e, h);
            r.cases == [EnumCase(a, Some(Ctor("E", "\"" + a + "\""))), EnumCase(b, Some(Ctor("E", "\"" + b + "\""))),
                        EnumCase(c, Some(Ctor("E", "\"" + c + "\"")))]
            && r.start.None?
  {
    var kw := Node("case", "case", []);
    var st := EntryState(Blank, None, []);
    EntryStepsAppend("E", false, st, [kw], BareRun([a, b, c]), h);
    assert [kw][1..] == [];
    assert EntrySteps("E", false, st, [kw], h) == st;
    BareRunNumbering("E", false, st, [a, b, c], h);
    var r0 := EntrySteps("E", false, st, [kw] + BareRun([a, b, c]), h);
    var all := r0.cases + [r0.current];
    assert ProcessEntry("E", false, None, [], Node("enum_entry", "", [kw] + BareRun([a, b, c])), h).cases == all;
    assert |all| == 3;
    var names := [a, b, c];
    assert |st.cases| == 0;
    assert all[|st.cases| + 0] == EnumCase(names[0], Some(RunInit("E", false, None, 0, names[0])));
    assert all[|st.cases| + 1] == EnumCase(names[1], Some(RunInit("E", false, None, 1, names[1])));
    assert all[|st.cases| + 2] == EnumCase(names[2], Some(RunInit("E", false, None, 2, names[2])));
  }
}

=== FILE: guard.dfy ===
/** Guard lowering (`processGuardStatement`). A Swift `guard` runs its else-body (and leaves the
    scope) exactly when its condition fails or its binding is `nil`; the lowering emits an `if`
    around that body. */
module Guard {
  import opened Wrappers
  import opened Syntax

  /** The two source forms: `guard let name = subject else {...}` and `guard cond else {...}`.
      The subject is kept as raw source text, the condition as its translation. */
  datatype GuardForm =
    | GuardLet(name: string, subject: string)
    | GuardCond(cond: string)

  /** The test of the emitted `if`. */
  datatype Check =
    | IsNull(subject: string)
    | Holds(cond: string)
    | Fails(cond: string)

  /** How a run sees the expressions involved: the truth of a condition and the nullness of a
      subject, both by their target text. */
  datatype Env = Env(truth: string -> bool, isNull: string -> bool)

  /** Whether the emitted `if` enters its block. */
  predicate Enters(c: Check, env: Env)
  {
    match c
    case IsNull(x) => env.isNull(x)
    case Holds(t) => env.truth(t)
    case Fails(t) => !env.truth(t)
  }

  /** Whether the Swift guard runs its else-body. */
  predicate Exits(g: GuardForm, env: Env)
  {
    match g
    case GuardLet(_, x) => env.isNull(x)
    case GuardCond(t) => !env.truth(t)
  }

  /** The form of a guard node: child 1 tells the two apart, the binding form reads the bound
      name from child 2 and the subject from child 4. A child the code reads but the node lacks
      is an error. */
  function Classify(n: Node, h: Helpers): (r: Outcome<GuardForm>)
    ensures r.Ok? <==> (n.kind == "guard_statement" && |n.children| >= 2
                        && (n.children[1].kind == "let" ==> |n.children| >= 5))
    ensures r.Ok? && n.children[1].kind == "let" ==> r.value == GuardLet(n.children[2].text, n.children[4].text)
    ensures r.Ok? && n.children[1].kind != "let" ==> r.value == GuardCond(h.sub(n.children[1]))
  {
    var _ :- Expect(n, "guard_statement");
    var cs := n.children;
    if |cs| < 2 then Err(Structural("guard_statement without a condition"))
    else if cs[1].kind == "let" then
      if |cs| < 5 then Err(Structural("guard let without a subject"))
      else Ok(GuardLet(cs[2].text, cs[4].text))
    else Ok(GuardCond(h.sub(cs[1])))
  }

  /** The node after which the else-body is searched: the subject, or child 2 (absent in a
      two-child guard). */
  function Anchor(n: Node): Option<Node>
  {
    var cs := n.children;
    if |cs| >= 5 && cs[1].kind == "let" then Some(cs[4])
    else if |cs| >= 3 then Some(cs[2])
    else None
  }

  function RenderCheck(c: Check): string
  {
    match c
    case IsNull(x) => "\nif (" + x + " == null){\n"
    case Holds(t) => "\nif(" + t + "){\n"
    case Fails(t) => "\nif(!(" + t + ")){\n"
  }

  /** The whole lowering: the test, the else-body, and for the binding form the hoisted binding. */
  function Render(g: GuardForm, c: Check, body: string): string
  {
    RenderCheck(c) + body + "\n}\n"
    + (match g
       case GuardLet(name, x) => "const " + name + " = " + x
       case GuardCond(_) => "")
  }

  /** The test the code emits: the binding form tests for `null`, the condition form tests the
      condition as it stands. */
  function CheckAsWritten(g: GuardForm): (c: Check)
    ensures g.GuardLet? ==> c == IsNull(g.subject)
    ensures g.GuardCond? ==> c == Holds(g.cond)
  {
    match g
    case GuardLet(_, x) => IsNull(x)
    case GuardCond(t) => Holds(t)
  }

  /** The test the lowering needs: the condition form negates the condition. */
  function CheckFixed(g: GuardForm): (c: Check)
    ensures forall env :: Enters(c, env) == Exits(g, env)
  {
    match g
    case GuardLet(_, x) => IsNull(x)
    case GuardCond(t) => Fails(t)
  }

  /** `processGuardStatement` as written: the binding form tests its subject for `null`, runs
      the statements found after the subject and then declares the binding; the condition form
      tests the condition's translation itself and runs the statements found after child 2. */
  function ProcessGuard(n: Node, h: Helpers): (r: Outcome<string>)
    ensures r.Ok? <==> (n.kind == "guard_statement" && |n.children| >= 2
                        && (n.children[1].kind == "let" ==> |n.children| >= 5))
    ensures r.Ok? && n.children[1].kind == "let" ==>
              var cs := n.children;
              r.value == "\nif (" + cs[4].text + " == null){\n" + h.SubOpt(h.findSib("statements", Some(cs[4])))
                         + "\n}\n" + "const " + cs[2].text + " = " + cs[4].text
    ensures r.Ok? && n.children[1].kind != "let" ==>
              var cs := n.children;
              var anchor := if |cs| >= 3 then Some(cs[2]) else None;
              r.value == "\nif(" + h.sub(cs[1]) + "){\n" + h.SubOpt(h.findSib("statements", anchor)) + "\n}\n"
  {
    var g :- Classify(n, h);
    Ok(Render(g, CheckAsWritten(g), h.SubOpt(h.findSib("statements", Anchor(n)))))
  }

  /** The lowering with the condition negated; the binding form is unchanged. */
  function ProcessGuardFixed(n: Node, h: Helpers): (r: Outcome<string>)
    ensures r.Ok? <==> ProcessGuard(n, h).Ok?
    ensures r.Ok? && n.children[1].kind == "let" ==> r == ProcessGuard(n, h)
    ensures r.Ok? && n.children[1].kind != "let" ==>
              var cs := n.children;
              var anchor := if |cs| >= 3 then Some(cs[2]) else None;
              r.value == "\nif(!(" + h.sub(cs[1]) + ")){\n" + h.SubOpt(h.findSib("statements", anchor)) + "\n}\n"
  {
    var g :- Classify(n, h);
    Ok(Render(g, CheckFixed(g), h.SubOpt(h.findSib("statements", Anchor(n)))))
  }

  /** The binding form is faithful as written: the emitted block runs exactly when the Swift
      else-body would, and the binding is declared after it under the source name. */
  lemma GuardLetFaithful(n: Node, h: Helpers, env: Env)
    requires Classify(n, h).Ok? && n.children[1].kind == "let"
    ensures var g := Classify(n, h).value;
            Enters(CheckAsWritten(g), env) == Exits(g, env)
    ensures var out := ProcessGuard(n, h).value;
            var tail := "const " + n.children[2].text + " = " + n.children[4].text;
            |tail| <= |out| && out[|out| - |tail|..] == tail
  {
    var g := Classify(n, h).value;
    var tail := "const " + n.children[2].text + " = " + n.children[4].text;
    var head := RenderCheck(CheckAsWritten(g)) + h.SubOpt(h.findSib("statements", Anchor(n))) + "\n}\n";
    assert ProcessGuard(n, h).value == head + tail;
  }

  /** The condition form as written enters its block exactly when the condition HOLDS, the
      opposite of the Swift guard: with a true condition the else-body runs anyway. */
  lemma GuardCondInverted(n: Node, h: Helpers, env: Env)
    requires Classify(n, h).Ok? && n.children[1].kind != "let"
    ensures var g := Classify(n, h).value;
            Enters(CheckAsWritten(g), env) == !Exits(g, env)
  {
  }

  /** A concrete witness: `guard ready else { ... }` where `ready` holds still runs the body. */
  lemma GuardCondCounterexample(h: Helpers, ready: Node, body: Node)
    requires ready.kind != "let"
    ensures var n := Node("guard_statement", "", [Node("guard", "guard", []), ready, Node("else", "else", []), body]);
            var env := Env(_ => true, _ => false);
            Enters(CheckAsWritten(Classify(n, h).value), env) && !Exits(Classify(n, h).value, env)
  {
  }

  /** The corrected lowering agrees with the Swift guard on every run, in both forms. */
  lemma GuardFixedFaithful(n: Node, h: Helpers, env: Env)
    requires Classify(n, h).Ok?
    ensures var g := Classify(n, h).value;
            Enters(CheckFixed(g), env) == Exits(g, env)
  {
  }
}

=== FILE: jsvalue.dfy ===
/** The JavaScript values the utility functions inspect: `typeof` classes, property keys and
    truthiness. */
module JsValues {
  import opened Strings
  import JsNumber

  /** A JavaScript value; symbols and objects are told apart by identity only. */
  datatype Value =
    | Undefined
    | Null
    | Bool(b: bool)
    | Num(n: JsNumber.Number)
    | Str(s: string)
    | Sym(sym: nat)
    | Obj(ref: nat)

  /** A property key: a string, or a symbol. */
  datatype Key = Named(name: string) | Symbol(sym: nat)

  /** `typeof v` is `"string"`, `"number"` or `"symbol"`. */
  predicate IsKey(v: Value)
  {
    v.Str? || v.Num? || v.Sym?
  }

  /** The property key `obj[v]` uses: numbers are converted to their string form. */
  function ToKey(v: Value): (k: Key)
    requires IsKey(v)
    ensures k.Symbol? <==> v.Sym?
    ensures v.Str? ==> k == Named(v.s)
  {
    match v
    case Str(s) => Named(s)
    case Num(n) => Named(JsNumber.NumberToString(n))
    case Sym(s) => Symbol(s)
  }

  /** A number and its decimal string name the same property. */
  lemma NumberKeyIsItsString(i: int)
    ensures ToKey(Num(JsNumber.Int(i))) == ToKey(Str(IntToString(i)))
  {
  }

  /** Different integers name different properties. */
  lemma NumberKeysDistinct(i: int, j: int)
    ensures ToKey(Num(JsNumber.Int(i))) == ToKey(Num(JsNumber.Int(j))) <==> i == j
  {
    if ToKey(Num(JsNumber.Int(i))) == ToKey(Num(JsNumber.Int(j))) {
      JsNumber.NumberRoundTrip(i);
      JsNumber.NumberRoundTrip(j);
    }
  }

  /** `Boolean(v)`: `undefined`, `null`, `false`, `0`, `NaN` and `""` are falsy. */
  predicate Truthy(v: Value)
  {
    match v
    case Undefined => false
    case Null => false
    case Bool(b) => b
    case Num(n) => n.Int? && n.i != 0
    case Str(s) => s != ""
    case Sym(_) => true
    case Obj(_) => true
  }
}

=== FILE: lambda.dfy ===
/** Closures (`processLambdaLiteral`), their declared parameters (`handleParam`) and function types
    (`handleFunctionType`). A closure that declares no parameters gets one parameter per `$n`
    reference in its translated body. */
module Lambda {
  import opened Wrappers
  import opened Strings
  import opened Syntax
  import TypeMapper

  /** A match of `$` followed by one digit. */
  predicate IsDollarRef(m: string)
  {
    |m| == 2 && m[0] == '$' && IsDigit(m[1])
  }

  /** The matches of `/(\$\d+?)/g` in `s`, left to right: the lazy `\d+?` takes exactly one digit,
      and scanning resumes after each match. */
  function DollarMatches(s: string): (ms: seq<string>)
    ensures forall i :: 0 <= i < |ms| ==> IsDollarRef(ms[i])
    decreases |s|
  {
    if |s| < 2 then []
    else if s[0] == '$' && IsDigit(s[1]) then [s[..2]] + DollarMatches(s[2..])
    else DollarMatches(s[1..])
  }

  /** Reference definition: every position holding `$` before a digit, checked one by one. */
  function DollarRefsFrom(s: string, i: nat): seq<string>
    requires i <= |s|
    decreases |s| - i
  {
    if i + 1 >= |s| then []
    else (if s[i] == '$' && IsDigit(s[i + 1]) then [s[i..i + 2]] else []) + DollarRefsFrom(s, i + 1)
  }

  /** Skipping past a match loses nothing: the digit that ends a match cannot start another, so
      the scanning matcher finds every `$n` occurrence, in order, duplicates included. */
  lemma {:induction false} DollarMatchesAreAllRefs(s: string, i: nat)
    requires i <= |s|
    ensures DollarMatches(s[i..]) == DollarRefsFrom(s, i)
    decreases |s| - i
  {
    var t := s[i..];
    if i + 1 >= |s| {
    } else if s[i] == '$' && IsDigit(s[i + 1]) {
      assert t[0] == '$' && t[1] == s[i + 1];
      assert t[..2] == s[i..i + 2];
      assert t[2..] == s[i + 2..];
      DollarMatchesAreAllRefs(s, i + 2);
      assert !(s[i + 1] == '$');
      assert DollarRefsFrom(s, i + 1) == [] + DollarRefsFrom(s, i + 2);
    } else {
      assert t[1..] == s[i + 1..];
      DollarMatchesAreAllRefs(s, i + 1);
      assert DollarRefsFrom(s, i) == [] + DollarRefsFrom(s, i + 1);
    }
  }

  /** A parameter as `handleParam` builds it: `""` is a field never set. */
  const NoParam: Param := Param("", "", "", false)

  /** The target text `processNode` gives a node in type position: a `user_type` goes through
      `asType`, any other node gets the general translation. It does not depend on the import
      list. */
  function TypeText(cfg: Config, ctx: Context, n: Node, h: Helpers): string
  {
    if n.kind == "user_type" then TypeMapper.AsType(cfg, ctx, [], n.text, UtilModule).text else h.sub(n)
  }

  /** `processNode` on a node in type position, with the import list: a `user_type` appends the
      import `asType` registers for it; the imports of other nodes' translations are not tracked. */
  function TypeNode(cfg: Config, ctx: Context, imports: seq<Import>, n: Node, h: Helpers): (r: Emit)
    ensures r.text == TypeText(cfg, ctx, n, h)
    ensures n.kind == "user_type" && TypeMapper.NeedsImport(cfg, ctx, n.text)
            ==> r.imports == imports + [Import(n.text, TypeMapper.ModuleFor(cfg, UtilModule))]
    ensures !(n.kind == "user_type" && TypeMapper.NeedsImport(cfg, ctx, n.text)) ==> r.imports == imports
  {
    if n.kind == "user_type" then TypeMapper.AsType(cfg, ctx, imports, n.text, UtilModule)
    else Emit(h.sub(n), imports)
  }

  /** One parameter of a function type, as written in the rendered list. */
  function TypeParamText(t: string): string
  {
    "_:" + (if t == "" then "unknown" else t)
  }

  /** What a function type's children accumulate: the parameter texts, the return type (which
      starts as `unknown`) and the import list. */
  datatype FnType = FnType(params: seq<string>, returnType: string, imports: seq<Import>)

  /** The kinds `handleFunctionType` accepts inside a `tuple_type`. */
  predicate TupleChildKnown(c: Node)
  {
    c.kind == "(" || c.kind == ")" || c.kind == "tuple_type_item"
  }

  /** The kinds `handleFunctionType` accepts among its own children. */
  predicate FnChildKnown(c: Node)
  {
    || c.kind == "user_type"
    || c.kind == "->"
    || (c.kind == "tuple_type" && forall j :: 0 <= j < |c.children| ==> TupleChildKnown(c.children[j]))
  }

  /** Reference definitions of the parameter list. The `tuple_type_item` nodes among `cs`, in order, */
  function ItemNodes(cs: seq<Node>): (r: seq<Node>)
    ensures |r| == CountKind(cs, "tuple_type_item")
  {
    if |cs| == 0 then [] else (if cs[0].kind == "tuple_type_item" then [cs[0]] else []) + ItemNodes(cs[1..])
  }

  /** the items of every `tuple_type` child of a function type, left to right, */
  function FnItemNodes(cs: seq<Node>): seq<Node>
  {
    if |cs| == 0 then [] else (if cs[0].kind == "tuple_type" then ItemNodes(cs[0].children) else []) + FnItemNodes(cs[1..])
  }

  /** and the parameter each item becomes: its first child's type (a missing child translates to
      `""`, rendered `unknown`). */
  function ItemText(cfg: Config, ctx: Context, item: Node, h: Helpers): string
  {
    TypeParamText(if |item.children| > 0 then TypeText(cfg, ctx, item.children[0], h) else "")
  }

  function ItemTexts(cfg: Config, ctx: Context, items: seq<Node>, h: Helpers): (r: seq<string>)
    ensures |r| == |items|
    ensures forall i :: 0 <= i < |items| ==> r[i] == ItemText(cfg, ctx, items[i], h)
  {
    seq(|items|, i requires 0 <= i < |items| => ItemText(cfg, ctx, items[i], h))
  }

  lemma ItemTextsAppend(cfg: Config, ctx: Context, a: seq<Node>, b: seq<Node>, h: Helpers)
    ensures ItemTexts(cfg, ctx, a + b, h) == ItemTexts(cfg, ctx, a, h) + ItemTexts(cfg, ctx, b, h)
  {
    var l := ItemTexts(cfg, ctx, a + b, h);
    var r := ItemTexts(cfg, ctx, a, h) + ItemTexts(cfg, ctx, b, h);
    assert |l| == |r|;
    forall i | 0 <= i < |l|
      ensures l[i] == r[i]
    {
      if i < |a| { assert (a + b)[i] == a[i]; } else { assert (a + b)[i] == b[i - |a|]; }
    }
  }

  /** The return type a function type renders: its last `user_type`'s translation, else `unknown`. */
  function ReturnText(cfg: Config, ctx: Context, cs: seq<Node>, h: Helpers): string
  {
    match LastOfKind(cs, "user_type")
    case Some(u) => TypeText(cfg, ctx, u, h)
    case None => "unknown"
  }

  /** The children of a `tuple_type` in parameter position: each item appends its parameter to
      `acc`, registering the imports of its type. */
  function TupleItems(cfg: Config, ctx: Context, acc: FnType, cs: seq<Node>, h: Helpers): (r: Outcome<FnType>)
    ensures r.Ok? <==> forall i :: 0 <= i < |cs| ==> TupleChildKnown(cs[i])
    ensures r.Ok? ==> r.value.returnType == acc.returnType
    ensures r.Ok? ==> |acc.imports| <= |r.value.imports| && r.value.imports[..|acc.imports|] == acc.imports
    decreases |cs|
  {
    if |cs| == 0 then Ok(acc)
    else
      var c := cs[0];
      assert forall i :: 1 <= i < |cs| ==> cs[i] == cs[1..][i - 1];
      if c.kind == "(" || c.kind == ")" then TupleItems(cfg, ctx, acc, cs[1..], h)
      else if c.kind == "tuple_type_item" then
        var t := if |c.children| > 0 then TypeNode(cfg, ctx, acc.imports, c.children[0], h) else Emit("", acc.imports);
        TupleItems(cfg, ctx, acc.(params := acc.params + [TypeParamText(t.text)], imports := t.imports), cs[1..], h)
      else Err(UnknownNode(c.kind, "function_type->tuple_type"))
  }

  /** Each item appends its parameter, in order. */
  lemma {:induction false} TupleItemsParams(cfg: Config, ctx: Context, acc: FnType, cs: seq<Node>, h: Helpers)
    requires TupleItems(cfg, ctx, acc, cs, h).Ok?
    ensures TupleItems(cfg, ctx, acc, cs, h).value.params == acc.params + ItemTexts(cfg, ctx, ItemNodes(cs), h)
    decreases |cs|
  {
    if |cs| == 0 {
      assert acc.params + ItemTexts(cfg, ctx, [], h) == acc.params;
    } else {
      var c := cs[0];
      var rest := ItemNodes(cs[1..]);
      if c.kind == "(" || c.kind == ")" {
        TupleItemsParams(cfg, ctx, acc, cs[1..], h);
        assert ItemNodes(cs) == [] + rest == rest;
      } else {
        var t := if |c.children| > 0 then TypeNode(cfg, ctx, acc.imports, c.children[0], h) else Emit("", acc.imports);
        var p := TypeParamText(t.text);
        var next := acc.(params := acc.params + [p], imports := t.imports);
        assert TupleItems(cfg, ctx, acc, cs, h) == TupleItems(cfg, ctx, next, cs[1..], h);
        TupleItemsParams(cfg, ctx, next, cs[1..], h);
        assert ItemNodes(cs) == [c] + rest;
        assert ItemTexts(cfg, ctx, [c], h) == [p];
        ConcatParams(cfg, ctx, acc.params, [c], rest, h);
      }
    }
  }

  /** The children of a `function_type`, left to right. */
  function FnTypeParts(cfg: Config, ctx: Context, acc: FnType, cs: seq<Node>, h: Helpers): (r: Outcome<FnType>)
    ensures r.Ok? <==> forall i :: 0 <= i < |cs| ==> FnChildKnown(cs[i])
    ensures r.Ok? ==> |acc.imports| <= |r.value.imports| && r.value.imports[..|acc.imports|] == acc.imports
    decreases |cs|
  {
    if |cs| == 0 then Ok(acc)
    else
      var c := cs[0];
      assert forall i :: 1 <= i < |cs| ==> cs[i] == cs[1..][i - 1];
      if c.kind == "user_type" then
        var e := TypeNode(cfg, ctx, acc.imports, c, h);
        FnTypeParts(cfg, ctx, acc.(returnType := e.text, imports := e.imports), cs[1..], h)
      else if c.kind == "->" then FnTypeParts(cfg, ctx, acc, cs[1..], h)
      else if c.kind == "tuple_type" then
        var next :- TupleItems(cfg, ctx, acc, c.children, h);
        FnTypeParts(cfg, ctx, next, cs[1..], h)
      else Err(UnknownNode(c.kind, "function_type"))
  }

  /** The parameters are the items of every tuple, in order. */
  lemma {:induction false} FnTypePartsParams(cfg: Config, ctx: Context, acc: FnType, cs: seq<Node>, h: Helpers)
    requires FnTypeParts(cfg, ctx, acc, cs, h).Ok?
    ensures FnTypeParts(cfg, ctx, acc, cs, h).value.params == acc.params + ItemTexts(cfg, ctx, FnItemNodes(cs), h)
    decreases |cs|
  {
    if |cs| == 0 {
      assert acc.params + ItemTexts(cfg, ctx, [], h) == acc.params;
    } else {
      var c := cs[0];
      var rest := FnItemNodes(cs[1..]);
      if c.kind == "user_type" {
        var e := TypeNode(cfg, ctx, acc.imports, c, h);
        FnTypePartsParams(cfg, ctx, acc.(returnType := e.text, imports := e.imports), cs[1..], h);
        assert FnItemNodes(cs) == [] + rest == rest;
      } else if c.kind == "->" {
        FnTypePartsParams(cfg, ctx, acc, cs[1..], h);
        assert FnItemNodes(cs) == [] + rest == rest;
      } else {
        var next := TupleItems(cfg, ctx, acc, c.children, h).value;
        var items := ItemNodes(c.children);
        assert FnTypeParts(cfg, ctx, acc, cs, h) == FnTypeParts(cfg, ctx, next, cs[1..], h);
        assert FnItemNodes(cs) == items + rest;
        TupleItemsParams(cfg, ctx, acc, c.children, h);
        FnTypePartsParams(cfg, ctx, next, cs[1..], h);
        ConcatParams(cfg, ctx, acc.params, items, rest, h);
      }
    }
  }

  /** The parameters of two runs of items, appended one after the other. */
  lemma ConcatParams(cfg: Config, ctx: Context, ps: seq<string>, a: seq<Node>, b: seq<Node>, h: Helpers)
    ensures (ps + ItemTexts(cfg, ctx, a, h)) + ItemTexts(cfg, ctx, b, h) == ps + ItemTexts(cfg, ctx, a + b, h)
  {
    ItemTextsAppend(cfg, ctx, a, b, h);
  }

  /** The return type is the text of the last `user_type`, or the starting one without any. */
  lemma {:induction false} FnTypePartsReturn(cfg: Config, ctx: Context, acc: FnType, cs: seq<Node>, h: Helpers)
    requires FnTypeParts(cfg, ctx, acc, cs, h).Ok?
    ensures LastOfKind(cs, "user_type").None? ==> FnTypeParts(cfg, ctx, acc, cs, h).value.returnType == acc.returnType
    ensures LastOfKind(cs, "user_type").Some? ==>
              FnTypeParts(cfg, ctx, acc, cs, h).value.returnType == TypeText(cfg, ctx, LastOfKind(cs, "user_type").value, h)
    decreases |cs|
  {
    if |cs| > 0 {
      var c := cs[0];
      if c.kind == "user_type" {
        var e := TypeNode(cfg, ctx, acc.imports, c, h);
        FnTypePartsReturn(cfg, ctx, acc.(returnType := e.text, imports := e.imports), cs[1..], h);
      } else if c.kind == "->" {
        FnTypePartsReturn(cfg, ctx, acc, cs[1..], h);
      } else {
        var next := TupleItems(cfg, ctx, acc, c.children, h).value;
        FnTypePartsReturn(cfg, ctx, next, cs[1..], h);
      }
    }
  }

  /** `handleFunctionType`: `()=>R` without parameters and `(_:T1,_:T2)=>R` with them, where the
      `Ti` are the tuple items' types in order and `R` is the last return type named (`unknown`
      when none is); the type names register their imports. */
  function HandleFunctionType(cfg: Config, ctx: Context, imports: seq<Import>, n: Node, h: Helpers): (r: Outcome<Emit>)
    ensures r.Ok? <==> n.kind == "function_type" && forall i :: 0 <= i < |n.children| ==> FnChildKnown(n.children[i])
    ensures r.Ok? ==>
              var ps := ItemTexts(cfg, ctx, FnItemNodes(n.children), h);
              var ret := ReturnText(cfg, ctx, n.children, h);
              && (|ps| == 0 ==> r.value.text == "()=>" + ret)
              && (|ps| > 0 ==> r.value.text == "(" + Join(",", ps) + ")=>" + ret)
    ensures r.Ok? ==> |imports| <= |r.value.imports| && r.value.imports[..|imports|] == imports
  {
    var _ :- Expect(n, "function_type");
    var parts :- FnTypeParts(cfg, ctx, FnType([], "unknown", imports), n.children, h);
    FnTypePartsParams(cfg, ctx, FnType([], "unknown", imports), n.children, h);
    FnTypePartsReturn(cfg, ctx, FnType([], "unknown", imports), n.children, h);
    var ps := ItemTexts(cfg, ctx, FnItemNodes(n.children), h);
    assert parts.params == [] + ps;
    assert [] + ps == ps;
    assert parts.returnType == ReturnText(cfg, ctx, n.children, h);
    if |parts.params| == 0 then Ok(Emit("()=>" + parts.returnType, parts.imports))
    else Ok(Emit("(" + Join(",", parts.params) + ")=>" + parts.returnType, parts.imports))
  }

  /** A function type that names no return type returns `unknown`. */
  lemma DefaultReturnType(cfg: Config, ctx: Context, imports: seq<Import>, n: Node, h: Helpers)
    requires HandleFunctionType(cfg, ctx, imports, n, h).Ok?
    requires forall i :: 0 <= i < |n.children| ==> n.children[i].kind != "user_type"
    ensures var out := HandleFunctionType(cfg, ctx, imports, n, h).value.text;
            |out| >= 7 && out[|out| - 7..] == "unknown"
  {
    var ps := ItemTexts(cfg, ctx, FnItemNodes(n.children), h);
    var out := HandleFunctionType(cfg, ctx, imports, n, h).value.text;
    if |ps| == 0 {
      assert out == "()=>" + "unknown";
    } else {
      assert out == ("(" + Join(",", ps) + ")=>") + "unknown";
    }
  }

  /** A one-item tuple `(A)` appends the single parameter `_:A`. */
  lemma OneItemTuple(cfg: Config, ctx: Context, acc: FnType, ua: Node, h: Helpers)
    ensures var item := Node("tuple_type_item", "", [ua]);
            var t := TypeNode(cfg, ctx, acc.imports, ua, h);
            TupleItems(cfg, ctx, acc, [Node("(", "(", []), item, Node(")", ")", [])], h)
              == Ok(acc.(params := acc.params + [TypeParamText(t.text)], imports := t.imports))
  {
    var item := Node("tuple_type_item", "", [ua]);
    var open := Node("(", "(", []);
    var close := Node(")", ")", []);
    var t := TypeNode(cfg, ctx, acc.imports, ua, h);
    var acc1 := acc.(params := acc.params + [TypeParamText(t.text)], imports := t.imports);
    assert [open, item, close][1..] == [item, close] && [item, close][1..] == [close] && [close][1..] == [];
    assert TupleItems(cfg, ctx, acc1, [close], h) == Ok(acc1);
    assert TupleItems(cfg, ctx, acc, [item, close], h) == Ok(acc1);
  }

  /** `(A) -> R` in terms of the two type nodes' translations. */
  lemma OneParamParts(cfg: Config, ctx: Context, imports: seq<Import>, ua: Node, ur: Node, h: Helpers)
    requires ur.kind == "user_type"
    ensures var tuple := Node("tuple_type", "", [Node("(", "(", []), Node("tuple_type_item", "", [ua]), Node(")", ")", [])]);
            var n := Node("function_type", "", [tuple, Node("->", "->", []), ur]);
            var ta := TypeNode(cfg, ctx, imports, ua, h);
            var tr := TypeNode(cfg, ctx, ta.imports, ur, h);
            HandleFunctionType(cfg, ctx, imports, n, h) == Ok(Emit("(" + TypeParamText(ta.text) + ")=>" + tr.text, tr.imports))
  {
    var arrow := Node("->", "->", []);
    var tuple := Node("tuple_type", "", [Node("(", "(", []), Node("tuple_type_item", "", [ua]), Node(")", ")", [])]);
    var cs := [tuple, arrow, ur];
    var ta := TypeNode(cfg, ctx, imports, ua, h);
    var tr := TypeNode(cfg, ctx, ta.imports, ur, h);
    var acc0 := FnType([], "unknown", imports);
    var acc1 := acc0.(params := [TypeParamText(ta.text)], imports := ta.imports);
    OneItemTuple(cfg, ctx, acc0, ua, h);
    assert acc0.params + [TypeParamText(ta.text)] == [TypeParamText(ta.text)];
    var acc2 := acc1.(returnType := tr.text, imports := tr.imports);
    FnTail(cfg, ctx, acc1, arrow, ur, h);
    assert cs[0] == tuple && cs[1..] == [arrow, ur];
    assert FnTypeParts(cfg, ctx, acc0, cs, h) == Ok(acc2);
    assert Join(",", [TypeParamText(ta.text)]) == TypeParamText(ta.text);
  }

  /** `(A) -> R`: one parameter typed with `A`'s target name, returning `R`'s, and the imports the
      two names need, `A`'s before `R`'s. */
  lemma OneParamFunctionType(cfg: Config, ctx: Context, imports: seq<Import>, a: string, ret: string, h: Helpers)
    ensures var item := Node("tuple_type_item", "", [Node("user_type", a, [])]);
            var tuple := Node("tuple_type", "", [Node("(", "(", []), item, Node(")", ")", [])]);
            var n := Node("function_type", "", [tuple, Node("->", "->", []), Node("user_type", ret, [])]);
            var r := HandleFunctionType(cfg, ctx, imports, n, h);
            && r.Ok?
            && r.value.text == "(" + TypeParamText(TypeMapper.AsType(cfg, ctx, [], a, UtilModule).text) + ")=>"
                               + TypeMapper.AsType(cfg, ctx, [], ret, UtilModule).text
            && r.value.imports == imports + TypeMapper.ImportsFor(cfg, ctx, [a, ret], UtilModule)
  {
    var ua := Node("user_type", a, []);
    var ur := Node("user_type", ret, []);
    OneParamParts(cfg, ctx, imports, ua, ur, h);
    var ta := TypeNode(cfg, ctx, imports, ua, h);
    var tr := TypeNode(cfg, ctx, ta.imports, ur, h);
    TypeMapper.ImportsAppendOnly(cfg, ctx, imports, [a, ret], UtilModule);
    assert [a, ret][1..] == [ret] && [ret][1..] == [];
    assert ta == TypeMapper.AsType(cfg, ctx, imports, a, UtilModule);
    assert tr == TypeMapper.AsType(cfg, ctx, ta.imports, ret, UtilModule);
    assert TypeMapper.AsTypeAll(cfg, ctx, tr.imports, [], UtilModule) == tr.imports;
    assert TypeMapper.AsTypeAll(cfg, ctx, ta.imports, [ret], UtilModule) == tr.imports;
    assert TypeMapper.AsTypeAll(cfg, ctx, imports, [a, ret], UtilModule) == tr.imports;
  }

  /** `-> R` after the parameters sets the return type and its import. */
  lemma FnTail(cfg: Config, ctx: Context, acc: FnType, arrow: Node, ur: Node, h: Helpers)
    requires arrow.kind == "->" && ur.kind == "user_type"
    ensures var t := TypeNode(cfg, ctx, acc.imports, ur, h);
            FnTypeParts(cfg, ctx, acc, [arrow, ur], h) == Ok(acc.(returnType := t.text, imports := t.imports))
  {
    var t := TypeNode(cfg, ctx, acc.imports, ur, h);
    var acc2 := acc.(returnType := t.text, imports := t.imports);
    assert [arrow, ur][1..] == [ur] && [ur][1..] == [];
    assert FnTypeParts(cfg, ctx, acc2, [], h) == Ok(acc2);
    assert FnTypeParts(cfg, ctx, acc, [ur], h) == Ok(acc2);
  }

  /** The parameter and the import table after one child of a `lambda_parameter`. */
  datatype ParamState = ParamState(param: Param, imports: seq<Import>)

  /** The kinds `handleParam` accepts among a parameter's children. */
  predicate ParamChildKnown(c: Node)
  {
    || c.kind == ":"
    || c.kind == "simple_identifier"
    || c.kind == "optional_type"
    || c.kind == "user_type"
    || c.kind == "array_type"
    || (c.kind == "function_type" && forall i :: 0 <= i < |c.children| ==> FnChildKnown(c.children[i]))
  }

  /** The children that set a parameter's type. */
  predicate SetsType(c: Node)
  {
    c.kind == "function_type" || c.kind == "optional_type" || c.kind == "user_type" || c.kind == "array_type"
  }

  /** The type name a child hands to `asType`: a `user_type`'s own text, an `optional_type`'s
      first child, an `array_type`'s second child (the element type between the brackets). */
  function NamedType(c: Node): Option<string>
  {
    if c.kind == "user_type" then Some(c.text)
    else if c.kind == "optional_type" then Some(ChildText(c, 0))
    else if c.kind == "array_type" then Some(ChildText(c, 1))
    else None
  }

  /** The import a parameter child's type name needs, if any. */
  predicate ImportedBy(cfg: Config, ctx: Context, c: Node, i: Import)
  {
    NamedType(c).Some? && TypeMapper.NeedsImport(cfg, ctx, NamedType(c).value)
    && i == Import(NamedType(c).value, TypeMapper.ModuleFor(cfg, UtilModule))
  }

  /** One child of a `lambda_parameter`: the first identifier is the name and a second one the
      internal name; type children set the type, registering imports through `asType`. */
  function ParamStep(cfg: Config, ctx: Context, st: ParamState, c: Node, h: Helpers): (r: Outcome<ParamState>)
    ensures r.Ok? <==> ParamChildKnown(c)
    ensures c.kind == "simple_identifier" && st.param.name == "" ==> r == Ok(st.(param := st.param.(name := c.text)))
    ensures c.kind == "simple_identifier" && st.param.name != "" ==> r == Ok(st.(param := st.param.(internal := c.text)))
    ensures r.Ok? && c.kind != "optional_type" ==> r.value.param.optional == st.param.optional
    ensures r.Ok? && c.kind == "optional_type" ==> r.value.param.optional
    ensures r.Ok? && c.kind != "simple_identifier" ==> r.value.param.name == st.param.name
    ensures r.Ok? && !SetsType(c) ==> r.value.param.typ == st.param.typ
    ensures c.kind == "user_type" ==> r.Ok? && r.value.param.typ == TypeMapper.AsType(cfg, ctx, [], c.text, UtilModule).text
    ensures r.Ok? ==> |st.imports| <= |r.value.imports| && r.value.imports[..|st.imports|] == st.imports
    ensures r.Ok? ==> forall i :: ImportedBy(cfg, ctx, c, i) ==> i in r.value.imports
  {
    var p := st.param;
    match c.kind
    case ":" => Ok(st)
    case "function_type" =>
      var e :- HandleFunctionType(cfg, ctx, st.imports, c, h);
      Ok(ParamState(p.(typ := e.text), e.imports))
    case "simple_identifier" =>
      if p.name != "" then Ok(st.(param := p.(internal := c.text)))
      else Ok(st.(param := p.(name := c.text)))
    case "optional_type" =>
      var e := TypeMapper.AsType(cfg, ctx, st.imports, ChildText(c, 0), UtilModule);
      Ok(ParamState(p.(optional := true, typ := e.text), e.imports))
    case "user_type" =>
      var e := TypeMapper.AsType(cfg, ctx, st.imports, c.text, UtilModule);
      Ok(ParamState(p.(typ := e.text), e.imports))
    case "array_type" =>
      var e := TypeMapper.AsType(cfg, ctx, st.imports, ChildText(c, 1), UtilModule);
      Ok(ParamState(p.(typ := e.text + "[]"), e.imports))
    case _ => Err(UnknownNode(c.kind, "handleParam"))
  }

  /** The children of a `lambda_parameter`, in order. */
  function ParamSteps(cfg: Config, ctx: Context, st: ParamState, cs: seq<Node>, h: Helpers): (r: Outcome<ParamState>)
    ensures r.Ok? <==> forall i :: 0 <= i < |cs| ==> ParamChildKnown(cs[i])
    ensures r.Ok? ==> (r.value.param.optional <==> st.param.optional || exists i :: 0 <= i < |cs| && cs[i].kind == "optional_type")
    ensures r.Ok? && (forall i :: 0 <= i < |cs| ==> !SetsType(cs[i])) ==> r.value.param.typ == st.param.typ
    ensures r.Ok? ==> |st.imports| <= |r.value.imports| && r.value.imports[..|st.imports|] == st.imports
    decreases |cs|
  {
    if |cs| == 0 then Ok(st)
    else
      assert forall i :: 1 <= i < |cs| ==> cs[i] == cs[1..][i - 1];
      var next :- ParamStep(cfg, ctx, st, cs[0], h);
      ParamSteps(cfg, ctx, next, cs[1..], h)
  }

  /** Every type name a child names that needs an import has it afterwards. */
  lemma {:induction false} ParamStepsImports(cfg: Config, ctx: Context, st: ParamState, cs: seq<Node>, h: Helpers)
    requires ParamSteps(cfg, ctx, st, cs, h).Ok?
    ensures forall k, i :: 0 <= k < |cs| && ImportedBy(cfg, ctx, cs[k], i) ==> i in ParamSteps(cfg, ctx, st, cs, h).value.imports
    decreases |cs|
  {
    if |cs| > 0 {
      var next := ParamStep(cfg, ctx, st, cs[0], h).value;
      var r := ParamSteps(cfg, ctx, next, cs[1..], h).value;
      ParamStepsImports(cfg, ctx, next, cs[1..], h);
      ImportsKept(next.imports, r.imports);
      forall k, i | 0 <= k < |cs| && ImportedBy(cfg, ctx, cs[k], i) ensures i in r.imports {
        if k > 0 {
          assert cs[k] == cs[1..][k - 1];
        }
      }
    }
  }

  /** `handleParam`: the parameter is accepted exactly when every child is of a known kind; it is
      optional exactly when it has an `optional_type` child and untyped when no child sets a type;
      every type name that needs an import has it in the import list afterwards, after the
      imports that were already there. */
  function HandleParam(cfg: Config, ctx: Context, imports: seq<Import>, n: Node, h: Helpers): (r: Outcome<ParamState>)
    ensures r.Ok? <==> forall i :: 0 <= i < |n.children| ==> ParamChildKnown(n.children[i])
    ensures r.Ok? ==> (r.value.param.optional <==> exists i :: 0 <= i < |n.children| && n.children[i].kind == "optional_type")
    ensures r.Ok? && (forall i :: 0 <= i < |n.children| ==> !SetsType(n.children[i])) ==> r.value.param.typ == ""
    ensures r.Ok? ==> |imports| <= |r.value.imports| && r.value.imports[..|imports|] == imports
    ensures r.Ok? ==> forall k, i :: 0 <= k < |n.children| && ImportedBy(cfg, ctx, n.children[k], i) ==> i in r.value.imports
  {
    var r := ParamSteps(cfg, ctx, ParamState(NoParam, imports), n.children, h);
    if r.Err? then r
    else
      ParamStepsImports(cfg, ctx, ParamState(NoParam, imports), n.children, h);
      r
  }

  /** `x` gives the untyped parameter `x`; `x: T` gives `x` typed with `T`'s target name, with
      `T`'s import appended when it needs one. */
  lemma NamedParam(cfg: Config, ctx: Context, imports: seq<Import>, x: string, t: string, h: Helpers)
    requires x != ""
    ensures var n := Node("lambda_parameter", "", [Node("simple_identifier", x, [])]);
            HandleParam(cfg, ctx, imports, n, h) == Ok(ParamState(Param(x, "", "", false), imports))
    ensures var n := Node("lambda_parameter", "", [Node("simple_identifier", x, []), Node(":", ":", []), Node("user_type", t, [])]);
            var e := TypeMapper.AsType(cfg, ctx, imports, t, UtilModule);
            HandleParam(cfg, ctx, imports, n, h) == Ok(ParamState(Param(x, "", e.text, false), e.imports))
  {
    var id := Node("simple_identifier", x, []);
    var colon := Node(":", ":", []);
    var ut := Node("user_type", t, []);
    var p1 := ParamState(Param(x, "", "", false), imports);
    assert [id][1..] == [];
    assert ParamStep(cfg, ctx, ParamState(NoParam, imports), id, h) == Ok(p1);
    assert ParamSteps(cfg, ctx, p1, [], h) == Ok(p1);
    assert ParamSteps(cfg, ctx, ParamState(NoParam, imports), [id], h) == Ok(p1);
    var cs := [id, colon, ut];
    assert cs[1..] == [colon, ut] && cs[1..][1..] == [ut] && [ut][1..] == [];
    assert ParamStep(cfg, ctx, p1, colon, h) == Ok(p1);
    var e := TypeMapper.AsType(cfg, ctx, imports, t, UtilModule);
    var p2 := ParamState(Param(x, "", e.text, false), e.imports);
    assert ParamStep(cfg, ctx, p1, ut, h) == Ok(p2);
    assert ParamSteps(cfg, ctx, p2, [], h) == Ok(p2);
    assert ParamSteps(cfg, ctx, p1, [ut], h) == Ok(p2);
    assert ParamSteps(cfg, ctx, p1, [colon, ut], h) == Ok(p2);
    assert ParamSteps(cfg, ctx, ParamState(NoParam, imports), cs, h) == Ok(p2);
  }

  /** What a closure's children accumulate: declared parameters, statement texts, imports. */
  datatype LambdaState = LambdaState(params: seq<Param>, statements: seq<string>, imports: seq<Import>)

  /** The children of `lambda_function_type_parameters`: one parameter per `lambda_parameter`. */
  function LambdaParams(cfg: Config, ctx: Context, st: LambdaState, cs: seq<Node>, h: Helpers): (r: Outcome<LambdaState>)
    ensures r.Ok? ==> |r.value.params| == |st.params| + CountKind(cs, "lambda_parameter")
    ensures r.Ok? ==> r.value.statements == st.statements
    ensures r.Ok? ==> |st.imports| <= |r.value.imports| && r.value.imports[..|st.imports|] == st.imports
    decreases |cs|
  {
    if |cs| == 0 then Ok(st)
    else
      var c := cs[0];
      if c.kind == "," then LambdaParams(cfg, ctx, st, cs[1..], h)
      else if c.kind == "lambda_parameter" then
        var p :- HandleParam(cfg, ctx, st.imports, c, h);
        LambdaParams(cfg, ctx, st.(params := st.params + [p.param], imports := p.imports), cs[1..], h)
      else Err(UnknownNode(c.kind, "lambda_literal->lambda_function_type_parameters->lambda_function_type"))
  }

  /** How many parameters a `lambda_function_type`'s children declare, and how many a closure's
      children declare. */
  function TypeDeclared(cs: seq<Node>): nat
  {
    if |cs| == 0 then 0
    else (if cs[0].kind == "lambda_function_type_parameters" then CountKind(cs[0].children, "lambda_parameter") else 0)
         + TypeDeclared(cs[1..])
  }

  function Declared(cs: seq<Node>): nat
  {
    if |cs| == 0 then 0
    else (if cs[0].kind == "lambda_function_type" then TypeDeclared(cs[0].children) else 0) + Declared(cs[1..])
  }

  /** The children of `lambda_function_type`. A declared return type registers its import, but the
      emitted closure does not use its text. */
  function LambdaType(cfg: Config, ctx: Context, st: LambdaState, cs: seq<Node>, h: Helpers): (r: Outcome<LambdaState>)
    ensures r.Ok? ==> r.value.statements == st.statements
    ensures r.Ok? ==> |r.value.params| == |st.params| + TypeDeclared(cs)
    ensures r.Ok? ==> |st.imports| <= |r.value.imports| && r.value.imports[..|st.imports|] == st.imports
    decreases |cs|
  {
    if |cs| == 0 then Ok(st)
    else
      var c := cs[0];
      if c.kind == "(" || c.kind == ")" || c.kind == "->" then LambdaType(cfg, ctx, st, cs[1..], h)
      else if c.kind == "user_type" then
        var e := TypeNode(cfg, ctx, st.imports, c, h);
        LambdaType(cfg, ctx, st.(imports := e.imports), cs[1..], h)
      else if c.kind == "lambda_function_type_parameters" then
        var next :- LambdaParams(cfg, ctx, st, c.children, h);
        LambdaType(cfg, ctx, next, cs[1..], h)
      else Err(UnknownNode(c.kind, "lambda_literal->lambda_function_type"))
  }

  /** The children of a `lambda_literal`: a `statements` child replaces the statement list, a
      comment is appended to it, braces and keywords are swallowed. */
  function LambdaChildren(cfg: Config, ctx: Context, st: LambdaState, cs: seq<Node>, h: Helpers): (r: Outcome<LambdaState>)
    ensures r.Ok? ==> |r.value.params| == |st.params| + Declared(cs)
    ensures r.Ok? ==> |st.imports| <= |r.value.imports| && r.value.imports[..|st.imports|] == st.imports
    decreases |cs|
  {
    if |cs| == 0 then Ok(st)
    else
      var c := cs[0];
      if c.kind == "in" || c.kind == "{" || c.kind == "}" || c.kind == "=>" then LambdaChildren(cfg, ctx, st, cs[1..], h)
      else if c.kind == "lambda_function_type" then
        var next :- LambdaType(cfg, ctx, st, c.children, h);
        LambdaChildren(cfg, ctx, next, cs[1..], h)
      else if c.kind == "statements" then LambdaChildren(cfg, ctx, st.(statements := h.Statements(c)), cs[1..], h)
      else if c.kind == "comment" then LambdaChildren(cfg, ctx, st.(statements := st.statements + [c.text]), cs[1..], h)
      else Err(UnknownNode(c.kind, "lamda_literal"))
  }

  /** The parameters synthesized from a body: one `unknown`-typed parameter per `$n` match. */
  function Synthesized(body: string): (ps: seq<Param>)
    ensures |ps| == |DollarMatches(body)|
    ensures forall i :: 0 <= i < |ps| ==> ps[i] == Param(DollarMatches(body)[i], "", "unknown", false)
  {
    var ms := DollarMatches(body);
    seq(|ms|, i requires 0 <= i < |ms| => Param(ms[i], "", "unknown", false))
  }

  /** The final parameter list: the declared one, or the synthesized one when none is declared. */
  function FinalParams(declared: seq<Param>, body: string): seq<Param>
  {
    if |declared| == 0 then Synthesized(body) else declared
  }

  /** The bare `p=>` form is chosen for exactly one untyped parameter. */
  predicate BareForm(ps: seq<Param>)
  {
    |ps| == 1 && ps[0].typ == ""
  }

  function RenderLambda(ps: seq<Param>, body: string, h: Helpers): string
  {
    if BareForm(ps) then h.toParamStr(ps) + "=>" + body
    else "(" + h.toParamStr(ps) + ")=>" + body
  }

  /** The `unknown`-typed parameters named by the `$n` occurrences of a body, in order. */
  function RefParams(body: string): (ps: seq<Param>)
  {
    var refs := DollarRefsFrom(body, 0);
    seq(|refs|, i requires 0 <= i < |refs| => Param(refs[i], "", "unknown", false))
  }

  /** `processLambdaLiteral`. A closure that declares no parameter gets one `unknown`-typed
      parameter per `$n` occurrence of its body, always parenthesized; one that declares
      parameters keeps them, in the bare `p=>` form exactly when there is a single untyped one. */
  function ProcessLambda(cfg: Config, ctx: Context, imports: seq<Import>, n: Node, h: Helpers): (r: Outcome<Emit>)
    ensures r.Ok? <==> n.kind == "lambda_literal" && LambdaChildren(cfg, ctx, LambdaState([], [], imports), n.children, h).Ok?
    ensures r.Ok? ==> |imports| <= |r.value.imports| && r.value.imports[..|imports|] == imports
    ensures r.Ok? && Declared(n.children) == 0 ==>
              var body := h.lambdaReturn(LambdaChildren(cfg, ctx, LambdaState([], [], imports), n.children, h).value.statements);
              r.value.text == "(" + h.toParamStr(RefParams(body)) + ")=>" + body
    ensures r.Ok? && Declared(n.children) > 0 ==>
              var st := LambdaChildren(cfg, ctx, LambdaState([], [], imports), n.children, h).value;
              var body := h.lambdaReturn(st.statements);
              && |st.params| == Declared(n.children)
              && (|st.params| == 1 && st.params[0].typ == "" ==> r.value.text == h.toParamStr(st.params) + "=>" + body)
              && (!(|st.params| == 1 && st.params[0].typ == "") ==> r.value.text == "(" + h.toParamStr(st.params) + ")=>" + body)
  {
    var _ :- Expect(n, "lambda_literal");
    var st :- LambdaChildren(cfg, ctx, LambdaState([], [], imports), n.children, h);
    var body := h.lambdaReturn(st.statements);
    SynthesizedParams(body);
    Ok(Emit(RenderLambda(FinalParams(st.params, body), body, h), st.imports))
  }

  /** Without declared parameters, the parameter list is one `unknown` parameter per `$n`
      occurrence in the body, in order of appearance, duplicates kept; and such a list never
      takes the bare form, so the parameters are always parenthesized. */
  lemma SynthesizedParams(body: string)
    ensures FinalParams([], body) == RefParams(body)
    ensures !BareForm(FinalParams([], body))
  {
    DollarMatchesAreAllRefs(body, 0);
    assert body[0..] == body;
  }

  /** Declared parameters are kept as they are, whatever the body mentions. */
  lemma DeclaredParamsWin(declared: seq<Param>, body: string)
    requires |declared| > 0
    ensures FinalParams(declared, body) == declared
  {
  }

  /** `{ $0 + $1 }` gets two parameters, `$0` then `$1`. */
  lemma TwoRefs()
    ensures DollarMatches("$0 + $1") == ["$0", "$1"]
  {
    var s := "$0 + $1";
    assert s[0] == '$' && IsDigit(s[1]) && s[..2] == "$0";
    var t := s[2..];
    assert t == " + $1";
    assert t[1..] == "+ $1" && t[1..][1..] == " $1" && t[1..][1..][1..] == "$1";
    assert "$1"[..2] == "$1" && "$1"[2..] == [];
  }
}

=== FILE: literals.dfy ===
/** Literal rewriting (`processLiteral`): numeric and boolean literals, `self`, `nil`, dictionary,
    array and string literals. */
module Literals {
  import opened Wrappers
  import opened Strings
  import opened Syntax
  import TypeMapper

  /** The kinds emitted as their own text (save for the member-access suffix rule). */
  const NumericKinds: set<string> := {"float_literal", "double_literal", "real_literal", "boolean_literal",
                                      "integer_literal", "oct_literal", "hex_literal", "bin_literal"}

  /** The operators after which `self` is emitted with a type escape. */
  const SelfArithmetic: set<string> := {"/", "*", "-", "+", "+=", "/=", "*=", "-="}

  const StringKinds: set<string> := {"line_str_text", "line_string_literal"}

  /** A numeric or boolean literal: followed by a member-access suffix (`25.mm`) it gains a trailing
      `.` unless its text already has one, so the target still reads it as a number. */
  function NumericLiteral(text: string, next: Option<string>): (r: string)
    ensures r == text + "." <==> (next == Some("navigation_suffix") && '.' !in text)
    ensures r != text + "." ==> r == text
    ensures next == Some("navigation_suffix") ==> '.' in r
  {
    if next == Some("navigation_suffix") then
      if '.' in text then text else text + "."
    else text
  }

  /** The rewrite is idempotent: a literal already rewritten is left alone. */
  lemma NumericLiteralIdempotent(text: string, next: Option<string>)
    ensures NumericLiteral(NumericLiteral(text, next), next) == NumericLiteral(text, next)
  {
    if next == Some("navigation_suffix") && '.' !in text {
      var r := text + ".";
      assert r[|r| - 1] == '.';
    }
  }

  /** `self`: plain `this`, or `this as any` when an arithmetic operator follows. */
  function SelfLiteral(next: Option<string>): (r: string)
    ensures r == "this as any" <==> (next.Some? && next.value in SelfArithmetic)
    ensures r == "this" || r == "this as any"
  {
    if next.Some? && next.value in SelfArithmetic then "this as any" else "this"
  }

  /** One child of a dictionary literal: brackets become braces, separators get line breaks. */
  function DictionaryPiece(c: Node, h: Helpers): string
  {
    match c.kind
    case "]" => "\n}"
    case "[" => "{\n"
    case "," => ",\n"
    case ":" => ": "
    case _ => h.sub(c)
  }

  /** The pieces of a dictionary literal, concatenated in order. */
  function DictionaryLiteral(cs: seq<Node>, h: Helpers): (r: string)
    ensures |cs| == 0 ==> r == ""
    ensures |cs| > 0 && cs[0].kind == "[" ==> StartsWith(r, "{\n")
  {
    Concat(seq(|cs|, i requires 0 <= i < |cs| => DictionaryPiece(cs[i], h)))
  }

  /** The source's `reduce`: a left fold that appends each child's piece to the text so far. */
  function DictionaryReduce(acc: string, cs: seq<Node>, h: Helpers): string
    decreases |cs|
  {
    if |cs| == 0 then acc else DictionaryReduce(acc + DictionaryPiece(cs[0], h), cs[1..], h)
  }

  /** Concatenating the pieces is the source's left fold from the empty string. */
  lemma {:induction false} DictionaryIsReduce(acc: string, cs: seq<Node>, h: Helpers)
    ensures DictionaryReduce(acc, cs, h) == acc + DictionaryLiteral(cs, h)
    decreases |cs|
  {
    if |cs| == 0 {
      assert acc + "" == acc;
    } else {
      var ps := seq(|cs|, i requires 0 <= i < |cs| => DictionaryPiece(cs[i], h));
      var tail := seq(|cs| - 1, i requires 0 <= i < |cs| - 1 => DictionaryPiece(cs[1..][i], h));
      assert ps[1..] == tail;
      DictionaryIsReduce(acc + DictionaryPiece(cs[0], h), cs[1..], h);
      assert DictionaryLiteral(cs, h) == DictionaryPiece(cs[0], h) + DictionaryLiteral(cs[1..], h);
    }
  }

  /** The text a string literal stands for: the second child's text, or the whole text. */
  function RawString(n: Node): string
  {
    if |n.children| > 1 && n.children[1].text != "" then n.children[1].text else n.text
  }

  /** A string literal: without interpolations it is quoted as JSON, otherwise each interpolated
      expression is translated afresh and the pieces are composed into a template. */
  function StringLiteral(n: Node, h: Helpers): (r: string)
    ensures |h.parseStr(RawString(n)).1| == 0 ==> r == JsonQuote(RawString(n))
    ensures |h.parseStr(RawString(n)).1| > 0 ==>
              var (literals, values) := h.parseStr(RawString(n));
              r == h.toStringLit(literals, seq(|values|, i requires 0 <= i < |values| => h.reparse(values[i])))
  {
    var raw := RawString(n);
    var (literals, values) := h.parseStr(raw);
    if |values| == 0 then JsonQuote(raw)
    else h.toStringLit(literals, seq(|values|, i requires 0 <= i < |values| => h.reparse(values[i])))
  }

  /** A literal without interpolations reads back as exactly the text it came from. */
  lemma PlainStringRoundTrip(n: Node, h: Helpers)
    requires |h.parseStr(RawString(n)).1| == 0
    ensures var q := StringLiteral(n, h); Unescape(q[1..|q| - 1]) == RawString(n)
  {
    var q := StringLiteral(n, h);
    assert q[1..|q| - 1] == Escape(RawString(n));
    UnescapeEscape(RawString(n));
  }

  /** `processLiteral`: `None` when the node is not a literal. `next` is the kind of the node's
      next sibling, if any. */
  function ProcessLiteral(cfg: Config, ctx: Context, imports: seq<Import>, n: Node, next: Option<string>, h: Helpers): (r: Option<Emit>)
    ensures r.None? <==> n.kind !in NumericKinds + StringKinds
                         + {"self_expression", "nil", "dictionary_literal", "array_literal"}
    ensures n.kind in NumericKinds ==> r == Some(Emit(NumericLiteral(n.text, next), imports))
    ensures n.kind == "nil" ==> r == Some(Emit("undefined", imports))
    ensures r.Some? && n.kind != "array_literal" ==> r.value.imports == imports
  {
    if n.kind in NumericKinds then Some(Emit(NumericLiteral(n.text, next), imports))
    else if n.kind == "self_expression" then Some(Emit(SelfLiteral(next), imports))
    else if n.kind == "nil" then Some(Emit("undefined", imports))
    else if n.kind == "dictionary_literal" then Some(Emit(DictionaryLiteral(n.children, h), imports))
    else if n.kind == "array_literal" then
      var t := TypeMapper.AsType(cfg, ctx, imports, "SwiftArrayT", UtilModule);
      Some(Emit(Join(" ", h.Statements(n)), t.imports))
    else if n.kind in StringKinds then Some(Emit(StringLiteral(n, h), imports))
    else None
  }
}

=== FILE: numbers.dfy ===
/** The integer part of JavaScript's `Number(text)` and `String(number)`, as enum raw values use
    them. */
module JsNumber {
  import opened Strings

  /** A JavaScript number restricted to the values integer literals can produce. */
  datatype Number = Int(i: int) | NaN

  /** `String(n)`. */
  function NumberToString(n: Number): string
  {
    match n
    case Int(i) => IntToString(i)
    case NaN => "NaN"
  }

  /** `++n`. */
  function Increment(n: Number): (r: Number)
    ensures n.Int? <==> r.Int?
    ensures n.Int? ==> r.i == n.i + 1
  {
    match n
    case Int(i) => Int(i + 1)
    case NaN => NaN
  }

  /** The text before trailing white space. */
  function TrimEnd(s: string): (t: string)
    ensures |t| <= |s| && t == s[..|t|]
    ensures |t| > 0 ==> !IsJsWhitespace(t[|t| - 1])
    decreases |s|
  {
    if |s| > 0 && IsJsWhitespace(s[|s| - 1]) then TrimEnd(s[..|s| - 1]) else s
  }

  /** `s.trim()`. */
  function Trim(s: string): string
  {
    TrimEnd(TrimStart(s))
  }

  lemma DigitsUntrimmed(s: string)
    requires AllDigits(s)
    ensures Trim(s) == s
  {
    if |s| > 0 {
      assert IsDigit(s[0]) && IsDigit(s[|s| - 1]);
      assert TrimStart(s) == s;
    }
  }

  /** Text that starts and ends with something other than white space is left alone by `trim`. */
  lemma Untrimmed(s: string)
    requires |s| > 0 && !IsJsWhitespace(s[0]) && !IsJsWhitespace(s[|s| - 1])
    ensures Trim(s) == s
  {
    assert TrimStart(s) == s;
  }

  predicate IsRadixDigit(c: char, radix: nat)
  {
    if radix == 16 then IsDigit(c) || 'a' <= c <= 'f' || 'A' <= c <= 'F'
    else '0' <= c && (c as int) < ('0' as int) + radix
  }

  function DigitValue(c: char): nat
  {
    if 'a' <= c <= 'f' then c as int - 'a' as int + 10
    else if 'A' <= c <= 'F' then c as int - 'A' as int + 10
    else if '0' <= c <= '9' then c as int - '0' as int
    else 0
  }

  predicate AllRadix(s: string, radix: nat)
  {
    forall i :: 0 <= i < |s| ==> IsRadixDigit(s[i], radix)
  }

  function RadixValue(s: string, radix: nat): nat
  {
    if |s| == 0 then 0 else RadixValue(s[..|s| - 1], radix) * radix + DigitValue(s[|s| - 1])
  }

  /** A `0x`, `0o` or `0b` literal: its radix, or 0 when `t` has none of these prefixes. */
  function PrefixRadix(t: string): nat
  {
    if |t| > 2 && t[0] == '0' then
      if t[1] == 'x' || t[1] == 'X' then 16
      else if t[1] == 'o' || t[1] == 'O' then 8
      else if t[1] == 'b' || t[1] == 'B' then 2
      else 0
    else 0
  }

  /** `Number` on text without surrounding white space: the empty text is 0, a prefixed literal
      is read in its radix, a signed or unsigned digit run in decimal, anything else is `NaN`. */
  function ParseTrimmed(t: string): (r: Number)
    ensures |t| > 0 && AllDigits(t) ==> r == Int(DigitsToNat(t))
  {
    assert |t| > 2 && AllDigits(t) ==> IsDigit(t[1]);
    if t == "" then Int(0)
    else if PrefixRadix(t) != 0 then
      if AllRadix(t[2..], PrefixRadix(t)) then Int(RadixValue(t[2..], PrefixRadix(t))) else NaN
    else if t[0] == '-' && |t| > 1 && AllDigits(t[1..]) then Int(-(DigitsToNat(t[1..]) as int))
    else if t[0] == '+' && |t| > 1 && AllDigits(t[1..]) then Int(DigitsToNat(t[1..]))
    else if AllDigits(t) then Int(DigitsToNat(t))
    else NaN
  }

  /** `Number(s)` on integer text: surrounding white space is ignored. */
  function ToNumber(s: string): (r: Number)
    ensures |s| > 0 && AllDigits(s) ==> r == Int(DigitsToNat(s))
    ensures Trim(s) == "" ==> r == Int(0)
  {
    DigitsUntrimmedAgain(s, Trim(s));
    ParseTrimmed(Trim(s))
  }

  /** Helper for `ToNumber`'s first postcondition: an all-digit text is its own trimmed form. */
  lemma DigitsUntrimmedAgain(s: string, t: string)
    requires t == Trim(s)
    ensures |s| > 0 && AllDigits(s) ==> t == s && PrefixRadix(t) == 0
  {
    if |s| > 0 && AllDigits(s) {
      DigitsUntrimmed(s);
      assert t[0] == s[0] && IsDigit(s[0]);
      if |s| > 2 { assert IsDigit(s[1]); }
    }
  }

  /** Printing an integer and reading it back gives the integer. */
  lemma NumberRoundTrip(i: int)
    ensures ToNumber(IntToString(i)) == Int(i)
  {
    if i < 0 {
      var s := IntToString(i);
      var d := NatToString(-i);
      assert s == "-" + d && s[1..] == d;
      DigitsOfNat(-i);
      assert s[0] == '-' && !IsJsWhitespace('-');
      assert TrimStart(s) == s;
      assert IsDigit(s[|s| - 1]);
      assert Trim(s) == s;
      assert PrefixRadix(s) == 0;
    } else {
      DigitsOfNat(i);
    }
  }

  /** `Number("0x1F")` is 31 (the text has no white space to trim). */
  lemma HexLiteral()
    ensures ParseTrimmed("0x1F") == Int(31)
  {
    var s := "0x1F";
    assert PrefixRadix(s) == 16;
    assert s[2..] == "1F" && "1F"[..1] == "1" && "1"[..0] == "";
    assert AllRadix("1F", 16);
  }

  /** An integer literal with digit separators, `1_000`, is not a JavaScript number. */
  lemma SeparatorIsNaN()
    ensures ParseTrimmed("1_000") == NaN
  {
    var s := "1_000";
    assert PrefixRadix(s) == 0;
    assert !IsDigit(s[1]);
  }
}

=== FILE: property.dfy ===
/** Property declarations (`processPropertyDeclaration`) and their type annotations
    (`processTypeAnnotation`): Swift `let`/`var` become `const`/`let`, and the annotated type is
    mapped through `asType`, optionals gaining `| undefined`. */
module Property {
  import opened Wrappers
  import opened Strings
  import opened Syntax
  import TypeMapper

  /** The binding keyword: an immutable Swift `let` becomes `const`, a mutable `var` becomes `let`. */
  function Keyword(k: string): (r: Option<string>)
    ensures r.Some? <==> (k == "let" || k == "var")
    ensures k == "let" ==> r == Some("const")
    ensures k == "var" ==> r == Some("let")
  {
    if k == "let" then Some("const") else if k == "var" then Some("let") else None
  }

  /** Mutability is preserved: the two source keywords map to different target keywords, and the
      target's reassignable `let` comes exactly from Swift's reassignable `var`. */
  lemma KeywordKeepsMutability(a: string, b: string)
    requires Keyword(a).Some? && Keyword(b).Some?
    ensures Keyword(a) == Keyword(b) <==> a == b
    ensures Keyword(a) == Some("let") <==> a == "var"
  {
  }

  /** What a type annotation yields: the target type (`""` while unset), whether it was
      optional, and the import table. */
  datatype Annotation = Annotation(typ: string, optional: bool, imports: seq<Import>)

  predicate IsAnnotationKind(k: string)
  {
    k == "optional_type" || k == ":" || k == "user_type" || k == "opaque_type" || k == "array_type"
  }

  /** The children of a `type_annotation` that set its type. */
  predicate SetsType(k: string)
  {
    k == "optional_type" || k == "user_type" || k == "opaque_type" || k == "array_type"
  }

  /** `asType`'s text for a name, which depends neither on the scope nor on the import list. */
  function TypeName(cfg: Config, ctx: Context, name: string): string
  {
    TypeMapper.AsType(cfg, ctx, [], name, UtilModule).text
  }

  /** The type a type-setting child gives: the `asType` text of the wrapped name of an
      optional, of the name of a plain or opaque type, and of an array's element type inside
      `Array<...>`. */
  function ChildType(cfg: Config, ctx: Context, t: Node): string
  {
    if t.kind == "optional_type" then TypeName(cfg, ctx, ChildText(t, 0))
    else if t.kind == "array_type" then "Array<" + TypeName(cfg, ctx, ChildText(t, 1)) + ">"
    else TypeName(cfg, ctx, t.text)
  }

  /** The last child that sets the type, if any. */
  function LastSetter(cs: seq<Node>): (r: Option<Node>)
    ensures r.None? <==> forall i :: 0 <= i < |cs| ==> !SetsType(cs[i].kind)
    ensures r.Some? ==> exists i :: 0 <= i < |cs| && cs[i] == r.value && SetsType(cs[i].kind)
                                    && forall j :: i < j < |cs| ==> !SetsType(cs[j].kind)
  {
    if |cs| == 0 then None
    else
      assert forall i :: 1 <= i < |cs| ==> cs[i] == cs[1..][i - 1];
      match LastSetter(cs[1..])
      case Some(u) => Some(u)
      case None => if SetsType(cs[0].kind) then Some(cs[0]) else None
  }

  /** `asType` on a name while threading the import list: the text is `TypeName`'s, and the
      list only grows. */
  function UseType(cfg: Config, ctx: Context, imports: seq<Import>, name: string): (e: Emit)
    ensures e.text == TypeName(cfg, ctx, name)
    ensures |imports| <= |e.imports| && e.imports[..|imports|] == imports
  {
    TypeMapper.AsTypeTextIgnoresScope(cfg, ctx, ctx, imports, [], name);
    TypeMapper.AsType(cfg, ctx, imports, name, UtilModule)
  }

  /** One child of a `type_annotation`. */
  function AnnotationStep(cfg: Config, ctx: Context, a: Annotation, t: Node): (r: Outcome<Annotation>)
    ensures r.Ok? <==> IsAnnotationKind(t.kind)
    ensures r.Ok? ==> (r.value.optional <==> a.optional || t.kind == "optional_type")
    ensures r.Ok? && (t.kind == "user_type" || t.kind == "opaque_type") ==> r.value.typ == TypeName(cfg, ctx, t.text)
    ensures r.Ok? && t.kind == "optional_type" ==> r.value.typ == TypeName(cfg, ctx, ChildText(t, 0))
    ensures r.Ok? && t.kind == "array_type" ==> StartsWith(r.value.typ, "Array<")
    ensures r.Ok? && t.kind == "array_type" ==> r.value.typ == "Array<" + TypeName(cfg, ctx, ChildText(t, 1)) + ">"
    ensures r.Ok? && !SetsType(t.kind) ==> r.value.typ == a.typ
    ensures r.Ok? ==> |a.imports| <= |r.value.imports| && r.value.imports[..|a.imports|] == a.imports
  {
    match t.kind
    case "optional_type" =>
      var e := UseType(cfg, ctx, a.imports, ChildText(t, 0));
      Ok(Annotation(e.text, true, e.imports))
    case ":" => Ok(a)
    case "user_type" =>
      var e := UseType(cfg, ctx, a.imports, t.text);
      Ok(a.(typ := e.text, imports := e.imports))
    case "opaque_type" =>
      var e := UseType(cfg, ctx, a.imports, t.text);
      Ok(a.(typ := e.text, imports := e.imports))
    case "array_type" =>
      var arr := UseType(cfg, ctx, a.imports, "SwiftArrayT");
      var e := UseType(cfg, ctx, arr.imports, ChildText(t, 1));
      assert e.imports[..|a.imports|] == e.imports[..|arr.imports|][..|a.imports|];
      assert StartsWith("Array<" + e.text + ">", "Array<");
      Ok(a.(typ := "Array<" + e.text + ">", imports := e.imports))
    case _ => Err(UnknownNode(t.kind, "type_annotation"))
  }

  /** Each type-setting child gives its own `ChildType`. */
  lemma StepType(cfg: Config, ctx: Context, a: Annotation, t: Node)
    requires AnnotationStep(cfg, ctx, a, t).Ok?
    ensures SetsType(t.kind) ==> AnnotationStep(cfg, ctx, a, t).value.typ == ChildType(cfg, ctx, t)
    ensures !SetsType(t.kind) ==> AnnotationStep(cfg, ctx, a, t).value.typ == a.typ
  {
  }

  function AnnotationSteps(cfg: Config, ctx: Context, a: Annotation, ts: seq<Node>): (r: Outcome<Annotation>)
    ensures r.Ok? <==> forall i :: 0 <= i < |ts| ==> IsAnnotationKind(ts[i].kind)
    ensures r.Ok? ==> (r.value.optional <==> a.optional || exists i :: 0 <= i < |ts| && ts[i].kind == "optional_type")
    ensures r.Ok? ==> |a.imports| <= |r.value.imports| && r.value.imports[..|a.imports|] == a.imports
    decreases |ts|
  {
    if |ts| == 0 then Ok(a)
    else
      var next :- AnnotationStep(cfg, ctx, a, ts[0]);
      var r :- AnnotationSteps(cfg, ctx, next, ts[1..]);
      assert forall i :: 1 <= i < |ts| ==> ts[i] == ts[1..][i - 1];
      assert r.imports[..|a.imports|] == r.imports[..|next.imports|][..|a.imports|];
      Ok(r)
  }

  /** The type of a run of annotation children is the one the last type-setting child gives,
      or the starting one when none sets it. */
  lemma {:induction false} StepsType(cfg: Config, ctx: Context, a: Annotation, ts: seq<Node>)
    requires AnnotationSteps(cfg, ctx, a, ts).Ok?
    ensures LastSetter(ts).None? ==> AnnotationSteps(cfg, ctx, a, ts).value.typ == a.typ
    ensures LastSetter(ts).Some? ==> AnnotationSteps(cfg, ctx, a, ts).value.typ == ChildType(cfg, ctx, LastSetter(ts).value)
    decreases |ts|
  {
    if |ts| > 0 {
      var next := AnnotationStep(cfg, ctx, a, ts[0]).value;
      StepType(cfg, ctx, a, ts[0]);
      StepsType(cfg, ctx, next, ts[1..]);
    }
  }

  /** `processTypeAnnotation`: the type the last type-setting child gives; fails when a child
      kind is unknown or no child produced a type. */
  function ProcessTypeAnnotation(cfg: Config, ctx: Context, imports: seq<Import>, n: Node): (r: Outcome<Annotation>)
    ensures r.Ok? <==> && (forall i :: 0 <= i < |n.children| ==> IsAnnotationKind(n.children[i].kind))
                       && LastSetter(n.children).Some? && ChildType(cfg, ctx, LastSetter(n.children).value) != ""
    ensures r.Ok? ==> LastSetter(n.children).Some? && r.value.typ == ChildType(cfg, ctx, LastSetter(n.children).value)
    ensures r.Ok? ==> r.value.typ != ""
    ensures r.Ok? ==> (r.value.optional <==> exists i :: 0 <= i < |n.children| && n.children[i].kind == "optional_type")
    ensures r.Ok? ==> |imports| <= |r.value.imports| && r.value.imports[..|imports|] == imports
  {
    var a :- AnnotationSteps(cfg, ctx, Annotation("", false, imports), n.children);
    StepsType(cfg, ctx, Annotation("", false, imports), n.children);
    if a.typ == "" then Err(Structural("no type found for type_annotation: " + n.text)) else Ok(a)
  }

  /** The annotated type as written after the colon. */
  function AnnotatedType(a: Annotation): (t: string)
    ensures a.optional ==> t == a.typ + "| undefined"
    ensures !a.optional ==> t == a.typ
  {
    a.typ + (if a.optional then "| undefined" else "")
  }

  /** What a declaration accumulates: the output pieces, the scope and the import table. */
  datatype DeclState = DeclState(pieces: seq<string>, ctx: Context, imports: seq<Import>)

  /** The scope after `name` has been bound. */
  function Bind(ctx: Context, name: string): (c: Context)
    ensures c.inScope(name)
    ensures forall s :: ctx.inScope(s) ==> c.inScope(s)
  {
    ctx.(inScope := s => s == name || ctx.inScope(s))
  }

  /** One child of a `property_declaration`. */
  function DeclStep(cfg: Config, st: DeclState, n: Node, h: Helpers): (r: Outcome<DeclState>)
    ensures Keyword(n.kind).Some? ==> r == Ok(st.(pieces := st.pieces + [Keyword(n.kind).value]))
    ensures r.Ok? && n.kind != "type_annotation" ==> r.value.imports == st.imports
    ensures r.Ok? ==> |r.value.pieces| > |st.pieces|
  {
    match n.kind
    case "let" => Ok(st.(pieces := st.pieces + ["const"]))
    case "var" => Ok(st.(pieces := st.pieces + ["let"]))
    case "pattern" =>
      var name := Concat(h.Statements(n));
      Ok(DeclState(st.pieces + [name], Bind(st.ctx, name), st.imports))
    case "=" => Ok(st.(pieces := st.pieces + [n.text]))
    case "type_annotation" =>
      var a :- ProcessTypeAnnotation(cfg, st.ctx, st.imports, n);
      Ok(st.(pieces := st.pieces + [":", AnnotatedType(a)], imports := a.imports))
    case _ => Ok(st.(pieces := st.pieces + [h.sub(n)]))
  }

  function DeclSteps(cfg: Config, st: DeclState, cs: seq<Node>, h: Helpers): (r: Outcome<DeclState>)
    ensures r.Ok? ==> |st.pieces| + |cs| <= |r.value.pieces| && r.value.pieces[..|st.pieces|] == st.pieces
    ensures r.Ok? ==> |st.imports| <= |r.value.imports| && r.value.imports[..|st.imports|] == st.imports
    ensures r.Ok? && (forall i :: 0 <= i < |cs| ==> cs[i].kind != "type_annotation") ==> r.value.imports == st.imports
    decreases |cs|
  {
    if |cs| == 0 then Ok(st)
    else
      var next :- DeclStep(cfg, st, cs[0], h);
      var r :- DeclSteps(cfg, next, cs[1..], h);
      assert forall i :: 1 <= i < |cs| ==> cs[i] == cs[1..][i - 1];
      assert r.pieces[..|st.pieces|] == r.pieces[..|next.pieces|][..|st.pieces|];
      assert r.imports[..|st.imports|] == r.imports[..|next.imports|][..|st.imports|];
      Ok(r)
  }

  /** Reference definition of the output: the pieces each child contributes on its own, with
      annotations read in the declaration's own scope and from an empty import table, */
  function ChildPieces(cfg: Config, ctx: Context, n: Node, h: Helpers): Outcome<seq<string>>
  {
    match n.kind
    case "let" => Ok(["const"])
    case "var" => Ok(["let"])
    case "pattern" => Ok([Concat(h.Statements(n))])
    case "=" => Ok([n.text])
    case "type_annotation" =>
      var a :- ProcessTypeAnnotation(cfg, ctx, [], n);
      Ok([":", AnnotatedType(a)])
    case _ => Ok([h.sub(n)])
  }

  /** and all children's pieces in order. */
  function AllPieces(cfg: Config, ctx: Context, cs: seq<Node>, h: Helpers): Outcome<seq<string>>
    decreases |cs|
  {
    if |cs| == 0 then Ok([])
    else
      var p :- ChildPieces(cfg, ctx, cs[0], h);
      var rest :- AllPieces(cfg, ctx, cs[1..], h);
      Ok(p + rest)
  }

  lemma AnnotationStepIgnoresScope(cfg: Config, c1: Context, c2: Context, a1: Annotation, a2: Annotation, t: Node)
    requires TypeMapper.SameClasses(c1, c2) && a1.typ == a2.typ && a1.optional == a2.optional
    ensures AnnotationStep(cfg, c1, a1, t).Ok? == AnnotationStep(cfg, c2, a2, t).Ok?
    ensures AnnotationStep(cfg, c1, a1, t).Err? ==> AnnotationStep(cfg, c1, a1, t) == AnnotationStep(cfg, c2, a2, t)
    ensures AnnotationStep(cfg, c1, a1, t).Ok? ==>
              && AnnotationStep(cfg, c1, a1, t).value.typ == AnnotationStep(cfg, c2, a2, t).value.typ
              && AnnotationStep(cfg, c1, a1, t).value.optional == AnnotationStep(cfg, c2, a2, t).value.optional
  {
    if t.kind == "optional_type" {
      TypeMapper.AsTypeTextIgnoresScope(cfg, c1, c2, a1.imports, a2.imports, ChildText(t, 0));
    } else if t.kind == "user_type" || t.kind == "opaque_type" {
      TypeMapper.AsTypeTextIgnoresScope(cfg, c1, c2, a1.imports, a2.imports, t.text);
    } else if t.kind == "array_type" {
      var arr1 := TypeMapper.AsType(cfg, c1, a1.imports, "SwiftArrayT", UtilModule);
      var arr2 := TypeMapper.AsType(cfg, c2, a2.imports, "SwiftArrayT", UtilModule);
      TypeMapper.AsTypeTextIgnoresScope(cfg, c1, c2, arr1.imports, arr2.imports, ChildText(t, 1));
    }
  }

  /** A type annotation reads the same whatever the scope and the import table it starts from. */
  lemma {:induction false} AnnotationIgnoresScope(cfg: Config, c1: Context, c2: Context, a1: Annotation, a2: Annotation, ts: seq<Node>)
    requires TypeMapper.SameClasses(c1, c2) && a1.typ == a2.typ && a1.optional == a2.optional
    ensures AnnotationSteps(cfg, c1, a1, ts).Ok? == AnnotationSteps(cfg, c2, a2, ts).Ok?
    ensures AnnotationSteps(cfg, c1, a1, ts).Err? ==> AnnotationSteps(cfg, c1, a1, ts) == AnnotationSteps(cfg, c2, a2, ts)
    ensures AnnotationSteps(cfg, c1, a1, ts).Ok? ==>
              && AnnotationSteps(cfg, c1, a1, ts).value.typ == AnnotationSteps(cfg, c2, a2, ts).value.typ
              && AnnotationSteps(cfg, c1, a1, ts).value.optional == AnnotationSteps(cfg, c2, a2, ts).value.optional
    decreases |ts|
  {
    if |ts| > 0 {
      AnnotationStepIgnoresScope(cfg, c1, c2, a1, a2, ts[0]);
      var n1 := AnnotationStep(cfg, c1, a1, ts[0]);
      var n2 := AnnotationStep(cfg, c2, a2, ts[0]);
      if n1.Ok? {
        AnnotationIgnoresScope(cfg, c1, c2, n1.value, n2.value, ts[1..]);
      }
    }
  }

  /** The pieces do not depend on the names in scope either. */
  lemma {:induction false} AllPiecesIgnoreScope(cfg: Config, c1: Context, c2: Context, cs: seq<Node>, h: Helpers)
    requires TypeMapper.SameClasses(c1, c2)
    ensures AllPieces(cfg, c1, cs, h) == AllPieces(cfg, c2, cs, h)
    decreases |cs|
  {
    if |cs| > 0 {
      ChildPiecesIgnoreScope(cfg, c1, c2, cs[0], h);
      AllPiecesIgnoreScope(cfg, c1, c2, cs[1..], h);
    }
  }

  lemma ChildPiecesIgnoreScope(cfg: Config, c1: Context, c2: Context, n: Node, h: Helpers)
    requires TypeMapper.SameClasses(c1, c2)
    ensures ChildPieces(cfg, c1, n, h) == ChildPieces(cfg, c2, n, h)
  {
    if n.kind == "type_annotation" {
      TypeAnnotationIgnoresScope(cfg, c1, c2, [], [], n);
    }
  }

  lemma TypeAnnotationIgnoresScope(cfg: Config, c1: Context, c2: Context, i1: seq<Import>, i2: seq<Import>, n: Node)
    requires TypeMapper.SameClasses(c1, c2)
    ensures ProcessTypeAnnotation(cfg, c1, i1, n).Ok? == ProcessTypeAnnotation(cfg, c2, i2, n).Ok?
    ensures ProcessTypeAnnotation(cfg, c1, i1, n).Err? ==> ProcessTypeAnnotation(cfg, c1, i1, n) == ProcessTypeAnnotation(cfg, c2, i2, n)
    ensures ProcessTypeAnnotation(cfg, c1, i1, n).Ok? ==>
              AnnotatedType(ProcessTypeAnnotation(cfg, c1, i1, n).value) == AnnotatedType(ProcessTypeAnnotation(cfg, c2, i2, n).value)
  {
    AnnotationIgnoresScope(cfg, c1, c2, Annotation("", false, i1), Annotation("", false, i2), n.children);
  }

  /** One child: its step adds exactly its reference pieces and keeps the known classes. */
  lemma DeclStepPieces(cfg: Config, st: DeclState, n: Node, h: Helpers)
    ensures DeclStep(cfg, st, n, h).Ok? <==> ChildPieces(cfg, st.ctx, n, h).Ok?
    ensures DeclStep(cfg, st, n, h).Ok? ==>
              && DeclStep(cfg, st, n, h).value.pieces == st.pieces + ChildPieces(cfg, st.ctx, n, h).value
              && TypeMapper.SameClasses(st.ctx, DeclStep(cfg, st, n, h).value.ctx)
  {
    if n.kind == "type_annotation" {
      TypeAnnotationIgnoresScope(cfg, st.ctx, st.ctx, st.imports, [], n);
    }
  }

  /** The state threaded through the children produces exactly the reference pieces: binding
      names and registering imports along the way changes no piece. */
  lemma {:induction false} DeclStepsPieces(cfg: Config, st: DeclState, cs: seq<Node>, h: Helpers)
    ensures DeclSteps(cfg, st, cs, h).Ok? <==> AllPieces(cfg, st.ctx, cs, h).Ok?
    ensures DeclSteps(cfg, st, cs, h).Ok? ==>
              DeclSteps(cfg, st, cs, h).value.pieces == st.pieces + AllPieces(cfg, st.ctx, cs, h).value
    decreases |cs|
  {
    if |cs| > 0 {
      var n := cs[0];
      DeclStepPieces(cfg, st, n, h);
      var next := DeclStep(cfg, st, n, h);
      if next.Ok? {
        var p := ChildPieces(cfg, st.ctx, n, h).value;
        var rest := AllPieces(cfg, st.ctx, cs[1..], h);
        var r := DeclSteps(cfg, next.value, cs[1..], h);
        AllPiecesIgnoreScope(cfg, st.ctx, next.value.ctx, cs[1..], h);
        DeclStepsPieces(cfg, next.value, cs[1..], h);
        if rest.Ok? {
          PiecesAfterStep(st.pieces, p, rest.value, next.value.pieces, r.value.pieces);
        }
      }
    }
  }

  /** The pieces after one step, then the rest, are the pieces before followed by both parts. */
  lemma PiecesAfterStep(before: seq<string>, p: seq<string>, rest: seq<string>, mid: seq<string>, after: seq<string>)
    requires mid == before + p && after == mid + rest
    ensures after == before + (p + rest)
  {
  }


  /** `processPropertyDeclaration`: the output is the children's pieces joined with spaces;
      annotations may append imports, nothing else does. */
  function ProcessPropertyDeclaration(cfg: Config, ctx: Context, imports: seq<Import>, n: Node, h: Helpers): (r: Outcome<Emit>)
    ensures r.Ok? <==> n.kind == "property_declaration" && AllPieces(cfg, ctx, n.children, h).Ok?
    ensures r.Ok? ==> r.value.text == Join(" ", AllPieces(cfg, ctx, n.children, h).value)
    ensures r.Ok? ==> |imports| <= |r.value.imports| && r.value.imports[..|imports|] == imports
    ensures r.Ok? && (forall i :: 0 <= i < |n.children| ==> n.children[i].kind != "type_annotation") ==> r.value.imports == imports
  {
    var _ :- Expect(n, "property_declaration");
    DeclStepsPieces(cfg, DeclState([], ctx, imports), n.children, h);
    var st :- DeclSteps(cfg, DeclState([], ctx, imports), n.children, h);
    assert [] + AllPieces(cfg, ctx, n.children, h).value == AllPieces(cfg, ctx, n.children, h).value;
    Ok(Emit(Join(" ", st.pieces), st.imports))
  }

  /** A declaration starting with `let` starts with `const `, one starting with `var` with `let `. */
  lemma LeadingKeyword(cfg: Config, ctx: Context, imports: seq<Import>, n: Node, h: Helpers)
    requires ProcessPropertyDeclaration(cfg, ctx, imports, n, h).Ok?
    requires |n.children| > 1 && Keyword(n.children[0].kind).Some?
    ensures StartsWith(ProcessPropertyDeclaration(cfg, ctx, imports, n, h).value.text, Keyword(n.children[0].kind).value + " ")
  {
    var cs := n.children;
    var st0 := DeclState([], ctx, imports);
    var st1 := st0.(pieces := [Keyword(cs[0].kind).value]);
    assert [] + [Keyword(cs[0].kind).value] == [Keyword(cs[0].kind).value];
    assert DeclStep(cfg, st0, cs[0], h) == Ok(st1);
    var rest := DeclSteps(cfg, st1, cs[1..], h);
    assert rest.Ok?;
    var st := DeclSteps(cfg, st0, cs, h).value;
    assert st == rest.value;
    assert st.pieces[..1] == [Keyword(cs[0].kind).value];
    var ps := st.pieces;
    assert ps[0] == Keyword(cs[0].kind).value;
    JoinHead(ps);
  }

  /** The first word of a space-joined list of at least two words. */
  lemma JoinHead(ps: seq<string>)
    requires |ps| >= 2
    ensures StartsWith(Join(" ", ps), ps[0] + " ")
  {
    assert Join(" ", ps) == ps[0] + " " + Join(" ", ps[1..]);
  }

  /** The declared name is in scope for the annotation that follows it: `let x: x` does not
      import `x`. */
  lemma PatternScopesAnnotation(cfg: Config, ctx: Context, name: string)
    requires name != "" && name !in cfg.builtInTypeMap
    ensures !TypeMapper.NeedsImport(cfg, Bind(ctx, name), name)
  {
  }
}

=== FILE: ranges.dfy ===
/** Range detection (`processRangeExpression`): `a..<b` is half-open, `a...b` is closed. */
module Ranges {
  import opened Wrappers
  import opened Syntax

  /** The `{from, to, inclusive}` record; a missing operand is `undefined`. */
  datatype Range = Range(from: Option<string>, to: Option<string>, inclusive: bool)

  predicate IsRangeOperator(c: Node)
  {
    c.kind == "..<" || c.kind == "..."
  }

  /** The translations of the children that are not range operators, in order. */
  function Operands(cs: seq<Node>, h: Helpers): (parts: seq<string>)
    ensures |parts| <= |cs|
  {
    if |cs| == 0 then []
    else Operands(cs[..|cs| - 1], h)
         + (if IsRangeOperator(cs[|cs| - 1]) then [] else [h.sub(cs[|cs| - 1])])
  }

  function Nth(parts: seq<string>, i: nat): Option<string>
  {
    if i < |parts| then Some(parts[i]) else None
  }

  /** `processRangeExpression`: the first two operands are `from` and `to`; `inclusive` is set
      exactly when a `...` token is present. */
  method ProcessRange(n: Node, h: Helpers) returns (r: Outcome<Range>)
    ensures r.Ok? <==> n.kind == "range_expression"
    ensures r.Ok? ==> (r.value.inclusive <==> exists i :: 0 <= i < |n.children| && n.children[i].kind == "...")
    ensures r.Ok? ==> r.value.from == Nth(Operands(n.children, h), 0)
    ensures r.Ok? ==> r.value.to == Nth(Operands(n.children, h), 1)
  {
    if n.kind != "range_expression" {
      return Err(Structural("expected range_expression"));
    }
    var cs := n.children;
    var inclusive := false;
    var parts: seq<string> := [];
    var i := 0;
    while i < |cs|
      invariant 0 <= i <= |cs|
      invariant inclusive <==> exists j :: 0 <= j < i && cs[j].kind == "..."
      invariant parts == Operands(cs[..i], h)
    {
      assert cs[..i + 1][..i] == cs[..i];
      if cs[i].kind == "..<" {
      } else if cs[i].kind == "..." {
        inclusive := true;
      } else {
        parts := parts + [h.sub(cs[i])];
      }
      i := i + 1;
    }
    assert cs[..i] == cs;
    r := Ok(Range(Nth(parts, 0), Nth(parts, 1), inclusive));
  }

  /** `1..<5` is half-open and `1...5` closed, with the two literals as the operands. */
  lemma HalfOpenAndClosed(h: Helpers, a: Node, b: Node)
    requires !IsRangeOperator(a) && !IsRangeOperator(b)
    ensures Operands([a, Node("..<", "..<", []), b], h) == [h.sub(a), h.sub(b)]
    ensures Operands([a, Node("...", "...", []), b], h) == [h.sub(a), h.sub(b)]
  {
    var op1 := Node("..<", "..<", []);
    var op2 := Node("...", "...", []);
    assert [a, op1, b][..2][..1] == [a];
    assert [a, op2, b][..2][..1] == [a];
    assert Operands([a], h) == [h.sub(a)] by { assert [a][..0] == []; }
  }
}

=== FILE: selection.dfy ===
/** List selection over a bindable value: a set of ids when several items may be selected, one
    id (or `null`) when a single one may. */
module Selection {
  import opened Wrappers

  /** An item: a string, or an object carrying an `id` (told apart from other objects by
      identity). */
  datatype Item = Text(s: string) | Record(ref: nat, id: string)

  /** `id(v)`: an object's `id`, a string's own text (`v + ""`). */
  function Id(v: Item): (r: string)
    ensures v.Record? ==> r == v.id
    ensures v.Text? ==> r == v.s
  {
    match v
    case Text(s) => s
    case Record(_, id) => id
  }

  /** The bound selection: a set of ids, or the single selected id (`None` for `null`). */
  datatype SelectionValue = Several(ids: set<string>) | Single(answer: Option<string>)

  /** The bindable: its value and how many times it has been written. */
  datatype Bindable = Bindable(value: SelectionValue, writes: nat)

  /** `isSelected(v)`. */
  predicate IsSelected(sel: SelectionValue, v: Item)
    ensures sel.Several? ==> (IsSelected(sel, v) <==> Id(v) in sel.ids)
    ensures sel.Single? ==> (IsSelected(sel, v) <==> sel.answer == Some(Id(v)))
  {
    match sel
    case Several(ids) => Id(v) in ids
    case Single(answer) => answer == Some(Id(v))
  }

  /** Whether an item is selected depends on its id alone: a string and an object with that id
      as their `id` are selected together. */
  lemma SelectionById(sel: SelectionValue, v: Item, w: Item)
    requires Id(v) == Id(w)
    ensures IsSelected(sel, v) <==> IsSelected(sel, w)
  {
  }

  /** `v === answer`: only a string item can be identical to the stored id string. */
  predicate IdenticalToAnswer(v: Item, answer: Option<string>)
  {
    v.Text? && answer == Some(v.s)
  }

  /** `toggle(v)` as written: in a set selection it removes or adds `id(v)`; in a single selection
      it clears the answer when `v` is identical to it and otherwise stores `id(v)`. Either way the
      bindable is written once. */
  function Toggle(b: Bindable, v: Item): (r: Bindable)
    ensures r.writes == b.writes + 1
    ensures b.value.Several? ==> r.value.Several?
    ensures b.value.Several? ==> (IsSelected(r.value, v) <==> !IsSelected(b.value, v))
    ensures b.value.Several? ==> forall w :: w != Id(v) ==> (w in r.value.ids <==> w in b.value.ids)
    ensures b.value.Single? ==> r.value.Single?
    ensures b.value.Single? && IdenticalToAnswer(v, b.value.answer) ==> r.value.answer.None?
    ensures b.value.Single? && !IdenticalToAnswer(v, b.value.answer) ==> IsSelected(r.value, v)
  {
    match b.value
    case Several(ids) =>
      var vid := Id(v);
      if vid in ids then Bindable(Several(ids - {vid}), b.writes + 1)
      else Bindable(Several(ids + {vid}), b.writes + 1)
    case Single(answer) =>
      Bindable(Single(if v.Text? && answer == Some(v.s) then None else Some(Id(v))), b.writes + 1)
  }

  /** In a set selection, toggling the same item twice restores the set. */
  lemma ToggleTwiceRestores(b: Bindable, v: Item)
    requires b.value.Several?
    ensures Toggle(Toggle(b, v), v).value == b.value
  {
    var ids := b.value.ids;
    var after := Toggle(Toggle(b, v), v).value.ids;
    assert forall w :: w in after <==> w in ids;
  }

  /** In a single selection a string item is toggled off again. */
  lemma TextItemToggles(b: Bindable, s: string)
    requires b.value.Single?
    ensures IsSelected(Toggle(b, Text(s)).value, Text(s)) <==> !IsSelected(b.value, Text(s))
  {
  }

  /** As written, a selected object item in a single selection stays selected when toggled: the
      object is compared with the stored id string, which it can never be identical to. */
  lemma RecordNeverDeselected()
    ensures var b := Bindable(Single(Some("a")), 0);
            var v := Record(0, "a");
            IsSelected(b.value, v) && IsSelected(Toggle(b, v).value, v)
  {
  }

  /** `toggle` comparing `id(v)` with the answer. */
  function ToggleFixed(b: Bindable, v: Item): (r: Bindable)
    ensures r.writes == b.writes + 1
    ensures IsSelected(r.value, v) <==> !IsSelected(b.value, v)
    ensures r.value.Several? <==> b.value.Several?
    ensures b.value.Several? ==> forall w :: w != Id(v) ==> (w in r.value.ids <==> w in b.value.ids)
  {
    match b.value
    case Several(_) => Toggle(b, v)
    case Single(answer) =>
      Bindable(Single(if answer == Some(Id(v)) then None else Some(Id(v))), b.writes + 1)
  }

  /** The corrected toggle agrees with the one as written everywhere except on an object item
      in a single selection. */
  lemma ToggleFixedAgrees(b: Bindable, v: Item)
    requires b.value.Several? || v.Text?
    ensures ToggleFixed(b, v) == Toggle(b, v)
  {
  }
}

=== FILE: stride.dfy ===
/** Integer sequence generators (`Stride`, `toStride`, `stride`, `repeatElement`). Values are
    integers; a generator's output is the sequence it yields, paired with its return value. */
module Strides {
  import opened Wrappers
  import opened Strings
  import JsNumber

  /** A stride: bounds, a positive step and whether `to` itself belongs to the range. */
  datatype Stride = Stride(from: int, to: int, step: int, inclusive: bool)

  /** The constructor's defaults: a missing `to` makes the range `0..from`, a missing `step` is 1. */
  function NewStride(from: int, to: Option<int>, step: Option<int>, inclusive: bool): (s: Stride)
    ensures to.None? ==> s.from == 0 && s.to == from
    ensures to.Some? ==> s.from == from && s.to == to.value
    ensures step.None? ==> s.step == 1
    ensures step.Some? ==> s.step == step.value
    ensures s.inclusive == inclusive
  {
    var st := if step.None? then 1 else step.value;
    if to.None? then Stride(0, from, st, inclusive) else Stride(from, to.value, st, inclusive)
  }

  /** `for (; from < to; from += step) yield from`. */
  function Ascending(from: int, to: int, step: int): (r: seq<int>)
    requires step > 0
    ensures forall k :: 0 <= k < |r| ==> r[k] == from + k * step && r[k] < to
    ensures from + |r| * step >= to
    decreases if from < to then to - from else 0
  {
    if from < to then
      var rest := Ascending(from + step, to, step);
      StepsUp(from, step, rest);
      [from] + rest
    else []
  }

  /** `for (; to <= from; from -= step) yield from`. */
  function Descending(from: int, to: int, step: int): (r: seq<int>)
    requires step > 0
    ensures forall k :: 0 <= k < |r| ==> r[k] == from - k * step && r[k] >= to
    ensures from - |r| * step < to
    decreases if to <= from then from - to + 1 else 0
  {
    if to <= from then
      var rest := Descending(from - step, to, step);
      StepsDown(from, step, rest);
      [from] + rest
    else []
  }

  /** Putting `from` in front of the walk from `from + step` gives the walk from `from`. */
  lemma StepsUp(from: int, step: int, rest: seq<int>)
    ensures forall k :: 0 < k < |rest| + 1 ==> ([from] + rest)[k] == rest[k - 1]
    ensures forall k :: 0 < k < |rest| + 1 ==> (from + step) + (k - 1) * step == from + k * step
    ensures (from + step) + |rest| * step == from + (|rest| + 1) * step
  {
    forall k | 0 < k < |rest| + 1
      ensures (from + step) + (k - 1) * step == from + k * step
    {
      assert (k - 1) * step == k * step - step;
    }
    assert (|rest| + 1) * step == |rest| * step + step;
  }

  /** Putting `from` in front of the walk from `from - step` gives the walk from `from`. */
  lemma StepsDown(from: int, step: int, rest: seq<int>)
    ensures forall k :: 0 < k < |rest| + 1 ==> ([from] + rest)[k] == rest[k - 1]
    ensures forall k :: 0 < k < |rest| + 1 ==> (from - step) - (k - 1) * step == from - k * step
    ensures (from - step) - |rest| * step == from - (|rest| + 1) * step
  {
    forall k | 0 < k < |rest| + 1
      ensures (from - step) - (k - 1) * step == from - k * step
    {
      assert (k - 1) * step == k * step - step;
    }
    assert (|rest| + 1) * step == |rest| * step + step;
  }

  /** The loop both generators run: descending when `from > to`, ascending otherwise; the second
      component is `from` after the loop, the first value not yielded. */
  function Run(from: int, to: int, step: int): (r: (seq<int>, int))
    requires step > 0
    ensures from > to ==> r.0 == Descending(from, to, step) && r.1 == from - |r.0| * step
    ensures from <= to ==> r.0 == Ascending(from, to, step) && r.1 == from + |r.0| * step
    ensures r.1 !in r.0
  {
    if from > to then
      var vs := Descending(from, to, step);
      (vs, from - |vs| * step)
    else
      var vs := Ascending(from, to, step);
      (vs, from + |vs| * step)
  }

  /** The `k`-th value of an ascending and of a descending walk. */
  function Up(from: int, step: int, k: nat): int
  {
    from + k * step
  }

  function Down(from: int, step: int, k: nat): int
  {
    from - k * step
  }

  lemma MulLess(a: nat, b: nat, step: int)
    requires step > 0 && a * step < b * step
    ensures a < b
  {
  }

  /** The ascending loop yields exactly the values `from + k*step` below `to`. */
  lemma AscendingMembers(from: int, to: int, step: int, x: int)
    requires step > 0
    ensures x in Ascending(from, to, step) <==> (x < to && exists k: nat :: x == Up(from, step, k))
  {
    var r := Ascending(from, to, step);
    if x < to && exists k: nat :: x == Up(from, step, k) {
      var k: nat :| x == Up(from, step, k);
      MulLess(k, |r|, step);
      assert r[k] == x;
    }
    if x in r {
      var k :| 0 <= k < |r| && r[k] == x;
      assert x == Up(from, step, k);
    }
  }

  /** The descending loop yields exactly the values `from - k*step` down to `to`: it includes
      `to` exactly when `to` is reachable from `from` in whole steps. */
  lemma DescendingMembers(from: int, to: int, step: int, x: int)
    requires step > 0
    ensures x in Descending(from, to, step) <==> (x >= to && exists k: nat :: x == Down(from, step, k))
  {
    var r := Descending(from, to, step);
    if x >= to && exists k: nat :: x == Down(from, step, k) {
      var k: nat :| x == Down(from, step, k);
      MulLess(k, |r|, step);
      assert r[k] == x;
    }
    if x in r {
      var k :| 0 <= k < |r| && r[k] == x;
      assert x == Down(from, step, k);
    }
  }

  lemma AscendingMembersAll(from: int, to: int, step: int)
    requires step > 0
    ensures forall x :: x in Ascending(from, to, step) <==> (x < to && exists k: nat :: x == Up(from, step, k))
  {
    forall x ensures x in Ascending(from, to, step) <==> (x < to && exists k: nat :: x == Up(from, step, k)) {
      AscendingMembers(from, to, step, x);
    }
  }

  lemma DescendingMembersAll(from: int, to: int, step: int)
    requires step > 0
    ensures forall x :: x in Descending(from, to, step) <==> (x >= to && exists k: nat :: x == Down(from, step, k))
  {
    forall x ensures x in Descending(from, to, step) <==> (x >= to && exists k: nat :: x == Down(from, step, k)) {
      DescendingMembers(from, to, step, x);
    }
  }

  /** With a unit step the ascending loop yields `to - from` values. */
  lemma {:induction false} AscendingUnitLength(lo: int, hi: int)
    requires lo <= hi
    ensures |Ascending(lo, hi, 1)| == hi - lo
    decreases hi - lo
  {
    if lo < hi {
      AscendingUnitLength(lo + 1, hi);
    }
  }

  /** `Stride.range()` as written: `inclusive` moves `to` one step away from `from`, choosing
      the direction with `from < to`. */
  function Range(s: Stride): (r: seq<int>)
    requires s.step > 0
    ensures !s.inclusive ==> r == Run(s.from, s.to, s.step).0
  {
    var to := if s.inclusive then s.to + (if s.from < s.to then s.step else -1 * s.step) else s.to;
    Run(s.from, to, s.step).0
  }

  /** An exclusive ascending stride yields `from, from+step, ...` below `to`; `from == to`
      yields nothing. */
  lemma ExclusiveAscending(s: Stride)
    requires s.step > 0 && !s.inclusive && s.from <= s.to
    ensures Range(s) == Ascending(s.from, s.to, s.step)
    ensures s.from == s.to ==> Range(s) == []
  {
  }

  /** `inclusive` moves `to` one step further away from `from` before iterating. */
  lemma InclusiveMovesTo(s: Stride)
    requires s.step > 0 && s.inclusive
    ensures s.from < s.to ==> Range(s) == Range(s.(to := s.to + s.step, inclusive := false))
    ensures s.from >= s.to ==> Range(s) == Range(s.(to := s.to - s.step, inclusive := false))
  {
  }

  /** A descending stride yields `from, from-step, ...` while the value is at least `to`, so
      without `inclusive` it still includes a reachable `to`. */
  lemma ExclusiveDescendingIncludesTo(s: Stride)
    requires s.step > 0 && !s.inclusive && s.from > s.to
    ensures s.to in Range(s) <==> exists k: nat :: s.to == Down(s.from, s.step, k)
  {
    DescendingMembers(s.from, s.to, s.step, s.to);
  }

  /** As written, the closed one-element stride `3...3` yields 3 and then 2: with `from == to`
      the adjustment moves `to` down, and the descending loop runs. */
  lemma InclusiveEqualBoundsOvershoots()
    ensures Range(Stride(3, 3, 1, true)) == [3, 2]
  {
    assert Descending(1, 2, 1) == [];
    assert Descending(2, 2, 1) == [2] + Descending(1, 2, 1);
    assert Descending(3, 2, 1) == [3] + Descending(2, 2, 1);
  }

  /** As written, an inclusive ascending stride whose span is not a multiple of the step passes
      `to`: `1` through `6` by `2` yields 7. */
  lemma InclusiveUnevenOvershoots()
    ensures Range(Stride(1, 6, 2, true)) == [1, 3, 5, 7]
  {
    assert Ascending(9, 8, 2) == [];
    assert Ascending(7, 8, 2) == [7] + Ascending(9, 8, 2);
    assert Ascending(5, 8, 2) == [5] + Ascending(7, 8, 2);
    assert Ascending(3, 8, 2) == [3] + Ascending(5, 8, 2);
    assert Ascending(1, 8, 2) == [1] + Ascending(3, 8, 2);
  }

  /** `Stride.range()` with `inclusive` meaning "through `to`": an ascending (or empty-span)
      inclusive range stops at `to`; a descending one already includes `to`. */
  function RangeFixed(s: Stride): (r: seq<int>)
    requires s.step > 0
    ensures !s.inclusive ==> r == Range(s)
    ensures s.inclusive && s.from <= s.to ==> forall x :: x in r <==> (x <= s.to && exists k: nat :: x == Up(s.from, s.step, k))
    ensures s.inclusive && s.from > s.to ==> forall x :: x in r <==> (x >= s.to && exists k: nat :: x == Down(s.from, s.step, k))
  {
    if s.inclusive && s.from <= s.to then
      AscendingMembersAll(s.from, s.to + 1, s.step);
      Ascending(s.from, s.to + 1, s.step)
    else
      DescendingMembersAll(s.from, s.to, s.step);
      Run(s.from, s.to, s.step).0
  }

  /** The corrected closed stride `3...3` is `[3]`, and `1` through `6` by `2` stops at 5. */
  lemma InclusiveFixedExamples()
    ensures RangeFixed(Stride(3, 3, 1, true)) == [3]
    ensures RangeFixed(Stride(1, 6, 2, true)) == [1, 3, 5]
  {
    assert Ascending(4, 4, 1) == [];
    assert Ascending(3, 4, 1) == [3] + Ascending(4, 4, 1);
    assert Ascending(7, 7, 2) == [];
    assert Ascending(5, 7, 2) == [5] + Ascending(7, 7, 2);
    assert Ascending(3, 7, 2) == [3] + Ascending(5, 7, 2);
    assert Ascending(1, 7, 2) == [1] + Ascending(3, 7, 2);
  }

  // ---- The range-literal pattern `/(\d*)(?:\.{2,m})(<?)(\d*)/` ----

  /** The captures of one match: the start digits, the `<` (or nothing) and the end digits. */
  datatype Match = Match(start: string, op: string, end: string)

  /** The length of the run of digits at `i`. */
  function DigitRun(s: string, i: nat): (n: nat)
    requires i <= |s|
    ensures i + n <= |s|
    ensures forall j :: i <= j < i + n ==> IsDigit(s[j])
    ensures i + n == |s| || !IsDigit(s[i + n])
    decreases |s| - i
  {
    if i < |s| && IsDigit(s[i]) then 1 + DigitRun(s, i + 1) else 0
  }

  /** The length of the run of dots at `i`, taking at most `m`. */
  function DotRun(s: string, i: nat, m: nat): (n: nat)
    requires i <= |s|
    ensures n <= m && i + n <= |s|
    ensures forall j :: i <= j < i + n ==> s[j] == '.'
    ensures n < m ==> i + n == |s| || s[i + n] != '.'
    decreases m
  {
    if m > 0 && i < |s| && s[i] == '.' then 1 + DotRun(s, i + 1, m - 1) else 0
  }

  /** The match starting at `p`, if any. Every quantifier is greedy and giving a digit back to the
      first group can never produce a dot, so the greedy choice is the only candidate. */
  function MatchAt(s: string, p: nat, m: nat): (r: Option<Match>)
    requires p <= |s|
    ensures r.Some? ==> AllDigits(r.value.start) && AllDigits(r.value.end)
    ensures r.Some? ==> r.value.op == "" || r.value.op == "<"
  {
    var q := p + DigitRun(s, p);
    var k := DotRun(s, q, m);
    if k < 2 then None
    else
      var e0 := q + k;
      var op := if e0 < |s| && s[e0] == '<' then "<" else "";
      var e := e0 + |op|;
      Some(Match(s[p..q], op, s[e..e + DigitRun(s, e)]))
  }

  /** `exec`: the leftmost match at or after `p`. */
  function Exec(s: string, m: nat, p: nat): (r: Option<Match>)
    requires p <= |s|
    ensures r.Some? ==> AllDigits(r.value.start) && AllDigits(r.value.end)
    ensures r.Some? ==> r.value.op == "" || r.value.op == "<"
    decreases |s| - p
  {
    match MatchAt(s, p, m)
    case Some(x) => Some(x)
    case None => if p < |s| then Exec(s, m, p + 1) else None
  }

  /** The digit run of a number's decimal form, followed by something that is not a digit. */
  lemma DigitRunOf(s: string, i: nat, n: nat)
    requires i + n <= |s|
    requires forall j :: i <= j < i + n ==> IsDigit(s[j])
    requires i + n == |s| || !IsDigit(s[i + n])
    ensures DigitRun(s, i) == n
    decreases n
  {
    if n > 0 {
      DigitRunOf(s, i + 1, n - 1);
    }
  }

  /** A range literal (digits, 2 to `m` dots, an optional `<`, digits) is matched at its start,
      reading back both digit strings and the operator. */
  lemma RangeLiteralMatches(sa: string, dots: string, op: string, sb: string, m: nat)
    requires AllDigits(sa) && AllDigits(sb) && |sb| > 0
    requires 2 <= |dots| <= m && forall j :: 0 <= j < |dots| ==> dots[j] == '.'
    requires op == "" || op == "<"
    ensures Exec(sa + (dots + op) + sb, m, 0) == Some(Match(sa, op, sb))
  {
    var s := sa + (dots + op) + sb;
    var la, nd, lb := |sa|, |dots|, |sb|;
    assert la + nd + |op| == |sa + (dots + op)|;
    LeadingDigits(sa, dots + op, sb);
    DotsAfterDigits(sa, dots, op, sb, m);
    DigitRunSuffix(sa + (dots + op), sb);
    OperatorChar(sa, dots, op, sb);
    Pieces(sa, dots + op, sb);
    MatchAtUnfold(s, m, la, nd, op, lb);
    assert s[..la] == sa;
    assert s[la + nd + |op|..la + nd + |op| + lb] == sb;
  }

  lemma LeadingDigits(sa: string, sep: string, sb: string)
    requires AllDigits(sa) && |sep| > 0 && sep[0] == '.'
    ensures DigitRun(sa + sep + sb, 0) == |sa|
  {
    var t := sep + sb;
    assert sa + sep + sb == sa + t;
    assert t[0] == '.';
    DigitRunPrefix(sa, t);
  }

  lemma DotsAfterDigits(sa: string, dots: string, op: string, sb: string, m: nat)
    requires AllDigits(sb) && |sb| > 0
    requires |dots| <= m && forall j :: 0 <= j < |dots| ==> dots[j] == '.'
    requires op == "" || op == "<"
    ensures DotRun(sa + (dots + op) + sb, |sa|, m) == |dots|
  {
    var t := (dots + op) + sb;
    assert sa + (dots + op) + sb == sa + t;
    DotRunShift(sa, t, 0, m);
    assert t == dots + (op + sb);
    assert (op + sb)[0] == (if op == "<" then '<' else sb[0]);
    DotRunPrefix(dots, op + sb, m);
  }

  /** The character after the dots is `<` exactly when the operator is present. */
  lemma OperatorChar(sa: string, dots: string, op: string, sb: string)
    requires op == "" || op == "<"
    requires |sb| > 0 && IsDigit(sb[0])
    ensures |sa| + |dots| < |sa + (dots + op) + sb|
    ensures (sa + (dots + op) + sb)[|sa| + |dots|] == '<' <==> op == "<"
  {
    var s := sa + (dots + op) + sb;
    var e0 := |sa| + |dots|;
    if op == "<" {
      assert (dots + op)[|dots|] == '<';
      assert s[e0] == (sa + (dots + op))[e0];
    } else {
      assert s[e0] == sb[0];
    }
  }

  /** The first and last of three concatenated pieces, read back by slicing. */
  lemma Pieces(x: string, y: string, z: string)
    ensures (x + y + z)[..|x|] == x
    ensures (x + y + z)[|x| + |y|..|x| + |y| + |z|] == z
  {
  }

  /** `MatchAt` at the start of `s` once the three runs and the operator character are known. */
  lemma MatchAtUnfold(s: string, m: nat, la: nat, nd: nat, op: string, lb: nat)
    requires la + nd + |op| + lb <= |s|
    requires DigitRun(s, 0) == la && DotRun(s, la, m) == nd && nd >= 2
    requires op == "" || op == "<"
    requires la + nd < |s| && (s[la + nd] == '<' <==> op == "<")
    requires DigitRun(s, la + nd + |op|) == lb
    ensures Exec(s, m, 0) == Some(Match(s[..la], op, s[la + nd + |op|..la + nd + |op| + lb]))
  {
    MatchAtStart(s, m, la, nd, op, lb);
  }

  /** The match found at position 0 itself, before `Exec` returns it. */
  lemma MatchAtStart(s: string, m: nat, la: nat, nd: nat, op: string, lb: nat)
    requires la + nd + |op| + lb <= |s|
    requires DigitRun(s, 0) == la && DotRun(s, la, m) == nd && nd >= 2
    requires op == "" || op == "<"
    requires la + nd < |s| && (s[la + nd] == '<' <==> op == "<")
    requires DigitRun(s, la + nd + |op|) == lb
    ensures MatchAt(s, 0, m) == Some(Match(s[..la], op, s[la + nd + |op|..la + nd + |op| + lb]))
  {
    assert s[0..la] == s[..la];
  }


  /** The digit run at the start of `x + y` is `x` when `x` is all digits and `y` does not start
      with one. */
  lemma DigitRunPrefix(x: string, y: string)
    requires AllDigits(x) && (|y| == 0 || !IsDigit(y[0]))
    ensures DigitRun(x + y, 0) == |x|
  {
    var s := x + y;
    assert forall j :: 0 <= j < |x| ==> s[j] == x[j];
    if |y| > 0 {
      assert s[|x|] == y[0];
    }
    DigitRunOf(s, 0, |x|);
  }

  /** The dot run at the start of `x + y` is `x` when `x` is at most `m` dots and `y` does not
      start with one. */
  lemma DotRunPrefix(x: string, y: string, m: nat)
    requires |x| <= m && (forall j :: 0 <= j < |x| ==> x[j] == '.')
    requires |x| == m || |y| == 0 || y[0] != '.'
    ensures DotRun(x + y, 0, m) == |x|
  {
    var s := x + y;
    assert forall j :: 0 <= j < |x| ==> s[j] == x[j];
    if |y| > 0 {
      assert s[|x|] == y[0];
    }
    DotRunOf(s, 0, |x|, m);
  }

  /** A digit string at the end of `x + y` is one whole run. */
  lemma DigitRunSuffix(x: string, y: string)
    requires AllDigits(y)
    ensures DigitRun(x + y, |x|) == |y|
  {
    DigitRunShift(x, y, 0);
    DigitRunOf(y, 0, |y|);
  }

  lemma DigitRunShift(x: string, y: string, i: nat)
    requires i <= |y|
    ensures DigitRun(x + y, |x| + i) == DigitRun(y, i)
    decreases |y| - i
  {
    if i < |y| {
      assert (x + y)[|x| + i] == y[i];
      DigitRunShift(x, y, i + 1);
    }
  }

  lemma DotRunShift(x: string, y: string, i: nat, m: nat)
    requires i <= |y|
    ensures DotRun(x + y, |x| + i, m) == DotRun(y, i, m)
    decreases m
  {
    if i < |y| && m > 0 {
      assert (x + y)[|x| + i] == y[i];
      DotRunShift(x, y, i + 1, m - 1);
    }
  }

  lemma DotRunOf(s: string, i: nat, n: nat, m: nat)
    requires n <= m && i + n <= |s|
    requires forall j :: i <= j < i + n ==> s[j] == '.'
    requires n == m || i + n == |s| || s[i + n] != '.'
    ensures DotRun(s, i, m) == n
    decreases m
  {
    if n > 0 {
      DotRunOf(s, i + 1, n - 1, m - 1);
    }
  }

  /** `Number` of a digit capture (`Number("")` is 0). */
  function DigitsValue(d: string): nat
    requires AllDigits(d)
  {
    DigitsToNat(d)
  }

  /** `toStride` as written: a range literal becomes a unit-step stride whose `inclusive` is set
      exactly when `<` follows the dots. No match gives a stride with `NaN` bounds, whose range is
      empty; it is `None` here. */
  function ToStride(str: string): (r: Option<Stride>)
    ensures r.Some? ==> r.value.step == 1 && r.value.from >= 0 && r.value.to >= 0
    ensures r.Some? <==> Exec(str, 3, 0).Some?
    ensures r.Some? ==> (r.value.inclusive <==> Exec(str, 3, 0).value.op == "<")
    ensures r.Some? ==> r.value.from == DigitsValue(Exec(str, 3, 0).value.start)
                        && r.value.to == DigitsValue(Exec(str, 3, 0).value.end)
  {
    match Exec(str, 3, 0)
    case None => None
    case Some(x) => Some(Stride(DigitsValue(x.start), DigitsValue(x.end), 1, x.op != ""))
  }

  /** As written, the half-open literal `a..<b` produces an inclusive stride, and the closed
      `a...b` an exclusive one. */
  lemma HalfOpenMarkedInclusive(a: nat, b: nat)
    ensures ToStride(NatToString(a) + "..<" + NatToString(b)) == Some(Stride(a, b, 1, true))
    ensures ToStride(NatToString(a) + "..." + NatToString(b)) == Some(Stride(a, b, 1, false))
  {
    RangeLiteralMatches(NatToString(a), "..", "<", NatToString(b), 3);
    RangeLiteralMatches(NatToString(a), "...", "", NatToString(b), 3);
    assert ".." + "<" == "..<" && "..." + "" == "...";
    DigitsOfNat(a);
    DigitsOfNat(b);
  }

  /** `toStride` with `inclusive` set for the closed `...` form. */
  function ToStrideFixed(str: string): (r: Option<Stride>)
    ensures r.Some? <==> Exec(str, 3, 0).Some?
    ensures r.Some? ==> (r.value.inclusive <==> Exec(str, 3, 0).value.op == "")
    ensures r.Some? ==> r.value.step == 1 && r.value.from == DigitsValue(Exec(str, 3, 0).value.start)
                        && r.value.to == DigitsValue(Exec(str, 3, 0).value.end)
  {
    match Exec(str, 3, 0)
    case None => None
    case Some(x) => Some(Stride(DigitsValue(x.start), DigitsValue(x.end), 1, x.op == ""))
  }

  /** Corrected, `a..<b` is half-open and `a...b` closed, and both read back their bounds. */
  lemma ToStrideFixedReadsBack(a: nat, b: nat)
    ensures ToStrideFixed(NatToString(a) + "..<" + NatToString(b)) == Some(Stride(a, b, 1, false))
    ensures ToStrideFixed(NatToString(a) + "..." + NatToString(b)) == Some(Stride(a, b, 1, true))
  {
    RangeLiteralMatches(NatToString(a), "..", "<", NatToString(b), 3);
    RangeLiteralMatches(NatToString(a), "...", "", NatToString(b), 3);
    assert ".." + "<" == "..<" && "..." + "" == "...";
    DigitsOfNat(a);
    DigitsOfNat(b);
  }

  /** The bounds `stride` reads from a range literal matched with at most `m` dots: the end is
      moved past `b` unless the literal is half-open. */
  function StrideBounds(str: string, m: nat): Option<(int, int)>
  {
    match Exec(str, m, 0)
    case None => None
    case Some(x) => Some((DigitsValue(x.start) as int, DigitsValue(x.end) + (if x.op == "" then 1 else 0)))
  }

  /** What a loop of `range()` yields and returns: it walks from `from` towards `to` in whole
      steps, yields every value before it passes `to` (ascending below `to`, descending down to
      `to`), and returns the first value it does not yield. */
  predicate Walks(from: int, to: int, step: int, vs: seq<int>, end: int)
  {
    && (from <= to ==> (forall k :: 0 <= k < |vs| ==> vs[k] == from + k * step && vs[k] < to)
                       && end == from + |vs| * step && end >= to)
    && (from > to ==> (forall k :: 0 <= k < |vs| ==> vs[k] == from - k * step && vs[k] >= to)
                      && end == from - |vs| * step && end < to)
    && end !in vs
  }

  /** A walk is determined by its bounds and step: two loops that both satisfy `Walks` yield
      the same values and return the same value. */
  lemma WalksUnique(from: int, to: int, step: int, vs: seq<int>, end: int, ws: seq<int>, end2: int)
    requires Walks(from, to, step, vs, end) && Walks(from, to, step, ws, end2)
    ensures vs == ws && end == end2
  {
    if |vs| < |ws| {
      WalkBefore(from, to, step, ws, end2, |vs|);
      assert false;
    } else if |ws| < |vs| {
      WalkBefore(from, to, step, vs, end, |ws|);
      assert false;
    }
  }

  /** Every step a walk takes before its last lies short of `to`. */
  lemma WalkBefore(from: int, to: int, step: int, vs: seq<int>, end: int, n: nat)
    requires Walks(from, to, step, vs, end) && n < |vs|
    ensures from <= to ==> from + n * step < to
    ensures from > to ==> from - n * step >= to
  {
    assert vs[n] in vs;
  }

  /** `stride(str, undefined, step)` as written (the pattern allows exactly two dots): the values
      yielded and the return value. An unmatched string yields nothing and returns `NaN`. */
  function StrideStr(str: string, step: Option<int>): (r: (seq<int>, JsNumber.Number))
    requires step.Some? ==> step.value > 0
    ensures StrideBounds(str, 2).None? <==> r.1.NaN?
    ensures r.1.NaN? ==> r.0 == []
    ensures StrideBounds(str, 2).Some? ==>
              var (from, to) := StrideBounds(str, 2).value;
              r.1.Int? && Walks(from, to, if step.None? then 1 else step.value, r.0, r.1.i)
  {
    match StrideBounds(str, 2)
    case None => ([], JsNumber.NaN)
    case Some((from, to)) =>
      var (vs, end) := Run(from, to, if step.None? then 1 else step.value);
      (vs, JsNumber.Int(end))
  }

  /** With a unit step the ascending loop yields the integers from `from` below `to`. */
  lemma UnitRange(from: int, to: int)
    requires from <= to
    ensures |Ascending(from, to, 1)| == to - from
    ensures forall x :: x in Ascending(from, to, 1) <==> from <= x < to
  {
    var r := Ascending(from, to, 1);
    AscendingUnitLength(from, to);
    forall x | from <= x < to ensures x in r {
      assert r[x - from] == x;
    }
  }

  /** `stride(from, to, step)` with a number: a missing `to` makes the range `0..from`, so
      `stride(n)` yields `0, 1, ..., n-1` and returns `n`. */
  function StrideNum(from: int, to: Option<int>, step: Option<int>): (r: (seq<int>, JsNumber.Number))
    requires step.Some? ==> step.value > 0
    ensures r.1.Int?
    ensures var s := NewStride(from, to, step, false);
            r.1.Int? && Walks(s.from, s.to, s.step, r.0, r.1.i)
    ensures to.None? && step.None? && from >= 0 ==> r.0 == seq(from, k => k) && r.1 == JsNumber.Int(from)
  {
    var s := NewStride(from, to, step, false);
    UpTo(from);
    var (vs, end) := Run(s.from, s.to, s.step);
    (vs, JsNumber.Int(end))
  }

  lemma UpTo(n: int)
    ensures n >= 0 ==> Ascending(0, n, 1) == seq(n, k => k)
  {
    if n >= 0 {
      AscendingUnitLength(0, n);
    }
  }

  /** `stride("a..<b")` yields `a, ..., b-1` and returns `b`. */
  lemma StrideHalfOpen(a: nat, b: nat)
    requires a <= b
    ensures StrideStr(NatToString(a) + "..<" + NatToString(b), None).1 == JsNumber.Int(b)
    ensures forall x :: x in StrideStr(NatToString(a) + "..<" + NatToString(b), None).0 <==> a <= x < b
  {
    RangeLiteralMatches(NatToString(a), "..", "<", NatToString(b), 2);
    assert ".." + "<" == "..<";
    DigitsOfNat(a);
    DigitsOfNat(b);
    UnitRange(a, b);
  }

  /** As written, the closed literal `1...5` matches as `1..` with an empty end: the range
      becomes `1..1` and nothing is yielded. */
  lemma ClosedLiteralYieldsNothing()
    ensures StrideStr("1...5", None).0 == []
  {
    var s := "1...5";
    assert DigitRun(s, 4) == 1 && DigitRun(s, 3) == 0 && DigitRun(s, 1) == 0 && DigitRun(s, 0) == 1;
    assert DotRun(s, 3, 0) == 0 && DotRun(s, 2, 1) == 1 && DotRun(s, 1, 2) == 2;
    assert s[0..1] == "1" && s[3..3] == "";
    assert MatchAt(s, 0, 2) == Some(Match("1", "", ""));
    assert DigitsValue("") == 0;
    assert "1"[..0] == "";
    assert DigitsValue("1") == 1;
    assert Ascending(1, 1, 1) == [];
  }

  /** `stride` over a range literal with the pattern accepting the closed `...` form. */
  function StrideStrFixed(str: string, step: Option<int>): (r: (seq<int>, JsNumber.Number))
    requires step.Some? ==> step.value > 0
    ensures StrideBounds(str, 3).None? <==> r.1.NaN?
    ensures r.1.NaN? ==> r.0 == []
  {
    match StrideBounds(str, 3)
    case None => ([], JsNumber.NaN)
    case Some((from, to)) =>
      var (vs, end) := Run(from, to, if step.None? then 1 else step.value);
      (vs, JsNumber.Int(end))
  }

  /** A literal whose bounds are `from <= to` yields exactly the integers from `from` up to
      `to`, exclusive. */
  lemma FixedYields(s: string, from: int, to: int)
    requires from <= to && StrideBounds(s, 3) == Some((from, to))
    ensures forall x :: x in StrideStrFixed(s, None).0 <==> from <= x < to
  {
    var r := Run(from, to, 1);
    assert StrideStrFixed(s, None).0 == r.0 == Ascending(from, to, 1);
    UnitRange(from, to);
  }

  /** Corrected, `stride("a...b")` yields `a, ..., b`. */
  lemma StrideFixedClosed(a: nat, b: nat)
    requires a <= b
    ensures forall x :: x in StrideStrFixed(NatToString(a) + "..." + NatToString(b), None).0 <==> a <= x <= b
  {
    ClosedBounds(NatToString(a), NatToString(b));
    DigitsOfNat(a);
    DigitsOfNat(b);
    FixedYields(NatToString(a) + "..." + NatToString(b), a, b + 1);
  }

  /** `a...b` reads as the bounds `a` and `b + 1`. */
  lemma ClosedBounds(sa: string, sb: string)
    requires AllDigits(sa) && AllDigits(sb) && |sb| > 0
    ensures StrideBounds(sa + "..." + sb, 3) == Some((DigitsValue(sa) as int, DigitsValue(sb) + 1))
  {
    ClosedMatch(sa, sb);
  }

  /** The fixed pattern matches `a...b` as the digits, no operator and the digits. */
  lemma ClosedMatch(sa: string, sb: string)
    requires AllDigits(sa) && AllDigits(sb) && |sb| > 0
    ensures Exec(sa + "..." + sb, 3, 0) == Some(Match(sa, "", sb))
  {
    RangeLiteralMatches(sa, "...", "", sb, 3);
    assert "..." + "" == "...";
  }

  /** Corrected, `stride("a..<b")` still yields `a, ..., b-1`. */
  lemma StrideFixedHalfOpen(a: nat, b: nat)
    requires a <= b
    ensures forall x :: x in StrideStrFixed(NatToString(a) + "..<" + NatToString(b), None).0 <==> a <= x < b
  {
    HalfOpenBounds(NatToString(a), NatToString(b));
    DigitsOfNat(a);
    DigitsOfNat(b);
    FixedYields(NatToString(a) + "..<" + NatToString(b), a, b);
  }

  /** `a..<b` reads as the bounds `a` and `b`. */
  lemma HalfOpenBounds(sa: string, sb: string)
    requires AllDigits(sa) && AllDigits(sb) && |sb| > 0
    ensures StrideBounds(sa + "..<" + sb, 3) == Some((DigitsValue(sa) as int, DigitsValue(sb) as int))
  {
    HalfOpenMatch(sa, sb);
  }

  /** The pattern matches `a..<b` as the digits, the `<` operator and the digits. */
  lemma HalfOpenMatch(sa: string, sb: string)
    requires AllDigits(sa) && AllDigits(sb) && |sb| > 0
    ensures Exec(sa + "..<" + sb, 3, 0) == Some(Match(sa, "<", sb))
  {
    RangeLiteralMatches(sa, "..", "<", sb, 3);
    assert ".." + "<" == "..<";
  }




  /** What `repeatElement` returns after yielding. */
  datatype Repeated<T> = Repeated(count: int, repeatedValue: T)

  /** `repeatElement(element, count)`: `element` yielded `max(count, 0)` times. */
  method RepeatElement<T>(element: T, count: int) returns (values: seq<T>, ret: Repeated<T>)
    ensures |values| == (if count > 0 then count else 0)
    ensures forall k :: 0 <= k < |values| ==> values[k] == element
    ensures ret == Repeated(count, element)
  {
    values := [];
    var i := 0;
    while i < count
      invariant 0 <= i <= (if count > 0 then count else 0)
      invariant |values| == i
      invariant forall k :: 0 <= k < |values| ==> values[k] == element
    {
      values := values + [element];
      i := i + 1;
    }
    ret := Repeated(count, element);
  }
}

=== FILE: strings.dfy ===
/** String helpers shared by the model: joining, splitting, digit strings and JSON quoting. */
module Strings {

  /** `xs.join(sep)` of JavaScript. */
  function Join(sep: string, xs: seq<string>): string
  {
    if |xs| == 0 then ""
    else if |xs| == 1 then xs[0]
    else xs[0] + sep + Join(sep, xs[1..])
  }

  /** `xs.join('')`. */
  function Concat(xs: seq<string>): string
  {
    if |xs| == 0 then "" else xs[0] + Concat(xs[1..])
  }

  lemma ConcatAppend(xs: seq<string>, ys: seq<string>)
    ensures Concat(xs + ys) == Concat(xs) + Concat(ys)
  {
    if |xs| > 0 {
      assert (xs + ys)[1..] == xs[1..] + ys;
      ConcatAppend(xs[1..], ys);
    } else {
      assert xs + ys == ys;
    }
  }

  predicate StartsWith(s: string, prefix: string)
  {
    |prefix| <= |s| && s[..|prefix|] == prefix
  }

  /** The first position of `c` in `s`. */
  function IndexOf(s: string, c: char): (i: nat)
    requires c in s
    ensures i < |s| && s[i] == c && c !in s[..i]
  {
    if s[0] == c then 0 else 1 + IndexOf(s[1..], c)
  }

  /** `s.split(c)` of JavaScript for a one-character separator. */
  function Split(s: string, c: char): (parts: seq<string>)
    ensures |parts| > 0
    decreases |s|
  {
    if c in s then
      var i := IndexOf(s, c);
      [s[..i]] + Split(s[i + 1..], c)
    else [s]
  }

  lemma IndexOfAfter(x: string, c: char, y: string)
    requires c !in x
    ensures c in x + [c] + y && IndexOf(x + [c] + y, c) == |x|
  {
    var s := x + [c] + y;
    assert s[|x|] == c;
    if |x| > 0 {
      assert s[1..] == x[1..] + [c] + y;
      IndexOfAfter(x[1..], c, y);
    }
  }

  /** Splitting a join on a separator that occurs in no part gives the parts back. */
  lemma {:induction false} SplitJoin(c: char, xs: seq<string>)
    requires |xs| > 0
    requires forall i :: 0 <= i < |xs| ==> c !in xs[i]
    ensures Split(Join([c], xs), c) == xs
  {
    if |xs| == 1 {
      assert Join([c], xs) == xs[0];
    } else {
      var rest := Join([c], xs[1..]);
      assert Join([c], xs) == xs[0] + [c] + rest;
      IndexOfAfter(xs[0], c, rest);
      var s := xs[0] + [c] + rest;
      assert s[..|xs[0]|] == xs[0];
      assert s[|xs[0]| + 1..] == rest;
      SplitJoin(c, xs[1..]);
    }
  }

  predicate IsDigit(c: char)
  {
    '0' <= c <= '9'
  }

  predicate AllDigits(s: string)
  {
    forall i :: 0 <= i < |s| ==> IsDigit(s[i])
  }

  /** The decimal value of a digit string; `Number("")` is 0 in JavaScript. */
  function DigitsToNat(s: string): nat
    requires AllDigits(s)
  {
    if |s| == 0 then 0
    else DigitsToNat(s[..|s| - 1]) * 10 + (s[|s| - 1] as int - '0' as int)
  }

  function DigitChar(d: nat): (c: char)
    requires d < 10
    ensures IsDigit(c) && c as int - '0' as int == d
  {
    ('0' as int + d) as char
  }

  /** `String(n)` for a non-negative integer. */
  function NatToString(n: nat): (s: string)
    ensures |s| > 0 && AllDigits(s)
  {
    if n < 10 then [DigitChar(n)] else NatToString(n / 10) + [DigitChar(n % 10)]
  }

  /** `String(i)` for an integer. */
  function IntToString(i: int): string
  {
    if i < 0 then "-" + NatToString(-i) else NatToString(i)
  }

  /** Printing a number and reading its digits back gives the number. */
  lemma {:induction false} DigitsOfNat(n: nat)
    ensures DigitsToNat(NatToString(n)) == n
  {
    if n >= 10 {
      var s := NatToString(n);
      assert s[..|s| - 1] == NatToString(n / 10);
      DigitsOfNat(n / 10);
    }
  }

  /** The white space `String.prototype.trim` removes. */
  predicate IsJsWhitespace(c: char)
  {
    c == ' ' || c == '\t' || c == '\n' || c == '\r' || c == '\U{B}' || c == '\U{C}'
    || c == '\U{A0}' || c == '\U{1680}' || ('\U{2000}' <= c <= '\U{200A}') || c == '\U{2028}'
    || c == '\U{2029}' || c == '\U{202F}' || c == '\U{205F}' || c == '\U{3000}' || c == '\U{FEFF}'
  }

  /** The text after leading white space (the part of `trim()` that `startsWith` sees). */
  function TrimStart(s: string): (t: string)
    ensures |t| <= |s| && t == s[|s| - |t|..]
    ensures |t| > 0 ==> !IsJsWhitespace(t[0])
    ensures forall i :: 0 <= i < |s| - |t| ==> IsJsWhitespace(s[i])
  {
    if |s| > 0 && IsJsWhitespace(s[0]) then TrimStart(s[1..]) else s
  }

  function HexDigit(d: nat): char
    requires d < 16
  {
    if d < 10 then DigitChar(d) else ('a' as int + d - 10) as char
  }

  /** How `JSON.stringify` writes one character inside a string. */
  function EscapeChar(c: char): (e: string)
    ensures |e| > 0
  {
    if c == '"' then "\\\""
    else if c == '\\' then "\\\\"
    else if c == '\U{8}' then "\\b"
    else if c == '\U{C}' then "\\f"
    else if c == '\n' then "\\n"
    else if c == '\r' then "\\r"
    else if c == '\t' then "\\t"
    else if (c as int) < 0x20 then "\\u00" + [HexDigit(c as int / 16), HexDigit(c as int % 16)]
    else [c]
  }

  function Escape(s: string): string
  {
    if |s| == 0 then "" else EscapeChar(s[0]) + Escape(s[1..])
  }

  /** `JSON.stringify(s)` for a string `s`. */
  function JsonQuote(s: string): (q: string)
    ensures |q| >= 2 && q[0] == '"' && q[|q| - 1] == '"'
  {
    "\"" + Escape(s) + "\""
  }

  function HexValue(c: char): nat
  {
    if '0' <= c <= '9' then c as int - '0' as int
    else if 'a' <= c <= 'f' then c as int - 'a' as int + 10
    else 0
  }

  /** Reads back the body of a JSON string literal (the inverse of `Escape`). */
  function Unescape(e: string): string
    decreases |e|
  {
    if |e| == 0 then ""
    else if e[0] == '\\' && |e| >= 2 then
      var k := e[1];
      if k == 'u' && |e| >= 6 then
        [(HexValue(e[4]) * 16 + HexValue(e[5])) as char] + Unescape(e[6..])
      else
        [if k == 'b' then '\U{8}' else if k == 'f' then '\U{C}' else if k == 'n' then '\n'
         else if k == 'r' then '\r' else if k == 't' then '\t' else k] + Unescape(e[2..])
    else [e[0]] + Unescape(e[1..])
  }

  lemma UnescapeChar(c: char, rest: string)
    ensures Unescape(EscapeChar(c) + rest) == [c] + Unescape(rest)
  {
    var e := EscapeChar(c) + rest;
    if c == '"' || c == '\\' || c == '\U{8}' || c == '\U{C}' || c == '\n' || c == '\r' || c == '\t' {
      assert e[2..] == rest;
    } else if (c as int) < 0x20 {
      assert e[6..] == rest;
      assert HexValue(e[4]) * 16 + HexValue(e[5]) == c as int;
    } else {
      assert e[1..] == rest;
    }
  }

  /** Reading a quoted string back gives the original text. */
  lemma {:induction false} UnescapeEscape(s: string)
    ensures Unescape(Escape(s)) == s
  {
    if |s| > 0 {
      UnescapeChar(s[0], Escape(s[1..]));
      UnescapeEscape(s[1..]);
    }
  }
}

=== FILE: switch.dfy ===
/** Switch statements (`processSwitchStatement`): every case body is closed with a `break`, and the
    comma-separated patterns of one Swift case become stacked target `case` labels. */
module Switch {
  import opened Wrappers
  import opened Strings
  import opened Syntax
  import TypeMapper

  /** One piece of output a child of a `switch_entry` contributes. */
  datatype Piece =
    | DefaultLabel(keyword: string)
    | CaseSeparator
    | CaseKeyword(keyword: string)
    | Pattern(name: string)
    | Body(text: string)
    | Break

  function RenderPiece(p: Piece): string
  {
    match p
    case DefaultLabel(k) => k + ": "
    case CaseSeparator => " case "
    case CaseKeyword(k) => " " + k + " "
    case Pattern(l) => l + ":"
    case Body(t) => t
    case Break => ";break;\n"
  }

  function Render(ps: seq<Piece>): string
  {
    Concat(seq(|ps|, i requires 0 <= i < |ps| => RenderPiece(ps[i])))
  }

  /** The child kinds a `switch_entry` accepts. */
  predicate IsEntryKind(k: string)
  {
    k == "default_keyword" || k == ":" || k == "," || k == "case" || k == "switch_pattern" || k == "statements"
  }

  /** A child that translates without error: a known kind, and an enum-member pattern (`.red`)
      only inside a class, whose name qualifies it. */
  predicate EntryChildOk(ctx: Context, se: Node)
  {
    IsEntryKind(se.kind) && !(se.kind == "switch_pattern" && StartsWith(se.text, ".") && ctx.currentClass.None?)
  }

  /** The pieces one child of a `switch_entry` contributes; the `:` is swallowed so that a
      following label stacks onto this one. */
  function ChildPieces(ctx: Context, se: Node, h: Helpers): (r: Outcome<seq<Piece>>)
    ensures r.Ok? <==> EntryChildOk(ctx, se)
    ensures se.kind == ":" ==> r == Ok([])
    ensures se.kind == "," ==> r == Ok([CaseSeparator])
    ensures se.kind == "statements" && r.Ok? ==> r.value == [Body(Join(" ", h.Statements(se))), Break]
    ensures se.kind == "switch_pattern" && r.Ok? && StartsWith(se.text, ".")
            ==> r.value == [Pattern(ctx.currentClass.value + se.text)]
  {
    match se.kind
    case "default_keyword" => Ok([DefaultLabel(se.text)])
    case ":" => Ok([])
    case "," => Ok([CaseSeparator])
    case "case" => Ok([CaseKeyword(se.text)])
    case "switch_pattern" =>
      if StartsWith(se.text, ".") then
        if ctx.currentClass.None? then Err(Unresolved("switch_pattern requires a class"))
        else Ok([Pattern(ctx.currentClass.value + se.text)])
      else Ok([Pattern(se.text)])
    case "statements" => Ok([Body(Join(" ", h.Statements(se))), Break])
    case _ => Err(UnknownNode(se.kind, "switch_entry"))
  }

  function CountPiece(ps: seq<Piece>, p: Piece): nat
  {
    if |ps| == 0 then 0 else (if ps[0] == p then 1 else 0) + CountPiece(ps[1..], p)
  }

  lemma {:induction false} CountPieceAppend(a: seq<Piece>, b: seq<Piece>, p: Piece)
    ensures CountPiece(a + b, p) == CountPiece(a, p) + CountPiece(b, p)
  {
    if |a| > 0 {
      assert (a + b)[0] == a[0];
      assert (a + b)[1..] == a[1..] + b;
      CountPieceAppend(a[1..], b, p);
    } else {
      assert a + b == b;
    }
  }

  /** Every body is immediately followed by a `break`, and every `break` immediately follows a
      body: no case falls through into the next. */
  predicate BodiesBreak(ps: seq<Piece>)
  {
    && (forall i :: 0 <= i < |ps| && ps[i].Body? ==> i + 1 < |ps| && ps[i + 1] == Break)
    && (forall i :: 0 <= i < |ps| && ps[i] == Break ==> 0 < i && ps[i - 1].Body?)
  }

  /** The pieces of a whole `switch_entry`: the first failing child fails the entry. */
  function EntryPieces(ctx: Context, cs: seq<Node>, h: Helpers): (r: Outcome<seq<Piece>>)
    ensures r.Ok? <==> forall i :: 0 <= i < |cs| ==> EntryChildOk(ctx, cs[i])
    ensures r.Ok? ==> BodiesBreak(r.value)
    ensures r.Ok? ==> CountPiece(r.value, Break) == CountKind(cs, "statements")
    ensures r.Ok? ==> CountPiece(r.value, CaseSeparator) == CountKind(cs, ",")
    decreases |cs|
  {
    if |cs| == 0 then Ok([])
    else
      var p :- ChildPieces(ctx, cs[0], h);
      var rest :- EntryPieces(ctx, cs[1..], h);
      assert forall i :: 1 <= i < |cs| ==> cs[i] == cs[1..][i - 1];
      ChildPiecesShape(ctx, cs[0], h);
      BodiesBreakAppend(p, rest);
      CountPieceAppend(p, rest, Break);
      CountPieceAppend(p, rest, CaseSeparator);
      Ok(p + rest)
  }

  /** One child's pieces: a body only with its `break`, and a separator only from a `,`. */
  lemma ChildPiecesShape(ctx: Context, se: Node, h: Helpers)
    requires ChildPieces(ctx, se, h).Ok?
    ensures BodiesBreak(ChildPieces(ctx, se, h).value)
    ensures CountPiece(ChildPieces(ctx, se, h).value, Break) == if se.kind == "statements" then 1 else 0
    ensures CountPiece(ChildPieces(ctx, se, h).value, CaseSeparator) == if se.kind == "," then 1 else 0
  {
    var p := ChildPieces(ctx, se, h).value;
    if se.kind == "statements" {
      assert p[1..] == [Break] && p[1..][1..] == [];
      assert CountPiece(p[1..], Break) == 1 && CountPiece(p[1..], CaseSeparator) == 0;
    } else if se.kind == ":" {
      assert p == [];
    } else {
      assert |p| == 1 && p[1..] == [];
    }
  }

  /** Joining two runs in which every body breaks keeps that so. */
  lemma BodiesBreakAppend(a: seq<Piece>, b: seq<Piece>)
    requires BodiesBreak(a) && BodiesBreak(b)
    ensures BodiesBreak(a + b)
  {
    forall i | 0 <= i < |a + b| && (a + b)[i] == Break
      ensures 0 < i && (a + b)[i - 1].Body?
    {
      if i >= |a| {
        assert b[i - |a|] == Break;
      }
    }
  }

  /** One child of the `switch_statement` itself. */
  function SwitchChild(ctx: Context, n: Node, h: Helpers): (r: Outcome<string>)
    ensures !(n.kind == "switch_entry") ==> (r.Ok? <==> IsSwitchKind(n.kind))
    ensures n.kind == "self_expression" ==> r == Ok("this")
    ensures n.kind == "switch" ==> r == Ok(n.text + "(")
    ensures n.kind == "{" ==> r == Ok(")" + n.text + "\n")
    ensures n.kind == "}" ==> r == Ok(n.text)
    ensures n.kind == "switch_entry" ==> (r.Ok? <==> EntryPieces(ctx, n.children, h).Ok?)
    ensures n.kind == "switch_entry" && r.Ok? ==> r.value == Render(EntryPieces(ctx, n.children, h).value)
    ensures n.kind == "simple_identifier" ==> r == Ok(TypeMapper.HandleRHS(ctx, n.text))
  {
    match n.kind
    case "self_expression" => Ok("this")
    case "switch" => Ok(n.text + "(")
    case "switch_entry" =>
      var ps :- EntryPieces(ctx, n.children, h);
      Ok(Render(ps))
    case "{" => Ok(")" + n.text + "\n")
    case "}" => Ok(n.text)
    case "simple_identifier" => Ok(TypeMapper.HandleRHS(ctx, n.text))
    case _ => Err(UnknownNode(n.kind, "switch_statement"))
  }

  predicate IsSwitchKind(k: string)
  {
    k == "self_expression" || k == "switch" || k == "switch_entry" || k == "{" || k == "}" || k == "simple_identifier"
  }

  /** The children's translations, all or nothing. */
  function SwitchChildren(ctx: Context, cs: seq<Node>, h: Helpers): (r: Outcome<seq<string>>)
    ensures r.Ok? ==> |r.value| == |cs|
    ensures r.Ok? ==> forall i :: 0 <= i < |cs| ==> SwitchChild(ctx, cs[i], h) == Ok(r.value[i])
    ensures r.Ok? <==> forall i :: 0 <= i < |cs| ==> SwitchChild(ctx, cs[i], h).Ok?
    decreases |cs|
  {
    if |cs| == 0 then Ok([])
    else
      var first :- SwitchChild(ctx, cs[0], h);
      var rest :- SwitchChildren(ctx, cs[1..], h);
      assert forall i :: 1 <= i < |cs| ==> cs[i] == cs[1..][i - 1];
      Ok([first] + rest)
  }

  /** `processSwitchStatement`: the translations of the children, concatenated. */
  function ProcessSwitch(ctx: Context, n: Node, h: Helpers): (r: Outcome<string>)
    ensures r.Ok? <==> n.kind == "switch_statement"
                       && forall i :: 0 <= i < |n.children| ==> SwitchChild(ctx, n.children[i], h).Ok?
    ensures r.Ok? ==> r.value == Concat(SwitchChildren(ctx, n.children, h).value)
  {
    var _ :- Expect(n, "switch_statement");
    var parts :- SwitchChildren(ctx, n.children, h);
    Ok(Concat(parts))
  }

  /** A switch is accepted exactly when every child has a known kind and every entry is accepted. */
  lemma SwitchAccepted(ctx: Context, n: Node, h: Helpers)
    requires n.kind == "switch_statement"
    ensures ProcessSwitch(ctx, n, h).Ok?
            <==> forall i :: 0 <= i < |n.children| ==>
                   IsSwitchKind(n.children[i].kind)
                   && (n.children[i].kind == "switch_entry"
                       ==> forall j :: 0 <= j < |n.children[i].children| ==> EntryChildOk(ctx, n.children[i].children[j]))
  {
  }

  lemma EntryPiecesCons(ctx: Context, c: Node, rest: seq<Node>, h: Helpers)
    requires EntryChildOk(ctx, c) && EntryPieces(ctx, rest, h).Ok?
    ensures EntryPieces(ctx, [c] + rest, h) == Ok(ChildPieces(ctx, c, h).value + EntryPieces(ctx, rest, h).value)
  {
    assert ([c] + rest)[0] == c && ([c] + rest)[1..] == rest;
  }

  /** Inside a class, every enum-member pattern `.m` of an accepted entry appears as the label
      `C.m`, qualified by the class name. */
  lemma {:induction false} PatternsQualified(ctx: Context, cs: seq<Node>, h: Helpers)
    requires EntryPieces(ctx, cs, h).Ok?
    ensures forall i :: 0 <= i < |cs| && cs[i].kind == "switch_pattern" && StartsWith(cs[i].text, ".")
              ==> ctx.currentClass.Some? && Pattern(ctx.currentClass.value + cs[i].text) in EntryPieces(ctx, cs, h).value
    decreases |cs|
  {
    if |cs| > 0 {
      PatternsQualified(ctx, cs[1..], h);
      EntryPiecesCons(ctx, cs[0], cs[1..], h);
      assert [cs[0]] + cs[1..] == cs;
      forall i | 0 <= i < |cs| && cs[i].kind == "switch_pattern" && StartsWith(cs[i].text, ".")
        ensures ctx.currentClass.Some? && Pattern(ctx.currentClass.value + cs[i].text) in EntryPieces(ctx, cs, h).value
      {
        if i > 0 {
          assert cs[i] == cs[1..][i - 1];
        }
      }
    }
  }
}

=== FILE: syntax.dfy ===
/** The translator's inputs: syntax nodes, the scope queries of the context, configuration and the
    collaborators whose code is not part of this model. */
module Syntax {
  import opened Wrappers

  /** A concrete-syntax-tree node as the parser hands it over: kind tag, raw text, children. */
  datatype Node = Node(kind: string, text: string, children: seq<Node>)

  /** One import the output file needs: `import { name } from specifier`. */
  datatype Import = Import(name: string, specifier: string)

  /** Emitted target text together with the import list as it stands afterwards. */
  datatype Emit = Emit(text: string, imports: seq<Import>)

  /** The context queries the translator asks while emitting code.
      `inThisScope` holds for members of the enclosing class, `hasClass` for classes declared in
      this run, `classNameFor` gives the namespaced name of a nested class, `inScope` holds for
      bindings visible in the current frame, `currentClass` is the class being built. */
  datatype Context = Context(
    inThisScope: string -> bool,
    hasClass: string -> bool,
    classNameFor: string -> string,
    inScope: string -> bool,
    currentClass: Option<string>)
  {
    /** The context after a class named `name` has been declared and entered. */
    function EnterClass(name: string): (c: Context)
      ensures c.hasClass(name) && c.currentClass == Some(name)
    {
      this.(hasClass := s => s == name || hasClass(s), currentClass := Some(name))
    }
  }

  /** The two configuration tables: source type name to target type name, and module remapping. */
  datatype Config = Config(builtInTypeMap: map<string, string>, importMap: map<string, string>)

  /** The tables the translator is constructed with when the caller supplies none. */
  const DefaultConfig: Config := Config(
    map["Character" := "string", "Bool" := "boolean", "number" := "number",
        "Double" := "number", "Int" := "number", "String" := "string"],
    map["SwiftUI" := "@tswift/ui"])

  /** The module `asType` imports from when no module is named. */
  const UtilModule: string := "@tswift/util"

  /** A function parameter; the empty string stands for a field that was never set (falsy). */
  datatype Param = Param(name: string, internal: string, typ: string, optional: bool)

  /** Fatal translation errors; there is no partial output. */
  datatype TranslateError =
    | UnknownNode(kind: string, where: string)
    | Structural(message: string)
    | Unresolved(message: string)

  type Outcome<T> = Result<T, TranslateError>

  /** Collaborators the modelled functions call but whose code is not part of this model:
      `sub` is the translation of a child node (the general dispatcher), `findSib` the sibling
      search of the node helpers, `lambdaReturn` and `toParamStr` the text helpers, `parseStr` and
      `toStringLit` the string-interpolation helpers, and `reparse` the translation of a source
      fragment parsed afresh. */
  datatype Helpers = Helpers(
    sub: Node -> string,
    findSib: (string, Option<Node>) -> Option<Node>,
    lambdaReturn: seq<string> -> string,
    toParamStr: seq<Param> -> string,
    parseStr: string -> (seq<string>, seq<string>),
    toStringLit: (seq<string>, seq<string>) -> string,
    reparse: string -> string)
  {
    /** `processNode` on a node that may be missing: a missing node translates to nothing. */
    function SubOpt(n: Option<Node>): string
    {
      match n
      case None => ""
      case Some(m) => sub(m)
    }

    /** `processStatement`: the translations of a node's children, in order. */
    function Statements(n: Node): (r: seq<string>)
      ensures |r| == |n.children|
      ensures forall i :: 0 <= i < |r| ==> r[i] == sub(n.children[i])
    {
      seq(|n.children|, i requires 0 <= i < |n.children| => sub(n.children[i]))
    }
  }

  /** How many of `cs` have kind `k`. */
  function CountKind(cs: seq<Node>, k: string): nat
  {
    if |cs| == 0 then 0 else (if cs[0].kind == k then 1 else 0) + CountKind(cs[1..], k)
  }

  /** The text of a child that may be missing; a missing one reads as `undefined`, which `asType`
      treats like the empty name. */
  function ChildText(n: Node, i: nat): string
  {
    if i < |n.children| then n.children[i].text else ""
  }

  /** The last node of kind `k` among `cs`: where a handler overwrites a value for each such
      child, a later one wins over an earlier one. */
  function LastOfKind(cs: seq<Node>, k: string): (r: Option<Node>)
    ensures r.None? <==> forall i :: 0 <= i < |cs| ==> cs[i].kind != k
    ensures r.Some? ==> exists i :: 0 <= i < |cs| && cs[i] == r.value && cs[i].kind == k
                                    && forall j :: i < j < |cs| ==> cs[j].kind != k
  {
    if |cs| == 0 then None
    else
      assert forall i :: 1 <= i < |cs| ==> cs[i] == cs[1..][i - 1];
      match LastOfKind(cs[1..], k)
      case Some(u) => Some(u)
      case None => if cs[0].kind == k then Some(cs[0]) else None
  }

  /** Extending a list that extends another extends that one too. */
  lemma ImportsExtend(a: seq<Import>, b: seq<Import>, c: seq<Import>)
    requires |a| <= |b| && b[..|a|] == a
    requires |b| <= |c| && c[..|b|] == b
    ensures |a| <= |c| && c[..|a|] == a
  {
    assert c[..|a|] == c[..|b|][..|a|];
  }

  /** Every import of a list is still there once the list is extended. */
  lemma ImportsKept(a: seq<Import>, b: seq<Import>)
    requires |a| <= |b| && b[..|a|] == a
    ensures forall i :: i in a ==> i in b
  {
    forall i | i in a ensures i in b {
      var j :| 0 <= j < |a| && a[j] == i;
      assert b[..|a|][j] == i;
    }
  }

  /** `assertNodeType`: a handler given a node of another kind fails. */
  function Expect(n: Node, kind: string): (r: Outcome<()>)
    ensures r.Ok? <==> n.kind == kind
  {
    if n.kind == kind then Ok(()) else Err(Structural("expected " + kind))
  }
}

=== FILE: typemap.dfy ===
/** Type-name mapping with lazy import registration (`asType`) and identifier resolution
    (`handleRHS`). */
module TypeMapper {
  import opened Wrappers
  import opened Strings
  import opened Syntax

  /** `importMap[specifier] || specifier`: the remapped module, unless the entry is missing or empty. */
  function ModuleFor(cfg: Config, specifier: string): string
  {
    if specifier in cfg.importMap && cfg.importMap[specifier] != "" then cfg.importMap[specifier]
    else specifier
  }

  /** The names `asType` returns unchanged without importing anything: a declared class (directly
      or under its namespaced name), a name in scope, an anonymous `{...}` type, or a name that is
      already a built-in target type. */
  predicate Resolvable(cfg: Config, ctx: Context, name: string)
  {
    || ctx.hasClass(ctx.classNameFor(name))
    || ctx.hasClass(name)
    || ctx.inScope(name)
    || StartsWith(TrimStart(name), "{")
    || name in cfg.builtInTypeMap.Values
  }

  /** The names a use of which registers an import; every such use appends one, duplicates included. */
  predicate NeedsImport(cfg: Config, ctx: Context, name: string)
  {
    name != "" && name !in cfg.builtInTypeMap && !Resolvable(cfg, ctx, name)
  }

  /** `asType(ctx, name, specifier)`: maps a source type name to its target name, registering an
      import for names it cannot otherwise resolve. */
  function AsType(cfg: Config, ctx: Context, imports: seq<Import>, name: string, specifier: string): (r: Emit)
    ensures name == "" ==> r == Emit("", imports)
    ensures name != "" && name in cfg.builtInTypeMap ==> r == Emit(cfg.builtInTypeMap[name], imports)
    ensures (name != "" && name !in cfg.builtInTypeMap && ctx.hasClass(ctx.classNameFor(name)))
            ==> r == Emit(ctx.classNameFor(name), imports)
    ensures (name != "" && name !in cfg.builtInTypeMap && !ctx.hasClass(ctx.classNameFor(name)))
            ==> r.text == name
    ensures NeedsImport(cfg, ctx, name) ==> r.imports == imports + [Import(name, ModuleFor(cfg, specifier))]
    ensures !NeedsImport(cfg, ctx, name) ==> r.imports == imports
    ensures |imports| <= |r.imports| && r.imports[..|imports|] == imports
  {
    if name == "" then Emit("", imports)
    else if name in cfg.builtInTypeMap then Emit(cfg.builtInTypeMap[name], imports)
    else
      var nested := ctx.classNameFor(name);
      if ctx.hasClass(nested) then Emit(nested, imports)
      else if ctx.hasClass(name) then Emit(name, imports)
      else if ctx.inScope(name) then Emit(name, imports)
      else if StartsWith(TrimStart(name), "{") then Emit(name, imports)
      else if name in cfg.builtInTypeMap.Values then Emit(name, imports)
      else Emit(name, imports + [Import(name, ModuleFor(cfg, specifier))])
  }

  /** Two contexts that know the same classes under the same names; binding a name changes
      neither. */
  ghost predicate SameClasses(c1: Context, c2: Context)
  {
    && (forall s :: c1.hasClass(s) == c2.hasClass(s))
    && (forall s :: c1.classNameFor(s) == c2.classNameFor(s))
  }

  /** The text `asType` gives a name depends on the known classes only, not on the names in
      scope or on the import table. */
  lemma AsTypeTextIgnoresScope(cfg: Config, c1: Context, c2: Context, i1: seq<Import>, i2: seq<Import>, name: string)
    requires SameClasses(c1, c2)
    ensures AsType(cfg, c1, i1, name, UtilModule).text == AsType(cfg, c2, i2, name, UtilModule).text
  {
    assert c1.classNameFor(name) == c2.classNameFor(name);
    assert c1.hasClass(c1.classNameFor(name)) == c2.hasClass(c1.classNameFor(name));
  }

  /** The imports a run of type uses registers: one per use of a name that needs one, in order,
      repeats included (nothing here removes a duplicate). */
  function ImportsFor(cfg: Config, ctx: Context, names: seq<string>, specifier: string): seq<Import>
  {
    if |names| == 0 then []
    else (if NeedsImport(cfg, ctx, names[0]) then [Import(names[0], ModuleFor(cfg, specifier))] else [])
         + ImportsFor(cfg, ctx, names[1..], specifier)
  }

  /** Mapping a run of names one after another, threading the import list. */
  function AsTypeAll(cfg: Config, ctx: Context, imports: seq<Import>, names: seq<string>, specifier: string): seq<Import>
    decreases |names|
  {
    if |names| == 0 then imports
    else AsTypeAll(cfg, ctx, AsType(cfg, ctx, imports, names[0], specifier).imports, names[1..], specifier)
  }

  /** The import table only grows, by appending exactly the imports the names need, in order. */
  lemma {:induction false} ImportsAppendOnly(cfg: Config, ctx: Context, imports: seq<Import>, names: seq<string>, specifier: string)
    ensures AsTypeAll(cfg, ctx, imports, names, specifier) == imports + ImportsFor(cfg, ctx, names, specifier)
    decreases |names|
  {
    if |names| > 0 {
      var next := AsType(cfg, ctx, imports, names[0], specifier).imports;
      ImportsAppendOnly(cfg, ctx, next, names[1..], specifier);
    }
  }

  /** With the default tables, every built-in source type maps to a target type that itself maps
      to itself, and neither use imports anything (given no declared class shadows it). */
  lemma BuiltInTargetsAreFixed(ctx: Context, imports: seq<Import>, name: string)
    requires name in DefaultConfig.builtInTypeMap
    requires !ctx.hasClass(ctx.classNameFor(DefaultConfig.builtInTypeMap[name]))
    ensures var first := AsType(DefaultConfig, ctx, imports, name, UtilModule);
            first.imports == imports
            && AsType(DefaultConfig, ctx, imports, first.text, UtilModule) == first
  {
    var t := DefaultConfig.builtInTypeMap[name];
    assert t in DefaultConfig.builtInTypeMap.Values;
    assert t == "string" || t == "boolean" || t == "number";
  }

  /** `handleRHS`: an identifier used as a value becomes a member access on `this`, an
      instantiation of a known class (namespaced name first), or stays as written. */
  function HandleRHS(ctx: Context, name: string): (r: string)
    ensures ctx.inThisScope(name) ==> r == "this." + name
    ensures !ctx.inThisScope(name) && ctx.hasClass(ctx.classNameFor(name)) ==> r == "new " + ctx.classNameFor(name)
    ensures !ctx.inThisScope(name) && !ctx.hasClass(ctx.classNameFor(name)) && ctx.hasClass(name) ==> r == "new " + name
  {
    if ctx.inThisScope(name) then "this." + name
    else
      var nested := ctx.classNameFor(name);
      if ctx.hasClass(nested) then "new " + nested
      else if ctx.hasClass(name) then "new " + name
      else name
  }

  /** The emitted form tells how the identifier was resolved: a `this.` prefix exactly for class
      members, a `new ` prefix exactly for known classes, and the bare name otherwise. */
  lemma RHSFormReveals(ctx: Context, name: string)
    requires !StartsWith(name, "this.") && !StartsWith(name, "new ")
    ensures StartsWith(HandleRHS(ctx, name), "this.") <==> ctx.inThisScope(name)
    ensures StartsWith(HandleRHS(ctx, name), "new ")
            <==> (!ctx.inThisScope(name) && (ctx.hasClass(ctx.classNameFor(name)) || ctx.hasClass(name)))
    ensures (HandleRHS(ctx, name) == name)
            <==> (!ctx.inThisScope(name) && !ctx.hasClass(ctx.classNameFor(name)) && !ctx.hasClass(name))
  {
    var r := HandleRHS(ctx, name);
    if ctx.inThisScope(name) {
      assert r[..5] == "this.";
      assert r[0] == 't';
    } else if ctx.hasClass(ctx.classNameFor(name)) || ctx.hasClass(name) {
      assert r[..4] == "new ";
      assert r[0] == 'n';
    }
  }
}

=== FILE: types.dfy ===
/** The null-tolerant `map` helper and the `Optional` box of the utility library. */
module UtilTypes {
  import opened Wrappers
  import opened JsValues

  /** `map`'s first argument: an array whose elements may be `null`/`undefined` (`None`), or
      one value that may be. */
  datatype Input<T> = Many(items: seq<Option<T>>) | One(item: Option<T>)

  /** The array case in one pass: missing elements are skipped without calling `transform`,
      and falsy results are dropped. */
  function MapItems<T>(items: seq<Option<T>>, transform: T -> Value): (r: seq<Value>)
    ensures |r| <= |items|
    ensures forall k :: 0 <= k < |r| ==> Truthy(r[k])
  {
    if |items| == 0 then []
    else
      var rest := MapItems(items[1..], transform);
      match items[0]
      case None => rest
      case Some(v) => if Truthy(transform(v)) then [transform(v)] + rest else rest
  }

  /** `map(value, transform)`. A single value is transformed without the falsy filter. */
  function Map<T>(value: Input<T>, transform: T -> Value): (r: seq<Value>)
    ensures value.One? && value.item.None? ==> r == []
    ensures value.One? && value.item.Some? ==> r == [transform(value.item.value)]
    ensures value.Many? ==> |r| <= |value.items| && forall k :: 0 <= k < |r| ==> Truthy(r[k])
  {
    match value
    case Many(items) => MapItems(items, transform)
    case One(None) => []
    case One(Some(v)) => [transform(v)]
  }

  /** The source's two stages, as an independent reference: `value.map(...)` puts `null` where an
      element is missing, then `.filter(Boolean)` keeps the truthy results in order. */
  function MapStage<T>(items: seq<Option<T>>, transform: T -> Value): (r: seq<Value>)
    ensures |r| == |items|
  {
    seq(|items|, i requires 0 <= i < |items| => if items[i].None? then Null else transform(items[i].value))
  }

  function FilterTruthy(s: seq<Value>): (r: seq<Value>)
  {
    if |s| == 0 then [] else (if Truthy(s[0]) then [s[0]] else []) + FilterTruthy(s[1..])
  }

  /** The one-pass model is the source's map-then-filter. */
  lemma {:induction false} MapIsMapThenFilter<T>(items: seq<Option<T>>, transform: T -> Value)
    ensures MapItems(items, transform) == FilterTruthy(MapStage(items, transform))
  {
    if |items| > 0 {
      MapIsMapThenFilter(items[1..], transform);
      assert MapStage(items, transform)[1..] == MapStage(items[1..], transform);
    }
  }

  /** A value is in the result exactly when it is the truthy image of a present element. */
  lemma {:induction false} MapMembers<T>(items: seq<Option<T>>, transform: T -> Value, x: Value)
    ensures x in MapItems(items, transform) <==>
            Truthy(x) && exists i :: 0 <= i < |items| && items[i].Some? && transform(items[i].value) == x
  {
    if |items| > 0 {
      MapMembers(items[1..], transform, x);
      if Truthy(x) && exists i :: 0 <= i < |items| && items[i].Some? && transform(items[i].value) == x {
        var i :| 0 <= i < |items| && items[i].Some? && transform(items[i].value) == x;
        if i > 0 {
          assert items[1..][i - 1] == items[i];
        }
      }
      if x in MapItems(items[1..], transform) {
        var i :| 0 <= i < |items[1..]| && items[1..][i].Some? && transform(items[1..][i].value) == x;
        assert items[i + 1] == items[1..][i];
      }
    }
  }

  /** An array of present elements whose images are all truthy maps element by element. */
  lemma {:induction false} MapKeepsTruthy<T>(items: seq<Option<T>>, transform: T -> Value)
    requires forall i :: 0 <= i < |items| ==> items[i].Some? && Truthy(transform(items[i].value))
    ensures |MapItems(items, transform)| == |items|
    ensures forall i :: 0 <= i < |items| ==> MapItems(items, transform)[i] == transform(items[i].value)
  {
    if |items| > 0 {
      MapKeepsTruthy(items[1..], transform);
    }
  }

  /** `Optional`: a box whose `value` is `null` (`None`) for `Optional.none`. */
  datatype Optional<T> = Optional(value: Option<T>)

  function OptionalSome<T>(v: T): Optional<T>
  {
    Optional(Some(v))
  }

  function OptionalNone<T>(): Optional<T>
  {
    Optional(None)
  }

  /** `Optional.some(v).value` is `v` and `Optional.none.value` is `null`. The last two clauses
      are about the model's value equality of boxes: JavaScript compares two boxes by identity,
      and `Optional.some(null).value === Optional.none.value` there. */
  lemma OptionalValues<T>(v: T, w: T)
    ensures OptionalSome(v).value == Some(v)
    ensures OptionalNone<T>().value.None?
    ensures OptionalSome(v) != OptionalNone()
    ensures OptionalSome(v) == OptionalSome(w) <==> v == w
  {
  }
}

=== FILE: wrappers.dfy ===
/** Option and Result for the model's optional values and fatal translation errors. */
module Wrappers {

  /** An optional value; `None` stands for JavaScript's `undefined` / `null`. */
  datatype Option<+T> = None | Some(value: T) {
    function GetOr(default: T): T {
      match this
      case Some(v) => v
      case None => default
    }
  }

  /** The outcome of a step that may throw: `Err` is the exception. */
  datatype Result<+T, +E> = Ok(value: T) | Err(error: E) {
    predicate IsFailure() {
      Err?
    }

    function PropagateFailure<U>(): Result<U, E>
      requires Err?
    {
      Err(error)
    }

    function Extract(): T
      requires Ok?
    {
      value
    }
  }
}
